=== FILE: README.md ===
# Idea bot — a Dafny model

The idea bot captures ideas sent as text, voice, photos or documents to a Telegram bot or posted to
an HTTP API. It stores them as pages of a Notion database, asks a clarifying question with OpenAI,
and enriches them with a category, a confidence, competitors and a market estimate. It also reports
statistics and manages the database's category options.

This project models the bot's core in Dafny:

- the helper library (`lib/utils.js`);
- the three service clients (`lib/telegram.js`, `lib/openai.js`, `lib/notion.js`);
- the seven serverless handlers: capture, clarify, enrich-lite, categories, stats, and the two
  Telegram webhooks.

Each source file is one module:

| module | file | form |
|---|---|---|
| `Utils` (`utils.dfy`) | `lib/utils.js` | pure functions and lemmas; loops as methods |
| `Telegram` (`telegram.dfy`) | `lib/telegram.js` | class `TelegramClient` with its lazily created bot; pure formatting functions |
| `OpenAI` (`openai.dfy`) | `lib/openai.js` | class `OpenAIClient` whose cost ledger its methods update |
| `Notion` (`notion.dfy`) | `lib/notion.js` | methods that return the SDK calls they make; the business-plan loops are methods proved against specification functions |
| `Capture` (`capture.dfy`) | `api/capture.js` | handler methods |
| `Clarify` (`clarify.dfy`) | `api/clarify.js` | handler methods |
| `EnrichLite` (`enrich.dfy`) | `api/enrich-lite.js` | handler methods |
| `Categories` (`categories.dfy`) | `api/categories.js` | handler methods |
| `Stats` (`stats.dfy`) | `api/stats.js` | handler methods |
| `Webhook` (`webhook.dfy`) | `api/webhook.js` | handler methods |
| `TelegramWebhook` (`telegram_webhook.dfy`) | `api/telegram/webhook.js` | handler methods |

Four shared modules support them:

- `Text`: JavaScript string operations (`toLowerCase`, `trim`, `split`, `join`, `toString`).
- `Markdown`: the regular-expression splits used by `addBusinessPlanContent`.
- `Wrappers`: `Option`, `Result`, JavaScript truthiness, and `||` on strings.
- `Adapters`: the HTTP envelope, the Telegram update shape, and the log of adapter calls.

A handler is a method. It takes the request and what each external call settles to (an `Outcome`,
either `Ok(value)` or `Err(failure)`). It returns the sequence of calls it makes, in order, and the
HTTP response it sends. The `Notion` methods likewise return the Notion SDK requests they issue.
Contracts therefore state which calls happen, which page writes can happen, and what each failure
answers.

`handleCommand` is the same function in `api/webhook.js` and in `api/telegram/webhook.js`. Both
endpoints use `Webhook.HandleCommand`.

## Model

| member | source | states |
|---|---|---|
| `Wrappers.Or` | api/categories.js:76 | `x \|\| fallback` on a string: a non-empty string is kept; an empty or absent one gives the fallback |
| `Text.ToLower` | lib/utils.js:118 | lower-casing keeps the length and lowers each letter in place |
| `Text.Trim` | lib/utils.js:12 | the trimmed string is no longer than the input and neither starts nor ends with whitespace |
| `Text.TrimKeepsMiddle` | lib/utils.js:12 | the trim is a slice of the input with nothing but whitespace before and after it |
| `Text.TrimStartSpaces` | lib/utils.js:12 | the leading trim keeps a suffix of the input and drops only whitespace |
| `Text.TrimEndSpaces` | lib/utils.js:12 | the trailing trim keeps a prefix of the input and drops only whitespace |
| `Text.TrimKeepsNonSpace` | lib/utils.js:12 | every non-whitespace character of the input survives the trim |
| `Text.TrimIdempotent` | lib/utils.js:12 | trimming twice is trimming once |
| `Text.TrimChars` | api/categories.js:62 | trimming introduces no character that was not in the input |
| `Text.Find` | lib/utils.js:126 | the index of the first occurrence of the separator, or the length when there is none |
| `Text.JoinSplit` | lib/utils.js:126-129 | joining the parts of a split with the same separator gives back the string |
| `Text.JoinSplitTail` | lib/utils.js:129 | joining the parts after the first gives the text after the first separator |
| `Text.IntToStringInjective` | lib/telegram.js:109 | two user ids render to the same decimal string exactly when they are equal |
| `Utils.CreateErrorResponse` | lib/utils.js:208-217 | an error envelope with the given code; an empty message becomes 'Unknown error' |
| `Utils.RemoveControls` | lib/utils.js:13 | the result has no character in U+0000–U+001F or U+007F; input without them is unchanged; input of only control characters gives '' |
| `Utils.RemoveControlsAppend` | lib/utils.js:13 | removal distributes over concatenation, so exactly the non-control characters are kept, in their order |
| `Utils.SanitizeInput` | lib/utils.js:8-15 | at most 10000 characters, with no control character; a prefix of the trimmed input with control characters removed, of exactly min(its length, 10000) characters |
| `Utils.SanitizeKeepsCleanInput` | lib/utils.js:11-14 | trimmed input of at most 10000 characters, with no control character, is returned unchanged |
| `Utils.SanitizeCanLeaveLeadingSpace` | lib/utils.js:11-13 | trimming happens before control characters are removed: a non-space control character in front of short text that starts with whitespace leaves that whitespace at the head ("\u0001 a" sanitizes to " a") |
| `Utils.DetermineMessageType` | lib/utils.js:39-45 | voice, then document, then photo, then non-empty text, else unknown; each kind if and only if its condition holds |
| `Utils.UrlMatchAt` | lib/utils.js:67 | a match starts with http:// or https:// and extends past it |
| `Utils.ExtractUrlsShape` | lib/utils.js:66-69 | every extracted URL starts with http:// or https://, contains no whitespace, and occurs in the text |
| `Utils.ExtractUrlsInOrder` | lib/utils.js:66-69 | the URLs are whole matches at increasing, non-overlapping positions of the text, in order of appearance, and no match starting outside them is skipped |
| `Utils.ExtractUrlsEmpty` | lib/utils.js:68 | no URL is extracted exactly when no position of the text starts a match |
| `Utils.TruncateWithEllipsis` | lib/utils.js:102-105 | text that is empty or fits is kept; longer text keeps its first max-3 characters and ends in '...' |
| `Utils.TruncateWithEllipsisBound` | lib/utils.js:102-105 | for a limit of at least 3, the result fits the limit, and it is shorter than the text exactly when the text exceeds the limit |
| `Utils.SplitAtFirst` | lib/utils.js:126-129 | the first part has no separator; when the separator occurs, the data is the first part, the separator, then the rest joined back |
| `Utils.ParseCallbackData` | lib/utils.js:125-131 | the action contains no '_'; data with a '_' is action + '_' + ideaId; data without one is all action with an empty id |
| `Utils.ParseCreateCallbackData` | lib/utils.js:125-135 | parsing created callback data gives back the action and the id, whenever the action has no '_' |
| `Utils.KeepSlugChars` | lib/utils.js:119 | only word characters, whitespace and '-' remain; text made only of them is kept; text with none of them gives '' |
| `Utils.KeepSlugCharsAppend` | lib/utils.js:119 | filtering distributes over concatenation, so exactly the slug-class characters are kept, in their order |
| `Utils.KeepSlugCharsOfLower` | lib/utils.js:118-119 | after lower-casing, what remains are lower-case word characters, '-' or whitespace |
| `Utils.CollapseRuns` | lib/utils.js:120-121 | every character left is the replacement or outside the run class; the result starts with the replacement exactly when the input starts with it or with a run; it is empty only for empty input |
| `Utils.CollapseRunsCases` | lib/utils.js:120-121 | text with no run character is kept, and text made of one run becomes a single replacement |
| `Utils.CollapseRunsAppend` | lib/utils.js:120-121 | collapsing distributes over any cut that does not fall inside a run |
| `Utils.DropRunAppend` | lib/utils.js:120-121 | a maximal run ends at the first character outside the class, even across a concatenation |
| `Utils.CollapseDashesNoDouble` | lib/utils.js:121 | after collapsing, no two '-' are adjacent |
| `Utils.GenerateSlugShape` | lib/utils.js:116-123 | a slug has no whitespace and no "--", and holds only lower-case word characters and '-' |
| `Utils.GenerateSlugKeepsOuterDashes` | lib/utils.js:122 | as written, `generateSlug(" a ")` is "-a-": the outer dashes stay |
| `Utils.TrimDashes` | lib/utils.js:122 | a slice of the input that neither starts nor ends with '-', and keeps the slug shape |
| `Utils.GenerateSlugTrimmed` | lib/utils.js:116-123 | the intended slug: slug-shaped, and neither starting nor ending with '-' |
| `Utils.GenerateSlugTrimmedDropsOuterDashes` | lib/utils.js:122 | the intended slug of " a " is "a" |
| `Utils.RedactSensitiveData` | lib/utils.js:170-181 | the same keys; every key whose lower-cased name contains api_key, token, password or secret maps to '***REDACTED***'; every other key keeps its value |
| `Utils.RetryWithBackoff` | lib/utils.js:75-100 | at least one attempt and at most max(maxRetries, 1); the result is the last attempt's; every earlier attempt failed; a failure means all attempts were used |
| `Telegram.TelegramClient.constructor` | lib/telegram.js:4-10 | the client keeps the token and admin id it is given, and no bot exists yet |
| `Telegram.TelegramClient.GetBot` | lib/telegram.js:12-17 | afterwards the bot exists |
| `Telegram.TelegramClient.SendMessage` | lib/telegram.js:19-29 | sending creates the bot if needed and passes the send's outcome through |
| `Telegram.TelegramClient.SendWithRetry` | lib/telegram.js:31-41 | 1 to 3 attempts; the result is the last attempt's; earlier attempts failed; a failure means all 3 were used |
| `Telegram.IsAdminExactly` | lib/telegram.js:108-110 | without an admin id nobody is admin; with admin id `toString(u)` exactly user u is admin; no two different users are both admin |
| `Telegram.OkCancelKeyboard` | lib/telegram.js:51-58 | one row of two buttons whose data parse to ('ok', id) and ('cancel', id) |
| `Telegram.RetryKeyboard` | lib/telegram.js:60-67 | one row of two buttons whose data parse to ('retry', action_id) and ('cancel', id) |
| `Telegram.FormatErrorMessage` | lib/telegram.js:167-180 | a keyboard is attached exactly when both the retry action and the idea id are truthy; the text always starts with the header and the error message |
| `Telegram.ReplaceCharAppend` | lib/telegram.js:183-187 | a global single-character replace distributes over concatenation |
| `Telegram.EscapeHtml` | lib/telegram.js:182-188 | the per-character escape leaves no '<', '>' or '"' |
| `Telegram.SanitizeForHtmlIsEscape` | lib/telegram.js:182-188 | the four chained replaces equal escaping each character once (& is not escaped twice), so no '<', '>' or '"' remains |
| `Telegram.TruncateText` | lib/telegram.js:190-193 | text that fits is kept; longer text keeps its first max characters and gains '...', so it is max+3 long |
| `Telegram.TruncationRulesDiffer` | lib/telegram.js:190-193 | compared with `truncateWithEllipsis`, the client's truncation is 3 characters longer and agrees on the first max-3 |
| `Telegram.ValidateAudioDuration` | lib/telegram.js:195-198 | a voice message is accepted exactly when it lasts at most 30 seconds |
| `Telegram.GetFileTypeFromMime` | lib/telegram.js:208-226 | image, document or audio exactly for the listed MIME types of each; 'unknown' for every other type |
| `OpenAI.TranscriptionCost` | lib/openai.js:37-38 | the transcription cost is never negative |
| `OpenAI.CompletionCost` | lib/openai.js:82-83 | the completion cost is never negative |
| `OpenAI.CostsAreLinear` | lib/openai.js:37-38 | both costs are additive and monotone; half a MiB of audio costs $0.006 and 1000 tokens cost $0.03 |
| `OpenAI.ClampConfidence` | lib/openai.js:166 | the confidence lies in [0, 1] |
| `OpenAI.ClampConfidenceCases` | lib/openai.js:166 | absent or 0 gives 0.5; values in (0, 1] are kept; above 1 gives 1; below 0 gives 0 |
| `OpenAI.SanitizeEnrichment` | lib/openai.js:157-171 | each field falls back to its default when falsy; at most 5 competitors, the first ones; a non-empty category name; the confidence is `ClampConfidence` of the given one (absent or 0 gives 0.5) and the reasoning falls back to 'Default categorization'; the fixed disclaimer and the given time |
| `OpenAI.SanitizeEnrichmentTwice` | lib/openai.js:157-171 | sanitizing a sanitized analysis changes nothing, except that a confidence of 0 becomes 0.5 |
| `OpenAI.CategoryList` | lib/openai.js:102-104 | the joined names of the existing options, or the eight default names when there are none |
| `OpenAI.OpenAIClient.constructor` | lib/openai.js:7-17 | a zero ledger reset at the given time |
| `OpenAI.OpenAIClient.TrackCost` | lib/openai.js:191-198 | the cost is added to the whisper or gpt bucket (to neither for another type), and the total is their sum |
| `OpenAI.OpenAIClient.GetCostSummary` | lib/openai.js:200-205 | the ledger as it stands, with last24h equal to the sum of the whisper and gpt buckets |
| `OpenAI.OpenAIClient.ResetDailyCosts` | lib/openai.js:207-214 | every bucket returns to zero and the reset time is now |
| `OpenAI.OpenAIClient.TranscribeAudio` | lib/openai.js:19-51 | success returns the text and charges the whisper bucket; failure is 'Transcription failed: …' and charges nothing; the ledger stays consistent |
| `OpenAI.OpenAIClient.GenerateClarifyingQuestion` | lib/openai.js:53-96 | success returns the trimmed question and charges the gpt bucket by tokens; failure charges nothing |
| `OpenAI.OpenAIClient.EnrichIdea` | lib/openai.js:98-189 | a completion that fails or does not parse as JSON is an error that charges nothing; otherwise the result is the sanitized analysis and the gpt bucket is charged |
| `Markdown.NextSectionMark` | lib/notion.js:267 | the first position from `from` where "##" plus whitespace starts |
| `Markdown.SplitSections` | lib/notion.js:267 | the sections concatenate back to the content; every section after the first starts with a "##"-plus-whitespace mark and has none after its first position; the first section is non-empty for non-empty content and starts with the mark when the content does |
| `Markdown.NextBreak` | lib/notion.js:293 | the first position from `from` where a blank-line separator matches |
| `Markdown.SplitParagraphs` | lib/notion.js:293 | at least one paragraph, the first being a prefix of the text, and no paragraph holds two newlines in a row; the lemmas below fix the pieces as the leftmost split |
| `Markdown.SplitParagraphsRebuild` | lib/notion.js:293 | the paragraphs with the matched blank-line separators between them give back the text |
| `Markdown.SplitParagraphsLeftmost` | lib/notion.js:293 | the paragraphs with the removed matches (`BreakMatches`) are a leftmost split of the text: each piece runs up to the first match of `\n\s*\n` in the text left, each separator is the whole match found there, and the last piece holds no match |
| `Markdown.LeftmostSplitUnique` | lib/notion.js:293 | any pieces that cut the text at its leftmost whole matches in this way are exactly the paragraphs, so the split is unique |
| `Markdown.SplitParagraphsLast` | lib/notion.js:293 | text in which the pattern matches nowhere is one paragraph |
| `Markdown.SplitParagraphsCut` | lib/notion.js:293 | text with a match is cut at the first one: the text before it, then the paragraphs of the text after the whole match |
| `Markdown.StripDash` | lib/notion.js:300 | a leading "- " is removed, and nothing else is |
| `Markdown.CleanItem` | lib/notion.js:300 | the item is the trim of the piece after one leading "- " is removed, or of the whole piece when it has none |
| `Markdown.CleanItems` | lib/notion.js:300 | no more items than pieces, each non-empty and trimmed; a single piece gives its cleaned item, or nothing when that is empty |
| `Markdown.CleanItemsAppend` | lib/notion.js:300 | cleaning distributes over concatenation, so the items are the non-empty cleaned pieces, in order |
| `Markdown.BulletItems` | lib/notion.js:300 | the items are the cleaned pieces of the paragraph cut at every "\n- ": the pieces join back to the paragraph and none contains "\n- "; every item is non-empty and trimmed |
| `Notion.GetCategories` | lib/notion.js:158-178 | a failure to read the database is passed on; the options of 'Category' when it is a select property, and [] otherwise |
| `Notion.GetRandomColor` | lib/notion.js:357-360 | the colour is one of the ten palette colours |
| `Notion.AddCategoryIdempotent` | lib/notion.js:190-205 | once a name is added, that name in any letter case counts as taken, and so does every name taken before |
| `Notion.AddCategory` | lib/notion.js:180-223 | the database is read first; a name taken in any letter case gives 'already exists' with no write; otherwise one update appends the name with a palette colour to the options |
| `Notion.BumpCounts` | lib/notion.js:238 | counting a key adds one to it, leaves every other key alone, and keeps the keys distinct |
| `Notion.TallyOfCounts` | lib/notion.js:235-243 | the tally has distinct keys, counts each key as often as it occurs, and sums to the number of keys |
| `Notion.GetIdeaStats` | lib/notion.js:225-255 | the total is the number of pages; categories and statuses are the tallies of each page's key, each summing to the total; a failed query is passed on |
| `Notion.UpdatePropertiesUnique` | lib/notion.js:65-97 | the properties for an update are determined by the update |
| `Notion.UpdateProperties` | lib/notion.js:65-97 | each truthy field (and any defined confidence) sets its property, and no other property is set |
| `Notion.UpdateIdeaEntry` | lib/notion.js:63-114 | one page update with those properties; on success with business-plan content, the plan's append calls follow; otherwise nothing else |
| `Notion.CreateProperties` | lib/notion.js:13-48 | exactly title, raw text, status and creation date, with defaults 'New Idea', '' and 'Captured' |
| `Notion.CreateIdeaEntry` | lib/notion.js:11-61 | one page creation; attachments that produce blocks are appended to the new page; the creation's or the append's failure is passed on |
| `Notion.AttachmentBlocks` | lib/notion.js:118-144 | no more blocks than attachments |
| `Notion.AttachmentBlocksAppend` | lib/notion.js:118-144 | the blocks of two attachment lists are the blocks of each, in order |
| `Notion.AttachmentBlocksFilter` | lib/notion.js:118-144 | a list without files and images gives no block; a list of only files and images gives one block per attachment, in order |
| `Notion.UpdateIdeaAttachments` | lib/notion.js:116-156 | no call when no block results; otherwise one append of the blocks, whose outcome is returned |
| `Notion.Bullets` | lib/notion.js:301-309 | one bulleted item per item, in order |
| `Notion.PlanBlocksNeedHeaders` | lib/notion.js:270-276 | sections without a "## " header line yield no block |
| `Notion.ConvertBusinessPlan` | lib/notion.js:266-326 | the section loop builds exactly the blocks of the plan |
| `Notion.ConvertSections` | lib/notion.js:270-326 | the loop over sections builds the blocks of each section, in order |
| `Notion.ConvertSection` | lib/notion.js:271-325 | one section yields its header and then the blocks of its paragraphs |
| `Notion.ConvertParagraphs` | lib/notion.js:295-323 | the loop over paragraphs builds the blocks of each paragraph, in order |
| `Notion.ConvertParagraph` | lib/notion.js:296-322 | a blank paragraph yields nothing; one containing "- " yields its bullet items; any other yields one trimmed paragraph block |
| `Notion.PushBullets` | lib/notion.js:301-309 | the loop pushes one bulleted item per item |
| `Notion.ChunksShape` | lib/notion.js:333-348 | the chunks flatten back to the blocks; each holds 1 to 50 blocks; all but the last hold exactly 50 |
| `Notion.ChunkBlocks` | lib/notion.js:334-337 | the chunking loop yields the specified chunks |
| `Notion.AppendChunks` | lib/notion.js:335-348 | one append call per chunk, to the page, in order |
| `Notion.AddBusinessPlanContent` | lib/notion.js:257-355 | the append calls of the plan; blank content makes no call |
| `Notion.PlanAppendCallsShape` | lib/notion.js:328-348 | every call appends 1 to 50 blocks to the page, and together they append exactly the plan's blocks |
| `Notion.RetryOnRateLimit` | lib/notion.js:362-375 | with no retries allowed nothing runs; otherwise 1 to maxRetries attempts, the result being the last; every earlier attempt was rate-limited; a rate-limited result means every attempt was used |
| `Adapters.NotionUrl` | api/capture.js:318 | the link is the Notion base followed by the id with its dashes removed, so no '-' follows the base |
| `Adapters.RemoveDashesKeeps` | api/capture.js:318 | an id without dashes is unchanged, and removing dashes distributes over the parts of an id |
| `Capture.RouteRequest` | api/capture.js:14-32 | OPTIONS is a preflight; other non-POST methods get 405; a POST is a Telegram update exactly when its body has `update_id` or `message` |
| `Capture.Rejection` | api/capture.js:199-260 | each 400 message of the validation in order, and no rejection exactly when type and content are present, the type is known, voice content starts with http and url content is valid |
| `Capture.UrlAttachments` | api/capture.js:264-271 | one attachment per URL, in order |
| `Capture.UrlAttachmentsShape` | api/capture.js:262-271 | each URL attachment has type url, an http(s) URL from the content, and a name of at most 50 characters |
| `Capture.StoreCapture` | api/capture.js:283-331 | the processed idea is created first; a store failure answers `error.status \|\| 500`; success asks the question and answers 201 with the page id, the content truncated to 100 characters as title, the link, the optional question and the attachment count |
| `Capture.HandleRegularCapture` | api/capture.js:196-339 | the intended regular capture: validation answers 400 before any call; a voice download or transcription failure answers 500; oversized attachments answer 400 without a Notion write; otherwise the processed idea is created and the outcome answered as by `StoreCapture`; 201 only for requests passing every check |
| `Capture.ProcessCapture` | api/capture.js:215-331 | after validation: a voice download or transcription failure answers 500; oversized attachments answer 400 without a Notion write; otherwise the processed idea is created and answered as by `StoreCapture`; 201 only when every check passed |
| `Capture.HandleRegularCaptureAsWritten` | api/capture.js:179-190 | as written, every regular capture answers 500 with an error body before any call |
| `Capture.TextCaptureDiscrepancy` | api/capture.js:185-189 | a valid text capture answers 500 as written and 201 as intended |
| `Capture.DirectContent` | api/capture.js:91-114 | the text when truthy; 'Unsupported message type' when there is neither text nor voice; no direct content for a voice message without text |
| `Capture.TelegramIdea` | api/capture.js:117-122 | a title of at most 50 characters, the content as raw text, status 'Captured' |
| `Capture.ConfirmationText` | api/capture.js:139-147 | the confirmation starts with the header and the title line, contains the Notion link of the page, and ends with the clarifying question when there is one, or else with the saved notice |
| `Capture.TranscribeVoice` | api/capture.js:94-111 | the Telegram file is downloaded first; there is content exactly when download, fetch and transcription all succeed, and it is the transcript with the voice attachment; no Notion write |
| `Capture.MessageContent` | api/capture.js:88-114 | direct content needs no call; otherwise the transcript and the audio attachment, exactly when transcription succeeds |
| `Capture.CaptureMessage` | api/capture.js:79-152 | the processing notice comes first, and a text idea is created right after it; the capture succeeds exactly when the page is created and any voice transcribes, and then it ends with a message to the chat |
| `Capture.HandleTelegramWebhook` | api/capture.js:36-173 | 400 without a body or with chat id 0; 200 for an update carrying no message; for a carried message the processing notice comes first, and 200 is answered exactly when the capture succeeds; any other answer is the generic 500, which ends with a notice to the chat of a `message` |
| `Clarify.NextStep` | api/clarify.js:79-124 | the step after an action is another action or 'enrich', and it is 'enrich' exactly after confirm |
| `Clarify.EnhancedText` | api/clarify.js:49-70 | the stored text starts and ends with the clarification, and is twice its length plus the separator's |
| `Clarify.ApplyAction` | api/clarify.js:61-128 | add_detail needs a clarification and writes only the raw text; generate_question writes nothing; confirm writes only the status 'Ready for Enrichment'; a 200 carries the action's next step |
| `Clarify.HandleClarify` | api/clarify.js:13-135 | OPTIONS, then 405, then 500 for missing configuration, then 400 for a missing id or an unknown action, each before any call; a well-formed request applies its action |
| `EnrichLite.ShouldAddCategoryOnce` | api/enrich-lite.js:66-84 | a category, once added, is not added again, and a name already taken is never added |
| `EnrichLite.HandleEnrich` | api/enrich-lite.js:13-138 | validation before any call; categories are read (failure means none) and then enrichment runs; a confident new category is added; category, confidence and 'Enriched' are saved; 200 only after a successful save |
| `Categories.EnhanceCategories` | api/categories.js:28-32 | every option, in order, with the count the stats give its name (0 when absent) |
| `Categories.UsageCountsPages` | api/categories.js:29-32 | with stats counted from pages, a usage count is the number of pages filed under the name, and at most the number of pages |
| `Categories.HandleCategories` | api/categories.js:12-106 | configuration is checked before the method; GET reads the options and then the stats and lists the options with their usage; POST adds a sanitized, trimmed name of 2 to 50 characters and answers 201, 400 or 500 from the outcome; 201 only after exactly one such add; other methods get 405 |
| `Categories.CategoryNameClean` | api/categories.js:61-62 | a stored name is trimmed and has no control character |
| `Stats.EnrichmentRate` | api/stats.js:49-51 | 0 with no ideas; otherwise the percentage with rate × total = enriched × 100, non-negative and at most 100 when enriched ≤ total |
| `Stats.CostPerIdea` | api/stats.js:89-91 | 0 with no ideas; otherwise the cost that, times the ideas, gives the total |
| `Stats.IdeasPerCategory` | api/stats.js:99-101 | 0 with no ideas; otherwise the ideas divided by max(categories, 1) |
| `Stats.Insert` | api/stats.js:54-55 | inserting into a sorted tally keeps it sorted by count, largest first, and adds exactly the entry |
| `Stats.SortByCountDesc` | api/stats.js:54-55 | a permutation of the tally sorted by count, largest first |
| `Stats.TopCategories` | api/stats.js:53-57 | min(5, n) entries of the tally, largest first, and no entry left out counts more than one kept |
| `Stats.PrefixOfSorted` | api/stats.js:56 | a prefix of a sorted tally is sorted, and whatever it leaves out counts no more than anything in it |
| `Stats.StatusCountsBounded` | api/stats.js:47-51 | with stats counted from pages, enriched plus captured ideas are at most the total, so the rate is within 0–100 |
| `Stats.HandleStats` | api/stats.js:6-119 | GET only; one stats call; a failure answers 500; success reports the counts, the rate, the top five, the per-idea ratios and the fresh client's zero ledger |
| `Webhook.HandleCommand` | api/webhook.js:89-155 | /start and /help send their templates; /stats reads the stats only for the admin; other commands get the unknown-command notice; nothing is written to Notion |
| `Webhook.CommandIgnoresCase` | api/webhook.js:91 | a command is recognised in any ASCII letter case |
| `Webhook.ExtractVoice` | api/webhook.js:186-204 | the Telegram file is downloaded first; content exactly when download, fetch and transcription all succeed, and then it is the transcript with an audio attachment; otherwise 'Voice processing failed: …' |
| `Webhook.ExtractContent` | api/webhook.js:172-240 | the content and attachment of each message type, with its fallbacks; an empty photo list fails; a voice message over 30 seconds is refused with no call |
| `Webhook.CapturedIdea` | api/webhook.js:246-263 | the stored idea has a title of at most 50 characters, the content, the attachments and status 'Captured' |
| `Webhook.CapturedText` | api/webhook.js:269-272 | the confirmation starts with its heading and the title line, and contains the link to the page on notion.so |
| `Webhook.HandleIdeaCapture` | api/webhook.js:158-286 | the processing notice comes first and a message to the chat comes last; a long voice message or empty text ends at once with its notice; text is stored sanitized; any Notion write means an idea with non-empty raw text is created; a failed creation writes no enrichment |
| `Webhook.ConcludeCapture` | api/webhook.js:242-277 | a long voice message, a failed extraction or empty content ends with its notice; otherwise the idea is stored |
| `Webhook.StoreIdea` | api/webhook.js:258-277 | the idea is created first; a failure sends the notice; on success the confirmation with the idea's title and the new page's link follows, then the categories are read and the content is enriched, and the calls after the analysis reconcile it with the categories as `Webhook.TriggerEnrichment` states |
| `Webhook.ConfirmAndEnrich` | api/webhook.js:268-277 | the confirmation with the title and the page link, then the enrichment's reads; a failure to read the categories ends with the failure notice; after the analysis, the suggested category is added exactly when `EnrichLite.ShouldAddCategory` holds and the 'Enriched' update and the analysis follow as in `Webhook.TriggerEnrichment` |
| `Webhook.TriggerEnrichment` | api/webhook.js:291-348 | read the categories, then enrich; a failure to read or enrich writes no enrichment; once both are in, the suggested category is added exactly when `EnrichLite.ShouldAddCategory` holds (confidence at least 0.7 and no option of that name in any ASCII case), then category, confidence and the 'Enriched' status are saved unless the addition failed, and the analysis is sent exactly when the save succeeds; the only page update is the enrichment's; it always ends with a message to the chat |
| `Webhook.SaveEnrichment` | api/webhook.js:302-335 | the category is added first exactly when it is to be added, and no call adds one otherwise; a failed addition ends with the failure notice and skips the save; otherwise one update of category, confidence and the 'Enriched' status follows, then the analysis exactly when it succeeds, or the failure notice; the only page update is the verdict's |
| `Webhook.ReadThenSave` | api/webhook.js:293-335 | the categories are read and the analysis requested first; the third call adds the suggested category exactly when `EnrichLite.ShouldAddCategory` holds; unless that addition failed, the update with category, confidence and the 'Enriched' status comes next to last and the analysis is sent exactly when it succeeds; the only page update is the verdict's; the last call is a message to the chat |
| `Webhook.SaveVerdict` | api/webhook.js:314-335 | one update of category, confidence and status; then the analysis if it succeeds, or the failure notice |
| `Webhook.HandleWebhook` | api/webhook.js:7-86 | OPTIONS, then 405, then 500 with no Notion write for missing configuration, then 400 for an invalid update; every valid update answers 200; commands write nothing to Notion; any other message starts a capture with the processing notice |
| `TelegramWebhook.CompetitorLines` | api/telegram/webhook.js:338 | one line for each of the first n competitors (three in the summary), in order; fewer only when there are fewer competitors |
| `TelegramWebhook.EnrichRetryKeyboard` | api/telegram/webhook.js:356-366 | a failed enrichment offers a keyboard exactly when the idea id is truthy; its buttons parse to retry of enrich_id and cancel of id |
| `TelegramWebhook.ProcessEnrichment` | api/telegram/webhook.js:301-368 | announce, post to /api/enrich-lite, then remove the notice and send the summary, or send the error with a retry for the idea |
| `TelegramWebhook.PrepareCapture` | api/telegram/webhook.js:134-197 | the capture request of each message type; long voice and unsupported messages are declined without a request; every request has an accepted type and, except voice, content |
| `TelegramWebhook.Refs` | api/telegram/webhook.js:212-240 | as intended, the buttons and the enrichment name the stored page: the id rendered is the page id and the text is the returned title, and /api/enrich-lite accepts the pair exactly when both are non-empty (`TelegramWebhook.EnrichRefsDiscrepancy` contrasts the code as written) |
| `TelegramWebhook.ClarifyKeyboard` | api/telegram/webhook.js:230-235 | one row whose buttons parse to ('clarify', id) and ('skip', id) |
| `TelegramWebhook.ClarifyDataRoundTrip` | api/telegram/webhook.js:230-235 | the data of both question buttons parse back to their action and the idea id |
| `TelegramWebhook.ShownIdea` | api/telegram/webhook.js:225 | the idea shown is at most 200 characters, and unchanged when it fits; an undefined idea shows as 'undefined' |
| `TelegramWebhook.QuestionText` | api/telegram/webhook.js:223-228 | the question message starts with the captured notice, the idea as shown (the content itself when it fits in 200 characters, 'undefined' when absent) and the question heading, and ends with the question |
| `TelegramWebhook.AfterCapture` | api/telegram/webhook.js:214-241 | the processing notice is removed; then, when there is a question, the question call with the content, the question and the idea id of its keyboard, or else enrichment |
| `TelegramWebhook.SubmitCapture` | api/telegram/webhook.js:199-241 | announce and post to /api/capture; a failure sends the error; otherwise continue after the capture |
| `TelegramWebhook.HandleIdeaCapture` | api/telegram/webhook.js:129-249 | the bot writes only to this chat, never to Notion directly, and ends with a notice to the chat |
| `TelegramWebhook.CallbackActions` | api/telegram/webhook.js:259-290 | clarify asks for details; skip and ok enrich the id with the placeholder text; cancel and retry send their notices; any other action does nothing |
| `TelegramWebhook.HandleCallbackQueryAsWritten` | api/telegram/webhook.js:251-299 | as written, a client that has not sent anything yet answers every press only with the generic error |
| `TelegramWebhook.CallbackOnFreshClient` | api/telegram/webhook.js:257 | on the fresh client of each update, a press is neither acknowledged nor acted on |
| `TelegramWebhook.HandleCallbackQuery` | api/telegram/webhook.js:251-299 | as intended, the bot is created, the press is acknowledged first and then acted on, within its chat |
| `TelegramWebhook.AnswerAndAct` | api/telegram/webhook.js:257-290 | the acknowledgement comes first; clarify then asks for details, and skip or ok posts the enrichment of the pressed idea; every call stays in the chat |
| `TelegramWebhook.PressClarifyButtons` | api/telegram/webhook.js:230-270 | Add Details asks for details; Skip & Save enriches the idea the keyboard was built for |
| `TelegramWebhook.PressButton` | api/telegram/webhook.js:259-270 | pressing a button whose data decode to clarify asks for details; one that decodes to skip posts the enrichment of the decoded id with the placeholder text |
| `TelegramWebhook.QuestionRefsDiscrepancy` | api/telegram/webhook.js:222-233 | as written, the question's buttons carry the id 'undefined' and its message shows 'undefined' as the idea; as intended, they carry the page id and the message shows the title |
| `TelegramWebhook.EnrichRefsDiscrepancy` | api/telegram/webhook.js:238-241 | as written, enrichment is posted without an id and rejected with 400; as intended, it is accepted with 200 |
| `TelegramWebhook.HandleTelegramUpdate` | api/telegram/webhook.js:8-59 | as intended: OPTIONS, then 405, then 500, then 400 for an invalid update; a callback goes to the corrected `TelegramWebhook.HandleCallbackQuery` (see Findings), is acknowledged and stays in its chat; a callback without a message answers 500; a message capture uses the intended `TelegramWebhook.Refs`; nothing is written to Notion directly |

## Left out

- Network and SDK calls are outcome parameters, not modelled. This covers the Notion, OpenAI and Telegram SDKs, the `axios` posts, file downloads, and `openaiClient.downloadFile`.
- Telegram sends inside the handlers are taken to succeed. `TelegramClient.SendMessage` models the send's failure on its own.
- Timers are not modelled. This covers the retry delays, `sleep`, and `setTimeout`.
- The clock is a `now` parameter. Response timestamps are left out of the envelopes.
- Concurrency between requests is not modelled.
- CORS headers and the empty OPTIONS body are not modelled. OPTIONS is answered 200 with no content.
- Environment reads are replaced by a `missingEnv` parameter, which lists the unset variables. `validateEnvironmentVariables` throws exactly when that list is non-empty.
- `Math.random` in `getRandomColor` is a nondeterministic choice from the palette.
- `isValidUrl` (the `URL` constructor) is the parameter `urlValid`.
- `JSON.parse` of the model's reply is the parameter `parse`.
- Prompt texts and model parameters are not modelled.
- `toFixed` formatting and the `%`/`$` decorations in stats are left out. Rates and ratios are exact reals.
- `process.uptime()` and memory usage are left out.
- Fixed message templates are recorded as calls carrying their arguments, not as rendered text. These are the welcome, help and stats messages, the enrichment summary, the clarifying-question message and `formatErrorMessage` replies (`SendWelcome`, `SendHelp`, `SendStats`, `SendEnrichmentSummary`, `SendQuestion`, `SendAnalysis`, `SendError`). `QuestionText` renders the question message from a `SendQuestion` call's idea and question.
- Text.ToLower, Utils.RedactSensitiveData: letter case is ASCII only. JavaScript's `toLowerCase` also lowers non-ASCII letters. This affects command matching, category-name comparison, slugs and the sensitive-key test of `redactSensitiveData` (lib/utils.js:175): a key spelled with KELVIN SIGN U+212A in place of the 'k' of "token" lowers to "token" in JavaScript and is redacted there, but not in the model.
- `sanitizeInput` is modelled on strings only. It returns non-strings unchanged.
- `api/webhook.js` calls `openaiClient.generateIdeaTitle`, which lib/openai.js does not define. The call always throws, so the fallback title is always used.
- `keyInsights` and `businessPlanContent` are read from the enrichment but never produced by it. The insight bullets are therefore never sent. The plan is only written through `updateIdeaEntry` with such content.
- The `message` strings in the clarify response data are left out. So are the `metadata` and `type` fields that capture passes but `createIdeaEntry` ignores.
- These functions of lib/utils.js are not part of this model: `generateId`, `validateEmail`, `extractTextFromMessage`, `formatFileSize`, `sleep`, `removeSpecialChars`, `capitalizeFirst`, `validateFileType`, `getFileExtension`, `formatTimestamp`, `logWithTimestamp` and `extractMessageFromUpdate`. No modelled handler depends on their results.
- These functions of lib/telegram.js are not part of this model: `getFileInfo`, `downloadFile`, `formatWelcomeMessage`, `formatIdeaSummary`, `formatStatsMessage` and `getSupportedFileTypes`. Each is SDK I/O or a fixed template. `extractUserInfo` (lib/telegram.js:98-106) is a projection of the message's sender and chat; a message carries its `fromId` and `chatId` directly. `answerCallbackQuery` and `deleteMessage` appear as recorded calls.
- The diagnostic endpoints and `api/bot.js` are not part of this model. These are `test.js`, `test-endpoint.js`, `webhook-test.js` and `webhook-simple.js`.
- Capture.HandleRegularCapture: for a missing body, only the status 500 is stated, not the engine's TypeError text.
- Clarify.HandleClarify: for missing configuration, only the status 500 is stated, not the message listing the variables.
- EnrichLite.HandleEnrich: for missing configuration, only the status 500 is stated.
- Categories.HandleCategories: for missing configuration, only the status 500 is stated.
- Stats.HandleStats: for missing configuration, only the status 500 is stated.
- Webhook.HandleWebhook: for missing configuration, only the status 500 and the absence of Notion writes are stated, not the notice sent to the chat.
- Webhook.HandleWebhook, TelegramWebhook.HandleTelegramUpdate: `extractUserInfo` (lib/telegram.js:98-106) reads `msg.from.id` and `msg.chat.id`. The model takes `from` and `chat` to be present, as Telegram sets them on message updates, so the throw into the 500 path for a message without `from` is not modelled.
- Webhook.HandleIdeaCapture: its own contract spells out the voice and text cases. The photo and document cases are stated by `Webhook.ExtractContent` and `Webhook.ConcludeCapture`, which it composes.
- TelegramWebhook.HandleIdeaCapture: its own contract spells out the text and declined cases. The other message types are stated by `TelegramWebhook.PrepareCapture` and `TelegramWebhook.SubmitCapture`.
- Notion.AddCategory: states only that the new option's colour is some palette colour, because the choice is random.
- Utils.SanitizeInput, Utils.TruncateWithEllipsis, Telegram.TruncateText, Webhook.CapturedIdea, Capture.TelegramIdea, TelegramWebhook.ShownIdea: lengths count Dafny characters (Unicode scalar values), while JavaScript's `length` and `substring` count UTF-16 code units. For text outside the Basic Multilingual Plane the caps 10000, 100, 50 and 200 therefore bound different quantities, and a `substring` that cuts a surrogate pair in half yields a lone surrogate, which the model cannot represent.
- Telegram.GetFileTypeFromMime, Notion.BumpCounts, Notion.GetIdeaStats, Categories.UsageCountsPages, Categories.EnhanceCategories, Stats.SortByCountDesc, Stats.TopCategories: plain objects are modelled as maps with no prototype. In JavaScript a key such as "constructor", "toString" or "__proto__" finds an inherited value in `mimeMap[mime] || 'unknown'`, `x[k] || 0` and `(x[k] || 0) + 1`. Also, `Object.entries` lists integer-like keys first, in ascending order, which can change the order of tied entries in the top five. The model's sort keeps the tally's order for ties, and its contracts leave the order of tied entries unstated.
- TelegramWebhook.HandleTelegramUpdate: models the endpoint as intended, with the corrected callback handler and refs. The code as written is stated by `TelegramWebhook.HandleCallbackQueryAsWritten`, `TelegramWebhook.CallbackOnFreshClient`, `TelegramWebhook.QuestionRefsDiscrepancy` and `TelegramWebhook.EnrichRefsDiscrepancy`.

## Findings

| source | as written | input that shows it | evidently intended | confidence | as-written member | corrected member |
|---|---|---|---|---|---|---|
| api/capture.js:179-190 | `validateEnvironmentVariables` throws or returns `true`; `true.isValid` is undefined, so the error branch is always taken, and `true.missing.join` throws into the catch-all | a POST of `{type: 'text', content: 'Sell lemonade'}` with every variable set answers 500 | a configured server validates and stores the capture, answering 201 | not executed | `Capture.HandleRegularCaptureAsWritten` | `Capture.HandleRegularCapture` |
| api/telegram/webhook.js:257 | `telegramClient.bot` is still null on the fresh client, because the bot is created lazily by `_getBot`; `answerCallbackQuery` throws, and the catch sends the generic error | any callback query with a message, e.g. pressing Skip & Save | acknowledge the query through `_getBot()` and act on the button | not executed | `TelegramWebhook.CallbackOnFreshClient` | `TelegramWebhook.HandleCallbackQuery` |
| lib/utils.js:122 | `String.prototype.trim` ignores its argument and removes whitespace only, so the outer dashes stay | `generateSlug(" a ")` is "-a-" | leading and trailing '-' removed: "a" | not executed | `Utils.GenerateSlugKeepsOuterDashes` | `Utils.GenerateSlugTrimmedDropsOuterDashes` |
| api/telegram/webhook.js:222-241 | `captureData.ideaId` and `captureData.processedContent` are not fields of what /api/capture returns (`notionId`, `title`, …), so both are undefined | a text idea whose capture returns a question: its message shows 'undefined' as the idea and its buttons carry `clarify_undefined`; without a question, /api/enrich-lite answers 400 | the stored page's `notionId` and the returned title (the captured text cut to 100 characters) | not executed | `TelegramWebhook.QuestionRefsDiscrepancy` | `TelegramWebhook.Refs` |

=== FILE: adapters.dfy ===
/** The calls the HTTP handlers make on the three clients and on each other, recorded in the order
    they are made. What a call settles to is a parameter of the handler that makes it. */
module Adapters {
  import opened Wrappers
  import Utils
  import Notion
  import Telegram

  /** A callback query: its id, the message carrying the keyboard and the button's data. */
  datatype CallbackQuery = CallbackQuery(id: string, message: Option<Utils.Message>, data: string)

  /** A Telegram update, as far as the handlers read it. */
  datatype Update = Update(
    updateId: Option<int>,
    message: Option<Utils.Message>,
    editedMessage: Option<Utils.Message>,
    callbackQuery: Option<CallbackQuery>)

  /** `isValidTelegramUpdate(update)`: a message or a callback query is present. */
  predicate IsValidTelegramUpdate(update: Option<Update>)
  {
    update.Some? && (update.value.message.Some? || update.value.callbackQuery.Some?)
  }

  /** The bare JSON replies of the Telegram-facing endpoints: `{ok: true}`, `{ok: true, message}`
      and `{error}` (with the error's message when there is one). */
  datatype TelegramReply = OkReply | Acknowledged(message: string) | ErrorReply(error: string, detail: Option<string>)

  /** `downloadFile(fileId)` of the Telegram client: the file's download URL. */
  datatype TelegramFile = TelegramFile(url: string)

  /** `downloadFile(url)` of the OpenAI client, as far as the callers read it: the number of bytes
      of the buffer, which is also the `size` it reports. It reports no file name. */
  datatype AudioFile = AudioFile(byteCount: nat)

  /** The `metadata` object a Telegram voice message adds to a capture request. */
  datatype Metadata = NoMetadata | VoiceMetadata(duration: int, fileSize: Option<int>)

  /** The JSON body of a POST to /api/capture: `type`, `content`, `attachments` (default []) and
      `metadata`. */
  datatype CaptureRequest = CaptureRequest(
    kind: Option<string>,
    content: Option<string>,
    attachments: seq<Notion.Attachment>,
    metadata: Metadata)

  /** A summary the bot sends after enrichment, without its fixed template text. */
  datatype EnrichmentSummary = EnrichmentSummary(
    category: string,
    confidence: real,
    summary: string,
    competitors: seq<string>,
    marketSize: string,
    nextStep: string,
    disclaimer: string,
    notionUrl: string)

  datatype Call =
    // TelegramClient
    | Send(chatId: int, text: string)
    | SendWithKeyboard(chatId: int, text: string, keyboard: Telegram.Keyboard)
    /** `sendMessage` of `formatErrorMessage(error, retryAction, ideaId)`: its text, with its keyboard
        when the result is an object. */
    | SendError(chatId: int, error: string, retryAction: Option<string>, ideaId: Option<string>)
    /** The clarifying question after a capture: `sendMessage` of the message `QuestionText`
        renders from the idea and the question, under the Add Details and Skip & Save buttons for
        the idea id. */
    | SendQuestion(chatId: int, shownIdea: Option<string>, question: string, ideaId: Option<string>)
    | SendWelcome(chatId: int)
    | SendHelp(chatId: int)
    | SendStats(chatId: int, stats: Notion.IdeaStats)
    | SendAnalysis(chatId: int, category: string, confidence: real, notionUrl: string)
    | SendEnrichmentSummary(chatId: int, summary: EnrichmentSummary)
    | DownloadTelegramFile(fileId: string)
    | DeleteMessage(chatId: int, messageId: int)
    | AnswerCallbackQuery(queryId: string)
    // OpenAIClient
    | DownloadAudio(url: string)
    | Transcribe(byteCount: nat)
    | AskClarifyingQuestion(text: string)
    | Enrich(text: string, categories: seq<Notion.CategoryOption>)
    // NotionClient
    | CreateIdea(idea: Notion.NewIdea)
    | UpdateIdea(pageId: string, updates: Notion.IdeaUpdates)
    | GetCategories
    | AddCategory(name: string)
    | GetIdeaStats
    // The endpoints, called over HTTP
    | PostCapture(request: CaptureRequest)
    | PostEnrich(ideaId: Option<string>, ideaText: Option<string>)

  /** The calls that write to Notion. */
  predicate IsNotionWrite(c: Call)
  {
    c.CreateIdea? || c.UpdateIdea? || c.AddCategory?
  }

  predicate NoNotionWrite(calls: seq<Call>)
  {
    forall i :: 0 <= i < |calls| ==> !IsNotionWrite(calls[i])
  }

  /** The calls that save an enrichment: a new category or an update of a page. */
  predicate IsEnrichmentWrite(c: Call)
  {
    c.UpdateIdea? || c.AddCategory?
  }

  predicate NoEnrichmentWrite(calls: seq<Call>)
  {
    forall i :: 0 <= i < |calls| ==> !IsEnrichmentWrite(calls[i])
  }

  /** A sequence of calls is free of writes exactly when both its parts are. */
  lemma WritesAppend(a: seq<Call>, b: seq<Call>)
    ensures NoNotionWrite(a + b) <==> NoNotionWrite(a) && NoNotionWrite(b)
    ensures NoEnrichmentWrite(a + b) <==> NoEnrichmentWrite(a) && NoEnrichmentWrite(b)
  {
    var ab := a + b;
    forall i | 0 <= i < |b| ensures ab[|a| + i] == b[i] { }
    forall i | 0 <= i < |a| ensures ab[i] == a[i] { }
    if NoNotionWrite(a) && NoNotionWrite(b) {
      forall i | 0 <= i < |ab| ensures !IsNotionWrite(ab[i]) {
        if i >= |a| { assert ab[i] == b[i - |a|]; }
      }
    }
    if NoEnrichmentWrite(a) && NoEnrichmentWrite(b) {
      forall i | 0 <= i < |ab| ensures !IsEnrichmentWrite(ab[i]) {
        if i >= |a| { assert ab[i] == b[i - |a|]; }
      }
    }
  }

  // ---------------------------------------------------------------------------------------------
  // Notion page links
  // ---------------------------------------------------------------------------------------------

  /** `id.replace(/-/g, '')`. */
  function RemoveDashes(id: string): (r: string)
    ensures '-' !in r
    ensures |r| <= |id|
  {
    if id == [] then []
    else (if id[0] == '-' then [] else [id[0]]) + RemoveDashes(id[1..])
  }

  /** Removing dashes keeps every other character in order: an id without dashes is unchanged,
      and dashes between parts vanish. */
  lemma {:induction false} RemoveDashesKeeps(a: string, b: string)
    ensures '-' !in a ==> RemoveDashes(a) == a
    ensures RemoveDashes(a + "-" + b) == RemoveDashes(a) + RemoveDashes(b)
  {
    if a != [] {
      RemoveDashesKeeps(a[1..], b);
      assert (a + "-" + b)[1..] == a[1..] + "-" + b;
    } else {
      assert a + "-" + b == "-" + b;
      assert ("-" + b)[1..] == b;
    }
  }

  const NotionBase := "https://notion.so/"

  /** The page link the handlers build: the base followed by the id without dashes. */
  function NotionUrl(id: string): (url: string)
    ensures url == NotionBase + RemoveDashes(id)
    ensures '-' !in url[|NotionBase|..]
  {
    NotionBase + RemoveDashes(id)
  }
}

=== FILE: capture.dfy ===
/** api/capture.js: the POST endpoint that routes Telegram updates to an inline bot flow and
    everything else to the regular capture API, which validates, transcribes voice, collects URL
    attachments, guards attachment sizes and stores the idea in Notion. */
module Capture {
  import opened Wrappers
  import opened Text
  import opened Utils
  import Notion
  import OpenAI
  import opened Adapters

  // ---------------------------------------------------------------------------------------------
  // Routing
  // ---------------------------------------------------------------------------------------------

  /** What the router reads of `req.body`: whether `update_id` and `message` are defined. */
  datatype BodyShape = BodyShape(hasUpdateId: bool, hasMessage: bool)

  datatype Route = Preflight | MethodNotAllowed | TelegramPath | RegularPath

  /** The body looks like a Telegram update. */
  predicate LooksLikeUpdate(body: Option<BodyShape>)
  {
    body.Some? && (body.value.hasUpdateId || body.value.hasMessage)
  }

  /** OPTIONS is answered at once, other non-POST methods get 405, and a POST goes to the
      Telegram path exactly when its body has `update_id` or `message`. */
  function RouteRequest(verb: string, body: Option<BodyShape>): (r: Route)
    ensures r == Preflight <==> verb == "OPTIONS"
    ensures r == MethodNotAllowed <==> verb != "OPTIONS" && verb != "POST"
    ensures r == TelegramPath <==> verb == "POST" && LooksLikeUpdate(body)
    ensures r == RegularPath <==> verb == "POST" && !LooksLikeUpdate(body)
  {
    if verb == "OPTIONS" then Preflight
    else if verb != "POST" then MethodNotAllowed
    else if LooksLikeUpdate(body) then TelegramPath
    else RegularPath
  }

  // ---------------------------------------------------------------------------------------------
  // Regular capture
  // ---------------------------------------------------------------------------------------------

  /** The types a capture accepts: text, voice, url and file. */
  predicate IsValidType(kind: string)
  {
    kind == "text" || kind == "voice" || kind == "url" || kind == "file"
  }

  /** 20 MiB. */
  const MaxAttachmentBytes := 20 * 1024 * 1024

  /** `att.size && att.size > 20 * 1024 * 1024`. */
  predicate Oversized(a: Notion.Attachment)
  {
    a.size.Some? && a.size.value > MaxAttachmentBytes
  }

  predicate AnyOversized(atts: seq<Notion.Attachment>)
  {
    exists i :: 0 <= i < |atts| && Oversized(atts[i])
  }

  /** The attachment made for one extracted URL: its name is the URL cut to 50 characters. */
  function UrlAttachment(url: string): Notion.Attachment
  {
    Notion.Attachment("url", Some(url), Some(TruncateWithEllipsis(url, 50)), None)
  }

  function UrlAttachments(urls: seq<string>): (atts: seq<Notion.Attachment>)
    ensures |atts| == |urls|
    ensures forall i :: 0 <= i < |urls| ==> atts[i] == UrlAttachment(urls[i])
  {
    if urls == [] then [] else [UrlAttachment(urls[0])] + UrlAttachments(urls[1..])
  }

  /** Every URL attachment of a text is of type 'url', points at an http(s) URL without
      whitespace that occurs in the text, and carries a name of at most 50 characters. */
  lemma UrlAttachmentsShape(content: string)
    ensures forall i :: 0 <= i < |UrlAttachments(ExtractUrls(content))| ==>
              var a := UrlAttachments(ExtractUrls(content))[i];
              && a.kind == "url" && a.url.Some?
              && IsHttpUrl(a.url.value) && Contains(content, a.url.value)
              && a.name.Some? && |a.name.value| <= 50
  {
    var urls := ExtractUrls(content);
    ExtractUrlsShape(content);
    forall i | 0 <= i < |urls| ensures |TruncateWithEllipsis(urls[i], 50)| <= 50 {
      TruncateWithEllipsisBound(urls[i], 50);
    }
  }

  /** The attachment pushed for a transcribed voice URL: the download reports no file name, so
      the name is always the default, and its size is the byte count. */
  function VoiceAttachment(url: string, file: AudioFile): Notion.Attachment
  {
    Notion.Attachment("audio", Some(url), Some("voice_message.wav"), Some(file.byteCount))
  }

  /** What the adapters settle to on the regular path: the audio download, the transcription,
      the page creation and the clarifying question. */
  datatype CaptureOutcomes = CaptureOutcomes(
    audio: Outcome<AudioFile>,
    transcribed: Outcome<OpenAI.Transcription>,
    created: Outcome<Notion.PageRef>,
    question: Outcome<OpenAI.Question>)

  /** The `data` of a successful capture. */
  datatype CaptureData = CaptureData(
    notionId: string,
    title: string,
    kind: string,
    status: string,
    notionUrl: string,
    clarifyingQuestion: Option<string>,
    attachmentCount: nat)

  /** The message of the first validation `handleRegularCapture` answers 400 to: type and content
      missing, an unknown type, voice content that is not an http URL, or an invalid URL for type
      url. None when the request passes them all. */
  function Rejection(req: CaptureRequest, urlValid: bool): (r: Option<string>)
    ensures !(Truthy(req.kind) && Truthy(req.content)) ==> r == Some("Type and content are required")
    ensures Truthy(req.kind) && Truthy(req.content) && !IsValidType(req.kind.value) ==>
              r == Some("Invalid type. Must be one of: text, voice, url, file")
    ensures Truthy(req.content) && req.kind == Some("voice") && !StartsWith(req.content.value, "http") ==>
              r == Some("Voice content must be a URL to audio file")
    ensures Truthy(req.content) && req.kind == Some("url") && !urlValid ==> r == Some("Invalid URL format")
    ensures r.None? <==>
              && Truthy(req.kind) && Truthy(req.content) && IsValidType(req.kind.value)
              && (req.kind.value == "voice" ==> StartsWith(req.content.value, "http"))
              && (req.kind.value == "url" ==> urlValid)
  {
    if !Truthy(req.kind) || !Truthy(req.content) then Some("Type and content are required")
    else if !IsValidType(req.kind.value) then Some("Invalid type. Must be one of: text, voice, url, file")
    else if req.kind.value == "voice" && !StartsWith(req.content.value, "http") then Some("Voice content must be a URL to audio file")
    else if req.kind.value == "url" && !urlValid then Some("Invalid URL format")
    else None
  }

  /** Every check before the size guard passes: the request is not rejected, and voice content
      downloads and transcribes. */
  predicate PassesChecks(req: CaptureRequest, urlValid: bool, o: CaptureOutcomes)
  {
    Rejection(req, urlValid).None? && (req.kind.value == "voice" ==> o.audio.Ok? && o.transcribed.Ok?)
  }

  /** `processedContent`: the transcript for voice, the content otherwise. */
  function ProcessedContent(req: CaptureRequest, o: CaptureOutcomes): string
    requires PassesChecks(req, true, o)
  {
    if req.kind.value == "voice" then o.transcribed.value.text else req.content.value
  }

  /** `processedAttachments`: the given attachments, then the voice file for voice or one
      attachment per extracted URL for url. */
  function ProcessedAttachments(req: CaptureRequest, o: CaptureOutcomes): seq<Notion.Attachment>
    requires PassesChecks(req, true, o)
  {
    if req.kind.value == "voice" then req.attachments + [VoiceAttachment(req.content.value, o.audio.value)]
    else if req.kind.value == "url" then req.attachments + UrlAttachments(ExtractUrls(req.content.value))
    else req.attachments
  }

  /** The idea stored for a request that passes every check. */
  function StoredIdea(req: CaptureRequest, o: CaptureOutcomes): Notion.NewIdea
    requires PassesChecks(req, true, o)
  {
    var content := ProcessedContent(req, o);
    Notion.NewIdea(Some(TruncateWithEllipsis(content, 100)), Some(content), ProcessedAttachments(req, o), Some("Captured"))
  }

  /** The status of the catch-all: `error.status || 500`. */
  function ErrorStatus(f: Failure): int
  {
    if f.status.Some? && f.status.value != 0 then f.status.value else 500
  }

  /** The end of `handleRegularCapture` for a request that passes every check: create the page,
      then ask the clarifying question, whose failure leaves the question out. */
  method StoreCapture(req: CaptureRequest, o: CaptureOutcomes) returns (calls: seq<Call>, resp: Response<CaptureData>)
    requires PassesChecks(req, true, o)
    ensures |calls| >= 1 && calls[0] == CreateIdea(StoredIdea(req, o))
    ensures o.created.Err? ==>
              |calls| == 1 && resp == Response(ErrorStatus(o.created.error), CreateErrorResponse(o.created.error.message, ErrorStatus(o.created.error)))
    ensures o.created.Ok? ==>
              && |calls| == 2 && calls[1] == AskClarifyingQuestion(ProcessedContent(req, o))
              && resp == Response(201, Success(CaptureData(
                   o.created.value.id,
                   TruncateWithEllipsis(ProcessedContent(req, o), 100),
                   req.kind.value,
                   "Captured",
                   NotionUrl(o.created.value.id),
                   if o.question.Ok? then Some(o.question.value.question) else None,
                   |ProcessedAttachments(req, o)|)))
  {
    var content := ProcessedContent(req, o);
    var title := TruncateWithEllipsis(content, 100);
    var idea := Notion.NewIdea(Some(title), Some(content), ProcessedAttachments(req, o), Some("Captured"));
    calls := [CreateIdea(idea)];
    if o.created.Err? {
      var status := ErrorStatus(o.created.error);
      return calls, Response(status, CreateErrorResponse(o.created.error.message, status));
    }
    var notionId := o.created.value.id;
    calls := [CreateIdea(idea), AskClarifyingQuestion(content)];
    var clarifyingQuestion: Option<string> := None;
    if o.question.Ok? {
      clarifyingQuestion := Some(o.question.value.question);
    }
    resp := Response(201, Success(CaptureData(notionId, title, req.kind.value, "Captured", NotionUrl(notionId),
                                              clarifyingQuestion, |ProcessedAttachments(req, o)|)));
  }

  /** `handleRegularCapture` with the configuration check passing. `urlValid` is `isValidUrl`
      of the content. */
  method HandleRegularCapture(body: Option<CaptureRequest>, urlValid: bool, o: CaptureOutcomes)
    returns (calls: seq<Call>, resp: Response<CaptureData>)
    ensures body.None? ==> calls == [] && resp.status == 500
    ensures body.Some? && Rejection(body.value, urlValid).Some? ==>
              calls == [] && resp == ErrorResponse(Rejection(body.value, urlValid).value, 400)
    ensures body.Some? && Rejection(body.value, urlValid).None? && body.value.kind == Some("voice") ==>
              var url := body.value.content.value;
              && |calls| >= 1 && calls[0] == DownloadAudio(url)
              && (o.audio.Err? ==> |calls| == 1 && resp == ErrorResponse("Voice transcription failed: " + o.audio.error.message, 500))
              && (o.audio.Ok? && o.transcribed.Err? ==>
                    |calls| == 2 && calls[1] == Transcribe(o.audio.value.byteCount)
                    && resp == ErrorResponse("Voice transcription failed: " + o.transcribed.error.message, 500))
    ensures body.Some? && PassesChecks(body.value, urlValid, o) && AnyOversized(ProcessedAttachments(body.value, o)) ==>
              NoNotionWrite(calls) && resp == ErrorResponse("Attachment size cannot exceed 20MB", 400)
    ensures body.Some? && PassesChecks(body.value, urlValid, o) && !AnyOversized(ProcessedAttachments(body.value, o)) ==>
              && CreateIdea(StoredIdea(body.value, o)) in calls
              && (o.created.Err? ==>
                    resp == Response(ErrorStatus(o.created.error), CreateErrorResponse(o.created.error.message, ErrorStatus(o.created.error))))
              && (o.created.Ok? ==>
                    resp == Response(201, Success(CaptureData(
                      o.created.value.id,
                      TruncateWithEllipsis(ProcessedContent(body.value, o), 100),
                      body.value.kind.value,
                      "Captured",
                      NotionUrl(o.created.value.id),
                      if o.question.Ok? then Some(o.question.value.question) else None,
                      |ProcessedAttachments(body.value, o)|))))
    ensures resp.status == 201 ==> body.Some? && PassesChecks(body.value, urlValid, o)
  {
    calls := [];
    if body.None? {
      return calls, ErrorResponse("Cannot destructure property 'type' of 'req.body' as it is undefined.", 500);
    }
    var req := body.value;
    var rejection := Rejection(req, urlValid);
    if rejection.Some? {
      return calls, ErrorResponse(rejection.value, 400);
    }
    calls, resp := ProcessCapture(req, urlValid, o);
  }

  /** The part of `handleRegularCapture` after validation: transcribe a voice note or collect
      the URLs of a link, check the attachment sizes, then store. */
  method ProcessCapture(req: CaptureRequest, urlValid: bool, o: CaptureOutcomes)
    returns (calls: seq<Call>, resp: Response<CaptureData>)
    requires Rejection(req, urlValid).None?
    ensures req.kind == Some("voice") ==>
              var url := req.content.value;
              && |calls| >= 1 && calls[0] == DownloadAudio(url)
              && (o.audio.Err? ==> |calls| == 1 && resp == ErrorResponse("Voice transcription failed: " + o.audio.error.message, 500))
              && (o.audio.Ok? && o.transcribed.Err? ==>
                    |calls| == 2 && calls[1] == Transcribe(o.audio.value.byteCount)
                    && resp == ErrorResponse("Voice transcription failed: " + o.transcribed.error.message, 500))
    ensures PassesChecks(req, urlValid, o) && AnyOversized(ProcessedAttachments(req, o)) ==>
              NoNotionWrite(calls) && resp == ErrorResponse("Attachment size cannot exceed 20MB", 400)
    ensures PassesChecks(req, urlValid, o) && !AnyOversized(ProcessedAttachments(req, o)) ==>
              && CreateIdea(StoredIdea(req, o)) in calls
              && (o.created.Err? ==>
                    resp == Response(ErrorStatus(o.created.error), CreateErrorResponse(o.created.error.message, ErrorStatus(o.created.error))))
              && (o.created.Ok? ==>
                    resp == Response(201, Success(CaptureData(
                      o.created.value.id,
                      TruncateWithEllipsis(ProcessedContent(req, o), 100),
                      req.kind.value,
                      "Captured",
                      NotionUrl(o.created.value.id),
                      if o.question.Ok? then Some(o.question.value.question) else None,
                      |ProcessedAttachments(req, o)|))))
    ensures resp.status == 201 ==> PassesChecks(req, urlValid, o)
  {
    calls := [];
    var kind := req.kind.value;
    var content := req.content.value;
    var processedContent := content;
    var processedAttachments := req.attachments;
    if kind == "voice" {
      calls := [DownloadAudio(content)];
      if o.audio.Err? {
        return calls, ErrorResponse("Voice transcription failed: " + o.audio.error.message, 500);
      }
      calls := [DownloadAudio(content), Transcribe(o.audio.value.byteCount)];
      if o.transcribed.Err? {
        return calls, ErrorResponse("Voice transcription failed: " + o.transcribed.error.message, 500);
      }
      processedContent := o.transcribed.value.text;
      processedAttachments := processedAttachments + [VoiceAttachment(content, o.audio.value)];
    }
    if kind == "url" {
      processedAttachments := processedAttachments + UrlAttachments(ExtractUrls(content));
    }
    assert PassesChecks(req, urlValid, o);
    assert processedContent == ProcessedContent(req, o);
    assert processedAttachments == ProcessedAttachments(req, o);
    if AnyOversized(processedAttachments) {
      return calls, ErrorResponse("Attachment size cannot exceed 20MB", 400);
    }
    var storing, stored := StoreCapture(req, o);
    calls := calls + storing;
    assert calls[|calls| - |storing|] == CreateIdea(StoredIdea(req, o));
    resp := stored;
  }

  /** `handleRegularCapture` as written: `validateEnvironmentVariables` throws when a variable is
      missing and otherwise returns `true`, whose `isValid` is undefined, so the guard is taken
      and reading `true.missing.join` throws. Every request ends in the catch-all with status 500
      before anything is called. `missingEnv` lists the unset variables. */
  method HandleRegularCaptureAsWritten(missingEnv: seq<string>, body: Option<CaptureRequest>, urlValid: bool, o: CaptureOutcomes)
    returns (calls: seq<Call>, resp: Response<CaptureData>)
    ensures calls == [] && resp.status == 500 && resp.body.Error?
  {
    calls := [];
    if |missingEnv| > 0 {
      return calls, ErrorResponse("Missing required environment variables: " + Join(missingEnv, ", "), 500);
    }
    var isValid: Option<bool> := None;
    if isValid != Some(true) {
      return calls, ErrorResponse("Cannot read properties of undefined (reading 'join')", 500);
    }
    calls, resp := HandleRegularCapture(body, urlValid, o);
  }

  /** A well-formed text capture whose page is created: the code as written answers 500 where
      the evidently intended handler answers 201. */
  method TextCaptureDiscrepancy() returns (asWritten: int, intended: int)
    ensures asWritten == 500 && intended == 201
  {
    var req := CaptureRequest(Some("text"), Some("Sell lemonade"), [], NoMetadata);
    var o := CaptureOutcomes(Err(Fail("not downloaded")), Err(Fail("not transcribed")),
                             Ok(Notion.PageRef("page-1")), Err(Fail("no question")));
    assert PassesChecks(req, true, o);
    assert !AnyOversized(ProcessedAttachments(req, o));
    var _, r1 := HandleRegularCaptureAsWritten([], Some(req), true, o);
    var _, r2 := HandleRegularCapture(Some(req), true, o);
    return r1.status, r2.status;
  }

  // ---------------------------------------------------------------------------------------------
  // Telegram updates posted to /api/capture
  // ---------------------------------------------------------------------------------------------

  /** What the adapters settle to on the Telegram path. */
  datatype TelegramOutcomes = TelegramOutcomes(
    downloaded: Outcome<TelegramFile>,
    audio: Outcome<AudioFile>,
    transcribed: Outcome<OpenAI.Transcription>,
    created: Outcome<Notion.PageRef>,
    question: Outcome<OpenAI.Question>)

  const ProcessingText := "\U{1F504} Processing your idea..."
  const UnsupportedContent := "Unsupported message type"

  /** The message the update carries: `message`, else `edited_message`, else the callback
      query's message. */
  function CarriedMessage(u: Update): Option<Message>
  {
    if u.message.Some? then u.message
    else if u.editedMessage.Some? then u.editedMessage
    else if u.callbackQuery.Some? then u.callbackQuery.value.message
    else None
  }

  /** The idea content of a Telegram message before any download: its text when truthy, the
      fixed 'Unsupported message type' when it is neither text nor voice. None for voice, whose
      content is the transcript. */
  function DirectContent(m: Message): (c: Option<string>)
    ensures Truthy(m.text) ==> c == m.text
    ensures !Truthy(m.text) && m.voice.None? ==> c == Some(UnsupportedContent)
    ensures !Truthy(m.text) && m.voice.Some? ==> c.None?
  {
    if Truthy(m.text) then m.text else if m.voice.Some? then None else Some(UnsupportedContent)
  }

  /** The idea stored from a Telegram message with content `content`: the title is the content
      cut to 50 characters. */
  function TelegramIdea(content: string, attachments: seq<Notion.Attachment>): (idea: Notion.NewIdea)
    ensures idea.title.Some? && |idea.title.value| <= 50
    ensures idea.rawText == Some(content) && idea.status == Some("Captured") && idea.attachments == attachments
  {
    TruncateWithEllipsisBound(content, 50);
    Notion.NewIdea(Some(TruncateWithEllipsis(content, 50)), Some(content), attachments, Some("Captured"))
  }

  /** The attachment recorded for a transcribed Telegram voice message. */
  function TelegramVoiceAttachment(file: TelegramFile, v: Voice): Notion.Attachment
  {
    Notion.Attachment("audio", Some(file.url), Some("voice_message.ogg"), v.fileSize)
  }

  const SavedNotice := "Your idea has been saved! You can now send another idea or check your Notion database."

  /** The opening of the confirmation, up to and including the title line. */
  function ConfirmationHead(title: string): string
  {
    "\U{2705} <b>Idea captured!</b>\n\n" + "<b>Title:</b> " + title + "\n"
  }

  /** Builds the confirmation: the title, the page link, then the clarifying question when there
      is one and the saved notice otherwise. */
  method ConfirmationText(title: string, pageId: string, question: Option<string>) returns (text: string)
    ensures StartsWith(text, ConfirmationHead(title))
    ensures Contains(text, NotionUrl(pageId))
    ensures Truthy(question) ==> |question.value| <= |text| && text[|text| - |question.value|..] == question.value
    ensures !Truthy(question) ==> |SavedNotice| <= |text| && text[|text| - |SavedNotice|..] == SavedNotice
  {
    var link := NotionUrl(pageId);
    var before := ConfirmationHead(title) + "<b>Notion:</b> <a href=\"";
    var after := "\">View in Notion</a>\n\n";
    var ending := if Truthy(question) then "<b>\U{1F4A1} Quick question:</b> " + question.value else SavedNotice;
    text := before + link + after + ending;
    ConfirmationParts(ConfirmationHead(title), "<b>Notion:</b> <a href=\"", link, after, ending);
  }

  /** Where the head, the link and the ending sit in the assembled confirmation. */
  lemma ConfirmationParts(head: string, open: string, link: string, after: string, ending: string)
    ensures StartsWith(head + open + link + after + ending, head)
    ensures Contains(head + open + link + after + ending, link)
    ensures var text := head + open + link + after + ending;
      |ending| <= |text| && text[|text| - |ending|..] == ending
  {
    var text := head + open + link + after + ending;
    assert text == (head + open) + link + (after + ending);
    ContainsInfix(head + open, link, after + ending);
    assert text[..|head|] == head;
  }

  /** The voice branch: download the file from Telegram, fetch and transcribe it. Yields the
      transcript and the audio attachment, or the message of the first failure. */
  method TranscribeVoice(v: Voice, o: TelegramOutcomes)
    returns (calls: seq<Call>, content: Outcome<(string, seq<Notion.Attachment>)>)
    ensures o.downloaded.Ok? && o.audio.Ok? && o.transcribed.Ok? <==> content.Ok?
    ensures content.Ok? ==>
              content.value == (o.transcribed.value.text, [TelegramVoiceAttachment(o.downloaded.value, v)])
    ensures NoNotionWrite(calls) && |calls| >= 1 && calls[0] == DownloadTelegramFile(v.fileId)
  {
    calls := [DownloadTelegramFile(v.fileId)];
    if o.downloaded.Err? {
      return calls, Err(o.downloaded.error);
    }
    calls := calls + [DownloadAudio(o.downloaded.value.url)];
    if o.audio.Err? {
      return calls, Err(o.audio.error);
    }
    calls := calls + [Transcribe(o.audio.value.byteCount)];
    if o.transcribed.Err? {
      return calls, Err(o.transcribed.error);
    }
    content := Ok((o.transcribed.value.text, [TelegramVoiceAttachment(o.downloaded.value, v)]));
  }

  /** The content and attachments of a Telegram message, or the failure that sends it to the
      catch block. */
  method MessageContent(m: Message, o: TelegramOutcomes)
    returns (calls: seq<Call>, content: Outcome<(string, seq<Notion.Attachment>)>)
    ensures DirectContent(m).Some? ==> calls == [] && content == Ok((DirectContent(m).value, []))
    ensures DirectContent(m).None? ==>
              (content.Ok? <==> o.downloaded.Ok? && o.audio.Ok? && o.transcribed.Ok?)
              && (content.Ok? ==> content.value == (o.transcribed.value.text, [TelegramVoiceAttachment(o.downloaded.value, m.voice.value)]))
    ensures NoNotionWrite(calls)
  {
    if DirectContent(m).Some? {
      return [], Ok((DirectContent(m).value, []));
    }
    calls, content := TranscribeVoice(m.voice.value, o);
  }

  /** Stores the idea from a message with a chat id and confirms it. Yields the failure message
      when something throws. */
  method CaptureMessage(m: Message, o: TelegramOutcomes) returns (calls: seq<Call>, failure: Option<string>)
    ensures |calls| >= 1 && calls[0] == Send(m.chatId, ProcessingText)
    ensures DirectContent(m).Some? ==>
              |calls| >= 2 && calls[1] == CreateIdea(TelegramIdea(DirectContent(m).value, []))
    ensures DirectContent(m).None? && o.downloaded.Ok? && o.audio.Ok? && o.transcribed.Ok? ==>
              CreateIdea(TelegramIdea(o.transcribed.value.text, [TelegramVoiceAttachment(o.downloaded.value, m.voice.value)])) in calls
    ensures failure.None? <==>
              o.created.Ok? && (DirectContent(m).None? ==> o.downloaded.Ok? && o.audio.Ok? && o.transcribed.Ok?)
    ensures failure.None? ==> calls[|calls| - 1].Send? && calls[|calls| - 1].chatId == m.chatId
  {
    calls := [Send(m.chatId, ProcessingText)];
    var more, content := MessageContent(m, o);
    calls := calls + more;
    assert calls[0] == Send(m.chatId, ProcessingText);
    if content.Err? {
      return calls, Some(content.error.message);
    }
    var idea := TelegramIdea(content.value.0, content.value.1);
    calls := calls + [CreateIdea(idea)];
    if o.created.Err? {
      return calls, Some(o.created.error.message);
    }
    var question: Option<string> := None;
    if o.question.Ok? {
      question := Some(o.question.value.question);
    }
    var text := ConfirmationText(idea.title.value, o.created.value.id, question);
    var confirm := Send(m.chatId, text);
    calls := calls + [AskClarifyingQuestion(content.value.0), confirm];
    assert calls[|calls| - 1] == confirm;
    failure := None;
  }

  /** `handleTelegramWebhook`. Sending the processing notice may fail without effect; every other
      failure reaches the catch block, which answers 500 and notifies only a chat read from
      `message`. */
  method HandleTelegramWebhook(update: Option<Update>, o: TelegramOutcomes)
    returns (calls: seq<Call>, resp: Response<TelegramReply>)
    ensures update.None? ==> calls == [] && resp == Response(400, Reply(ErrorReply("No update body", None)))
    ensures update.Some? && update.value.message.None? && update.value.editedMessage.None? && update.value.callbackQuery.None? ==>
              calls == [] && resp == Response(200, Reply(Acknowledged("Update acknowledged but not processed")))
    ensures update.Some? && CarriedMessage(update.value).Some? && CarriedMessage(update.value).value.chatId == 0 ==>
              calls == [] && resp == Response(400, Reply(ErrorReply("Invalid message structure", None)))
    ensures update.Some? && CarriedMessage(update.value).Some? && CarriedMessage(update.value).value.chatId != 0 ==>
              var m := CarriedMessage(update.value).value;
              && |calls| >= 1 && calls[0] == Send(m.chatId, ProcessingText)
              && (DirectContent(m).Some? ==> |calls| >= 2 && calls[1] == CreateIdea(TelegramIdea(DirectContent(m).value, [])))
              && (resp == Response(200, Reply(OkReply)) <==>
                    o.created.Ok? && (DirectContent(m).None? ==> o.downloaded.Ok? && o.audio.Ok? && o.transcribed.Ok?))
    ensures resp.status == 200 || resp.status == 400 || resp == Response(500, Reply(ErrorReply("Internal server error", None)))
    ensures resp.status == 500 && update.Some? && update.value.message.Some? && update.value.message.value.chatId != 0 ==>
              calls[|calls| - 1].Send? && calls[|calls| - 1].chatId == update.value.message.value.chatId
  {
    calls := [];
    if update.None? {
      return calls, Response(400, Reply(ErrorReply("No update body", None)));
    }
    var u := update.value;
    if u.message.None? && u.editedMessage.None? && u.callbackQuery.None? {
      return calls, Response(200, Reply(Acknowledged("Update acknowledged but not processed")));
    }
    var carried := CarriedMessage(u);
    var failure: string;
    if carried.None? {
      // Reading `chat.id` of the callback query's missing message throws inside the try block.
      failure := "Cannot read properties of undefined (reading 'chat')";
    } else if carried.value.chatId == 0 {
      return calls, Response(400, Reply(ErrorReply("Invalid message structure", None)));
    } else {
      var failed;
      calls, failed := CaptureMessage(carried.value, o);
      if failed.None? {
        return calls, Response(200, Reply(OkReply));
      }
      failure := failed.value;
    }
    // The catch block: only a chat id read from `req.body.message` is notified.
    if u.message.Some? && u.message.value.chatId != 0 {
      calls := calls + [Send(u.message.value.chatId, "\U{26A0}\U{FE0F} Something went wrong: " + failure + "\n\nPlease try again.")];
    }
    resp := Response(500, Reply(ErrorReply("Internal server error", None)));
  }
}

=== FILE: categories.dfy ===
/** api/categories.js: GET lists the database's category options with how many ideas use each;
    POST validates a new category name and adds it as an option. */
module Categories {
  import opened Wrappers
  import opened Text
  import opened Utils
  import Notion
  import opened Adapters

  /** A category option with its usage count. */
  datatype EnhancedCategory = EnhancedCategory(option: Notion.CategoryOption, usageCount: nat)

  /** The JSON body of a POST: `name` and `color`. */
  datatype NewCategory = NewCategory(name: Option<string>, color: Option<string>)

  datatype CategoriesData =
    | CategoryList(categories: seq<EnhancedCategory>, totalCategories: nat, totalIdeas: nat, categoryStats: Notion.Tally)
    | CategoryCreated(name: string, color: string, message: string)

  /** Every option, in order, with the number of ideas the stats count under its name (0 when
      the stats do not name it). */
  function EnhanceCategories(options: seq<Notion.CategoryOption>, stats: Notion.IdeaStats): (r: seq<EnhancedCategory>)
    ensures |r| == |options|
    ensures forall i :: 0 <= i < |options| ==>
              r[i].option == options[i] && r[i].usageCount == Notion.Lookup(stats.categoryStats, options[i].name)
  {
    seq(|options|, i requires 0 <= i < |options| => EnhancedCategory(options[i], Notion.Lookup(stats.categoryStats, options[i].name)))
  }

  /** With stats counted from the database's pages, an option's usage count is the number of
      pages filed under its name, and so at most the number of pages. */
  lemma {:induction false} UsageCountsPages(options: seq<Notion.CategoryOption>, pages: seq<Notion.Page>, now: string, i: nat)
    requires i < |options|
    ensures var stats := Notion.IdeaStats(|pages|, Notion.TallyOf(Notion.CategoryKeys(pages)), Notion.TallyOf(Notion.StatusKeys(pages)), now);
            EnhanceCategories(options, stats)[i].usageCount == multiset(Notion.CategoryKeys(pages))[options[i].name]
            && EnhanceCategories(options, stats)[i].usageCount <= |pages|
  {
    var keys := Notion.CategoryKeys(pages);
    Notion.TallyOfCounts(keys);
    assert multiset(keys)[options[i].name] <= |multiset(keys)|;
  }

  /** The name a POST stores: sanitized, then trimmed. */
  function CategoryName(name: string): string
  {
    Trim(SanitizeInput(name))
  }

  /** The length the POST accepts for a stored name. */
  predicate ValidCategoryName(name: string)
  {
    2 <= |name| <= 50
  }

  /** The categories handler. `categories` and `stats` are what reading the options and counting
      the ideas settle to; `added` is what `addCategory` settles to. */
  method HandleCategories(verb: string, missingEnv: seq<string>, body: NewCategory,
                          categories: Outcome<seq<Notion.CategoryOption>>, stats: Outcome<Notion.IdeaStats>,
                          added: Outcome<Notion.AddCategoryResult>)
    returns (calls: seq<Call>, resp: Response<CategoriesData>)
    ensures verb == "OPTIONS" ==> calls == [] && resp == Response(200, NoContent)
    ensures verb != "OPTIONS" && missingEnv != [] ==> calls == [] && resp.status == 500
    ensures verb != "OPTIONS" && missingEnv == [] && verb != "GET" && verb != "POST" ==>
              calls == [] && resp == ErrorResponse("Method not allowed", 405)
    ensures verb == "GET" && missingEnv == [] ==>
              && (categories.Err? ==>
                    |calls| == 1 && calls[0] == GetCategories && resp == ErrorResponse("Failed to fetch categories: " + categories.error.message, 500))
              && (categories.Ok? ==> |calls| == 2 && calls[0] == GetCategories && calls[1] == GetIdeaStats)
              && (categories.Ok? && stats.Err? ==>
                    resp == ErrorResponse("Failed to fetch categories: " + stats.error.message, 500))
              && (categories.Ok? && stats.Ok? ==>
                    resp == Response(200, Success(CategoryList(EnhanceCategories(categories.value, stats.value),
                      |categories.value|, stats.value.totalIdeas, stats.value.categoryStats))))
    ensures verb == "POST" && missingEnv == [] && !Truthy(body.name) ==>
              calls == [] && resp == ErrorResponse("Missing required field: name", 400)
    ensures verb == "POST" && missingEnv == [] && Truthy(body.name) && !ValidCategoryName(CategoryName(body.name.value)) ==>
              calls == [] && resp == ErrorResponse("Category name must be between 2 and 50 characters", 400)
    ensures verb == "POST" && missingEnv == [] && Truthy(body.name) && ValidCategoryName(CategoryName(body.name.value)) ==>
              && |calls| == 1 && calls[0] == AddCategory(CategoryName(body.name.value))
              && (added.Err? ==> resp == ErrorResponse("Failed to create category: " + added.error.message, 500))
              && (added.Ok? && added.value.success ==>
                    resp == Response(201, Success(CategoryCreated(CategoryName(body.name.value), Or(body.color, "default"), added.value.message))))
              && (added.Ok? && !added.value.success ==> resp == ErrorResponse(added.value.message, 400))
    ensures resp.status == 201 ==> |calls| == 1 && calls[0].AddCategory? && ValidCategoryName(calls[0].name)
  {
    calls := [];
    if verb == "OPTIONS" {
      return calls, Response(200, NoContent);
    }
    if missingEnv != [] {
      return calls, ErrorResponse("Missing required environment variables: " + Join(missingEnv, ", "), 500);
    }
    if verb == "GET" {
      calls := [GetCategories];
      if categories.Err? {
        return calls, ErrorResponse("Failed to fetch categories: " + categories.error.message, 500);
      }
      calls := [GetCategories, GetIdeaStats];
      if stats.Err? {
        return calls, ErrorResponse("Failed to fetch categories: " + stats.error.message, 500);
      }
      var options := categories.value;
      resp := Response(200, Success(CategoryList(EnhanceCategories(options, stats.value), |options|,
                                                 stats.value.totalIdeas, stats.value.categoryStats)));
    } else if verb == "POST" {
      if !Truthy(body.name) {
        return calls, ErrorResponse("Missing required field: name", 400);
      }
      var sanitizedName := Trim(SanitizeInput(body.name.value));
      if |sanitizedName| < 2 || |sanitizedName| > 50 {
        return calls, ErrorResponse("Category name must be between 2 and 50 characters", 400);
      }
      calls := [AddCategory(sanitizedName)];
      if added.Err? {
        return calls, ErrorResponse("Failed to create category: " + added.error.message, 500);
      }
      if added.value.success {
        resp := Response(201, Success(CategoryCreated(sanitizedName, Or(body.color, "default"), added.value.message)));
      } else {
        resp := ErrorResponse(added.value.message, 400);
      }
    } else {
      resp := ErrorResponse("Method not allowed", 405);
    }
  }

  /** A stored category name is trimmed and free of control characters, whatever name is posted. */
  lemma CategoryNameClean(name: string)
    ensures Trim(CategoryName(name)) == CategoryName(name)
    ensures forall i :: 0 <= i < |CategoryName(name)| ==> !IsControl(CategoryName(name)[i])
  {
    var sanitized := SanitizeInput(name);
    TrimIdempotent(sanitized);
    TrimChars(sanitized);
    forall i | 0 <= i < |CategoryName(name)| ensures !IsControl(CategoryName(name)[i]) {
      var c := CategoryName(name)[i];
      assert c in sanitized;
      var j :| 0 <= j < |sanitized| && sanitized[j] == c;
    }
  }
}

=== FILE: clarify.dfy ===
/** api/clarify.js: the PATCH endpoint that moves a captured idea through clarification. Adding
    detail rewrites the idea's raw text, asking generates a new question without writing, and
    confirming marks the idea ready for enrichment. */
module Clarify {
  import opened Wrappers
  import opened Text
  import opened Utils
  import Notion
  import OpenAI
  import opened Adapters

  /** The JSON body: `ideaId`, `clarification` and `action`. */
  datatype ClarifyRequest = ClarifyRequest(ideaId: Option<string>, clarification: Option<string>, action: Option<string>)

  /** The actions the endpoint knows. */
  predicate IsAction(action: string)
  {
    action == "add_detail" || action == "generate_question" || action == "confirm"
  }

  /** The `data` of a successful clarification, one variant per action. */
  datatype ClarifyData =
    | Clarified(ideaId: string, updatedContent: string, status: string, nextStep: string)
    | AwaitingClarification(ideaId: string, question: string, status: string, nextStep: string)
    | Confirmed(ideaId: string, status: string, nextStep: string, notionUrl: string)

  /** The step each action leads to: detail is followed by confirmation, a question by detail,
      and confirmation by enrichment. */
  function NextStep(action: string): (next: string)
    requires IsAction(action)
    ensures IsAction(next) || next == "enrich"
    ensures next == "enrich" <==> action == "confirm"
  {
    if action == "add_detail" then "confirm"
    else if action == "generate_question" then "add_detail"
    else "enrich"
  }

  /** The text stored by 'add_detail'. The idea is not fetched from Notion: its stand-in raw text
      is the clarification itself, so the clarification appears twice. */
  function EnhancedText(clarification: string): (text: string)
    ensures StartsWith(text, clarification)
    ensures |text| == 2 * |clarification| + |"\n\nAdditional details: "|
    ensures text[|text| - |clarification|..] == clarification
  {
    clarification + "\n\nAdditional details: " + clarification
  }

  /** The update 'add_detail' sends: the raw text only. */
  function DetailUpdate(clarification: string): Notion.IdeaUpdates
  {
    Notion.IdeaUpdates(None, Some(EnhancedText(clarification)), None, None, None, None)
  }

  const ReadyForEnrichment := "Ready for Enrichment"

  /** The update 'confirm' sends: the status only. */
  const ConfirmUpdate := Notion.IdeaUpdates(None, None, None, None, Some(ReadyForEnrichment), None)

  /** The request is well formed: an idea id and a known action. */
  predicate WellFormed(req: ClarifyRequest)
  {
    Truthy(req.ideaId) && Truthy(req.action) && IsAction(req.action.value)
  }

  /** The clarify handler. `missingEnv` lists unset environment variables, `updated` is what the
      Notion update settles to and `question` what the question generation returns. */
  method HandleClarify(verb: string, missingEnv: seq<string>, req: ClarifyRequest,
                       updated: Outcome<()>, question: Outcome<OpenAI.Question>)
    returns (calls: seq<Call>, resp: Response<ClarifyData>)
    ensures verb == "OPTIONS" ==> calls == [] && resp == Response(200, NoContent)
    ensures verb != "OPTIONS" && verb != "PATCH" ==> calls == [] && resp == ErrorResponse("Method not allowed", 405)
    ensures verb == "PATCH" && missingEnv != [] ==> calls == [] && resp.status == 500
    ensures verb == "PATCH" && missingEnv == [] && !Truthy(req.ideaId) ==>
              calls == [] && resp == ErrorResponse("Missing required field: ideaId", 400)
    ensures verb == "PATCH" && missingEnv == [] && Truthy(req.ideaId) && !WellFormed(req) ==>
              calls == [] && resp == ErrorResponse("Invalid action. Must be: add_detail, generate_question, or confirm", 400)
    ensures verb == "PATCH" && missingEnv == [] && WellFormed(req) ==> ActionApplied(req, updated, question, calls, resp)
    ensures resp.status == 200 && resp.body.Success? ==>
              WellFormed(req) && resp.body.data.nextStep == NextStep(req.action.value)
  {
    calls := [];
    if verb == "OPTIONS" {
      return calls, Response(200, NoContent);
    }
    if verb != "PATCH" {
      return calls, ErrorResponse("Method not allowed", 405);
    }
    if missingEnv != [] {
      return calls, ErrorResponse("Missing required environment variables: " + Join(missingEnv, ", "), 500);
    }
    if !Truthy(req.ideaId) {
      return calls, ErrorResponse("Missing required field: ideaId", 400);
    }
    if !Truthy(req.action) || !IsAction(req.action.value) {
      return calls, ErrorResponse("Invalid action. Must be: add_detail, generate_question, or confirm", 400);
    }
    calls, resp := ApplyAction(req, updated, question);
  }

  /** What each action of a well-formed request calls and answers: add_detail appends the
      clarification (and needs one), generate_question asks for a question about it, confirm sets
      the status to 'Ready for Enrichment'. */
  predicate ActionApplied(req: ClarifyRequest, updated: Outcome<()>, question: Outcome<OpenAI.Question>,
                          calls: seq<Call>, resp: Response<ClarifyData>)
    requires WellFormed(req)
  {
    && (req.action.value == "add_detail" ==>
          if !Truthy(req.clarification) then
            calls == [] && resp == ErrorResponse("Missing clarification text", 400)
          else
            && |calls| == 1 && calls[0] == UpdateIdea(req.ideaId.value, DetailUpdate(req.clarification.value))
            && (updated.Ok? <==> resp.status == 200)
            && (updated.Ok? ==> resp.body == Success(Clarified(req.ideaId.value, EnhancedText(req.clarification.value), "clarified", "confirm"))))
    && (req.action.value == "generate_question" ==>
          && |calls| == 1 && calls[0] == AskClarifyingQuestion(Or(req.clarification, ""))
          && (question.Ok? ==> resp == Response(200, Success(AwaitingClarification(req.ideaId.value, question.value.question, "awaiting_clarification", "add_detail"))))
          && (question.Err? ==> resp == ErrorResponse("Failed to generate question: " + question.error.message, 500)))
    && (req.action.value == "confirm" ==>
          && |calls| == 1 && calls[0] == UpdateIdea(req.ideaId.value, ConfirmUpdate)
          && (updated.Ok? ==> resp == Response(200, Success(Confirmed(req.ideaId.value, "confirmed", "enrich", NotionUrl(req.ideaId.value)))))
          && (updated.Err? ==> resp.status == 500))
  }

  /** The `switch` on the action of a well-formed request. */
  method ApplyAction(req: ClarifyRequest, updated: Outcome<()>, question: Outcome<OpenAI.Question>)
    returns (calls: seq<Call>, resp: Response<ClarifyData>)
    requires WellFormed(req)
    ensures ActionApplied(req, updated, question, calls, resp)
    ensures resp.status == 200 && resp.body.Success? ==> resp.body.data.nextStep == NextStep(req.action.value)
  {
    calls := [];
    var ideaId := req.ideaId.value;
    var action := req.action.value;
    var rawText := Or(req.clarification, "");
    if action == "add_detail" {
      if !Truthy(req.clarification) {
        return calls, ErrorResponse("Missing clarification text", 400);
      }
      var enhanced := rawText + "\n\nAdditional details: " + req.clarification.value;
      calls := [UpdateIdea(ideaId, DetailUpdate(req.clarification.value))];
      if updated.Err? {
        return calls, ErrorResponse(updated.error.message, 500);
      }
      resp := Response(200, Success(Clarified(ideaId, enhanced, "clarified", "confirm")));
    } else if action == "generate_question" {
      calls := [AskClarifyingQuestion(rawText)];
      if question.Err? {
        return calls, ErrorResponse("Failed to generate question: " + question.error.message, 500);
      }
      resp := Response(200, Success(AwaitingClarification(ideaId, question.value.question, "awaiting_clarification", "add_detail")));
    } else {
      calls := [UpdateIdea(ideaId, ConfirmUpdate)];
      if updated.Err? {
        return calls, ErrorResponse(updated.error.message, 500);
      }
      resp := Response(200, Success(Confirmed(ideaId, "confirmed", "enrich", NotionUrl(ideaId))));
    }
  }
}

=== FILE: enrich.dfy ===
/** api/enrich-lite.js: the POST endpoint that enriches a captured idea. It reads the database's
    categories, asks the model for an analysis within them, creates the suggested category when
    the model is confident and the name is new, and saves category, confidence and status. */
module EnrichLite {
  import opened Wrappers
  import opened Text
  import opened Utils
  import Notion
  import OpenAI
  import opened Adapters

  /** The JSON body: `ideaId`, `ideaText` and `skipCategoryCreation` (falsy when absent). */
  datatype EnrichRequest = EnrichRequest(ideaId: Option<string>, ideaText: Option<string>, skipCategoryCreation: bool)

  /** The `data` of a successful enrichment: the sanitized analysis under the name the response
      gives it, the tokens and cost of the completion, and the page link. */
  datatype EnrichData = EnrichData(
    ideaId: string,
    enrichment: OpenAI.Enrichment,
    tokensUsed: nat,
    estimatedCost: real,
    status: string,
    notionUrl: string)

  /** The confidence from which a suggested category is created. */
  const CreationThreshold: real := 0.7

  /** A suggested category is created when creation is not skipped, the model is confident
      enough and no existing option has the name in any ASCII letter case. */
  predicate ShouldAddCategory(skip: bool, verdict: OpenAI.CategoryVerdict, existing: seq<Notion.CategoryOption>)
  {
    !skip && verdict.confidence >= CreationThreshold && !Notion.NameTaken(existing, verdict.name)
  }

  /** Once the suggested category has been added, the same suggestion does not add it again, and
      a name already present is never added. */
  lemma ShouldAddCategoryOnce(skip: bool, verdict: OpenAI.CategoryVerdict, existing: seq<Notion.CategoryOption>, color: string)
    ensures !ShouldAddCategory(skip, verdict, Notion.WithNewCategory(existing, verdict.name, color))
    ensures Notion.NameTaken(existing, verdict.name) ==> !ShouldAddCategory(skip, verdict, existing)
  {
    Notion.AddCategoryIdempotent(existing, verdict.name, color, verdict.name);
  }

  /** The update that saves an enrichment: category, confidence and the 'Enriched' status. */
  function EnrichmentUpdate(verdict: OpenAI.CategoryVerdict): Notion.IdeaUpdates
  {
    Notion.IdeaUpdates(None, None, Some(verdict.name), Some(verdict.confidence), Some("Enriched"), None)
  }

  /** The enrich handler. `categories` is what reading the categories settles to, `enriched` what
      the enrichment returns and `updated` what the page update settles to; the outcome of a
      category creation is not read. */
  method HandleEnrich(verb: string, missingEnv: seq<string>, req: EnrichRequest,
                      categories: Outcome<seq<Notion.CategoryOption>>,
                      enriched: Outcome<OpenAI.EnrichResult>, updated: Outcome<()>)
    returns (calls: seq<Call>, resp: Response<EnrichData>)
    ensures verb == "OPTIONS" ==> calls == [] && resp == Response(200, NoContent)
    ensures verb != "OPTIONS" && verb != "POST" ==> calls == [] && resp == ErrorResponse("Method not allowed", 405)
    ensures verb == "POST" && missingEnv != [] ==> calls == [] && resp.status == 500
    ensures verb == "POST" && missingEnv == [] && !(Truthy(req.ideaId) && Truthy(req.ideaText)) ==>
              calls == [] && resp == ErrorResponse("Missing required fields: ideaId, ideaText", 400)
    ensures verb == "POST" && missingEnv == [] && Truthy(req.ideaId) && Truthy(req.ideaText) ==>
              var existing := if categories.Ok? then categories.value else [];
              && |calls| >= 2 && calls[0] == GetCategories && calls[1] == Enrich(req.ideaText.value, existing)
              && (enriched.Err? ==>
                    |calls| == 2 && resp == ErrorResponse("AI enrichment failed: " + enriched.error.message, 500))
              && (enriched.Ok? ==>
                    var verdict := enriched.value.enrichedIdea.category;
                    && (if ShouldAddCategory(req.skipCategoryCreation, verdict, existing)
                        then |calls| == 4 && calls[2] == AddCategory(verdict.name)
                        else |calls| == 3)
                    && calls[|calls| - 1] == UpdateIdea(req.ideaId.value, EnrichmentUpdate(verdict))
                    && (updated.Err? ==> resp == ErrorResponse("Failed to save enrichment: " + updated.error.message, 500))
                    && (updated.Ok? ==> resp == Response(200, Success(EnrichData(
                          req.ideaId.value, enriched.value.enrichedIdea, enriched.value.tokens, enriched.value.cost,
                          "enriched", NotionUrl(req.ideaId.value))))))
    ensures resp.status == 200 && resp.body.Success? ==>
              enriched.Ok? && updated.Ok? && calls[|calls| - 1] == UpdateIdea(req.ideaId.value, EnrichmentUpdate(enriched.value.enrichedIdea.category))
  {
    calls := [];
    if verb == "OPTIONS" {
      return calls, Response(200, NoContent);
    }
    if verb != "POST" {
      return calls, ErrorResponse("Method not allowed", 405);
    }
    if missingEnv != [] {
      return calls, ErrorResponse("Missing required environment variables: " + Join(missingEnv, ", "), 500);
    }
    if !Truthy(req.ideaId) || !Truthy(req.ideaText) {
      return calls, ErrorResponse("Missing required fields: ideaId, ideaText", 400);
    }
    var ideaId := req.ideaId.value;
    var existing: seq<Notion.CategoryOption> := [];
    calls := [GetCategories];
    if categories.Ok? {
      existing := categories.value;
    }
    calls := calls + [Enrich(req.ideaText.value, existing)];
    if enriched.Err? {
      return calls, ErrorResponse("AI enrichment failed: " + enriched.error.message, 500);
    }
    var idea := enriched.value.enrichedIdea;
    var verdict := idea.category;
    if !req.skipCategoryCreation && verdict.confidence >= CreationThreshold && !Notion.NameTaken(existing, verdict.name) {
      calls := calls + [AddCategory(verdict.name)];
    }
    var update := UpdateIdea(ideaId, EnrichmentUpdate(verdict));
    calls := calls + [update];
    if updated.Err? {
      return calls, ErrorResponse("Failed to save enrichment: " + updated.error.message, 500);
    }
    resp := Response(200, Success(EnrichData(ideaId, idea, enriched.value.tokens, enriched.value.cost, "enriched", NotionUrl(ideaId))));
  }
}

=== FILE: markdown.dfy ===
/** The regular-expression splits `addBusinessPlanContent` (lib/notion.js) applies to markdown-like
    text: sections before every "##" followed by whitespace, paragraphs at blank lines, and
    bullet items at "\n- ". */
module Markdown {
  import opened Text

  // ---------------------------------------------------------------------------------------------
  // split(/(?=##\s)/)
  // ---------------------------------------------------------------------------------------------

  /** The lookahead `(?=##\s)` succeeds at position q. */
  predicate SectionMarkAt(s: string, q: nat)
  {
    q + 3 <= |s| && s[q] == '#' && s[q + 1] == '#' && IsSpace(s[q + 2])
  }

  /** The least position at or after `from` where the lookahead succeeds, or |s|. */
  function NextSectionMark(s: string, from: nat): (q: nat)
    requires from <= |s|
    ensures from <= q <= |s|
    ensures q < |s| ==> SectionMarkAt(s, q)
    ensures forall j :: from <= j < q ==> !SectionMarkAt(s, j)
    decreases |s| - from
  {
    if from == |s| then |s|
    else if SectionMarkAt(s, from) then from
    else NextSectionMark(s, from + 1)
  }

  /** `s.split(/(?=##\s)/)`: a zero-width match at the start of the current piece is skipped, so
      the text is cut before every later "##"+whitespace; the empty string gives [""]. */
  function SplitSections(s: string): (parts: seq<string>)
    ensures |parts| >= 1
    ensures Concat(parts) == s
    ensures forall i :: 0 <= i < |parts| ==> forall j :: 0 < j < |parts[i]| ==> !SectionMarkAt(parts[i], j)
    ensures forall i :: 0 < i < |parts| ==> SectionMarkAt(parts[i], 0)
    ensures s != [] ==> parts[0] != []
    ensures SectionMarkAt(s, 0) ==> SectionMarkAt(parts[0], 0)
    decreases |s|
  {
    if |s| == 0 then [s]
    else
      var q := NextSectionMark(s, 1);
      NoMarkInPrefix(s, q);
      FirstSectionKeepsMark(s, q);
      if q == |s| then
        assert s[..q] == s;
        [s]
      else
        var rest := SplitSections(s[q..]);
        assert SectionMarkAt(s[q..], 0);
        assert s == s[..q] + Concat(rest);
        ConsSections(s[..q], rest);
        [s[..q]] + rest
  }

  /** A section that starts with a mark keeps it: the next mark is at least three further on. */
  lemma FirstSectionKeepsMark(s: string, q: nat)
    requires 1 <= q <= |s|
    requires forall j :: 1 <= j < q ==> !SectionMarkAt(s, j)
    requires q < |s| ==> SectionMarkAt(s, q)
    ensures SectionMarkAt(s, 0) ==> SectionMarkAt(s[..q], 0)
  {
    if SectionMarkAt(s, 0) {
      assert !SectionMarkAt(s, 1) && !SectionMarkAt(s, 2);
      MarkInPrefix(s, q, 0);
    }
  }

  lemma ConsSections(head: string, rest: seq<string>)
    requires head != [] && |rest| >= 1
    requires forall j :: 0 < j < |head| ==> !SectionMarkAt(head, j)
    requires forall i :: 0 <= i < |rest| ==> forall j :: 0 < j < |rest[i]| ==> !SectionMarkAt(rest[i], j)
    requires forall i :: 0 < i < |rest| ==> SectionMarkAt(rest[i], 0)
    requires SectionMarkAt(rest[0], 0)
    ensures var parts := [head] + rest;
      && (forall i :: 0 <= i < |parts| ==> forall j :: 0 < j < |parts[i]| ==> !SectionMarkAt(parts[i], j))
      && (forall i :: 0 < i < |parts| ==> SectionMarkAt(parts[i], 0))
  {
    var parts := [head] + rest;
    forall i | 0 < i < |parts| ensures parts[i] == rest[i - 1] {
    }
  }

  /** Marks that the lookahead finds in a prefix are marks of the whole text. */
  lemma NoMarkInPrefix(s: string, q: nat)
    requires 1 <= q <= |s|
    requires forall j :: 1 <= j < q ==> !SectionMarkAt(s, j)
    ensures forall j :: 0 < j < q ==> !SectionMarkAt(s[..q], j)
  {
    forall j | 0 < j < q ensures !SectionMarkAt(s[..q], j) {
      MarkInPrefix(s, q, j);
    }
  }

  lemma MarkInPrefix(s: string, q: nat, j: nat)
    requires q <= |s|
    ensures SectionMarkAt(s[..q], j) <==> j + 3 <= q && SectionMarkAt(s, j)
  {
  }

  // ---------------------------------------------------------------------------------------------
  // split(/\n\s*\n/)
  // ---------------------------------------------------------------------------------------------

  /** For the text after a '\n': the length up to and including the last '\n' of its leading
      whitespace run (where greedy `\s*\n` stops after backtracking), or 0 when that run holds no
      '\n'. */
  function NewlineRun(t: string): (n: nat)
    ensures n <= |t|
    ensures n > 0 ==> t[n - 1] == '\n' && forall i :: 0 <= i < n ==> IsSpace(t[i])
    ensures t != [] && t[0] == '\n' ==> n > 0
  {
    if t == [] || !IsSpace(t[0]) then 0
    else
      var rest := NewlineRun(t[1..]);
      if rest > 0 then rest + 1 else if t[0] == '\n' then 1 else 0
  }

  /** Length of the match of `/\n\s*\n/` at position q, or 0 when it fails there. */
  function BreakAt(s: string, q: nat): (n: nat)
    ensures n > 0 ==> q < |s| && n >= 2 && q + n <= |s|
  {
    if q < |s| && s[q] == '\n' then
      var m := NewlineRun(s[q + 1..]);
      if m > 0 then m + 1 else 0
    else 0
  }

  /** The least position at or after `from` where `/\n\s*\n/` matches, or |s|. */
  function NextBreak(s: string, from: nat): (q: nat)
    requires from <= |s|
    ensures from <= q <= |s|
    ensures q < |s| ==> BreakAt(s, q) > 0
    ensures forall j :: from <= j < q ==> BreakAt(s, j) == 0
    decreases |s| - from
  {
    if from == |s| then |s|
    else if BreakAt(s, from) > 0 then from
    else NextBreak(s, from + 1)
  }

  /** `s.split(/\n\s*\n/)`: the pieces between successive leftmost matches. No piece contains a
      blank line "\n\n"; `SplitParagraphsRebuild`, `SplitParagraphsLeftmost` and
      `LeftmostSplitUnique` tie the pieces to the text. */
  function SplitParagraphs(s: string): (parts: seq<string>)
    ensures |parts| >= 1
    ensures |parts[0]| <= |s| && parts[0] == s[..|parts[0]|]
    ensures forall i :: 0 <= i < |parts| ==> !Contains(parts[i], "\n\n")
    decreases |s|
  {
    var q := NextBreak(s, 0);
    NoBlankLineBefore(s, q);
    if q == |s| then
      assert s[..q] == s;
      [s]
    else
      [s[..q]] + SplitParagraphs(s[q + BreakAt(s, q)..])
  }

  /** A whole match of `/\n\s*\n/`: a newline, whitespace, and a newline. */
  predicate IsBreak(m: string)
  {
    |m| >= 2 && m[0] == '\n' && m[|m| - 1] == '\n' && forall i :: 0 <= i < |m| ==> IsSpace(m[i])
  }

  /** The pieces with a separator between each two: p0 + m0 + p1 + ... + pn. */
  function Weave(parts: seq<string>, seps: seq<string>): string
    requires |seps| + 1 == |parts|
    decreases |seps|
  {
    if |seps| == 0 then parts[0] else parts[0] + seps[0] + Weave(parts[1..], seps[1..])
  }

  predicate Separates(parts: seq<string>, seps: seq<string>, s: string)
  {
    && |seps| + 1 == |parts|
    && (forall k :: 0 <= k < |seps| ==> IsBreak(seps[k]))
    && Weave(parts, seps) == s
  }

  /** The paragraphs with the matches between them give back the text. */
  lemma {:induction false} SplitParagraphsRebuild(s: string)
    ensures exists seps :: Separates(SplitParagraphs(s), seps, s)
    decreases |s|
  {
    var q := NextBreak(s, 0);
    if q == |s| {
      SplitParagraphsLast(s);
      assert Separates([s], [], s);
    } else {
      var n := BreakAt(s, q);
      var t := s[q + n..];
      SplitParagraphsCut(s, q, n);
      SplitParagraphsRebuild(t);
      var seps :| Separates(SplitParagraphs(t), seps, t);
      RebuildAtBreak(s, q, SplitParagraphs(t), seps);
    }
  }

  lemma RebuildAtBreak(s: string, q: nat, rest: seq<string>, seps: seq<string>)
    requires BreakAt(s, q) > 0
    requires Separates(rest, seps, s[q + BreakAt(s, q)..])
    ensures Separates([s[..q]] + rest, [s[q..q + BreakAt(s, q)]] + seps, s)
  {
    var n := BreakAt(s, q);
    MatchIsBreak(s, q);
    assert s == s[..q] + s[q..q + n] + s[q + n..];
    WeaveCons(s[..q], s[q..q + n], rest, seps);
  }

  lemma MatchIsBreak(s: string, q: nat)
    requires BreakAt(s, q) > 0
    ensures IsBreak(s[q..q + BreakAt(s, q)])
  {
    var n := BreakAt(s, q);
    var t := s[q + 1..];
    var m := s[q..q + n];
    forall i | 1 <= i < n ensures m[i] == t[i - 1] {
    }
  }

  lemma WeaveCons(head: string, m: string, rest: seq<string>, seps: seq<string>)
    requires |seps| + 1 == |rest| && IsBreak(m) && forall k :: 0 <= k < |seps| ==> IsBreak(seps[k])
    ensures Separates([head] + rest, [m] + seps, head + m + Weave(rest, seps))
  {
    var parts, all := [head] + rest, [m] + seps;
    assert parts[1..] == rest && all[1..] == seps;
    forall k | 0 < k < |all| ensures all[k] == seps[k - 1] {
    }
  }

  /** A regular-expression `split` cuts at the leftmost match of what is left of the text and
      resumes after the whole match: each piece runs up to the first match in the remaining text,
      each separator is the entire match found there, and the last piece is a rest holding no
      match. */
  predicate LeftmostSplit(parts: seq<string>, seps: seq<string>, s: string)
    decreases |seps|
  {
    && |seps| + 1 == |parts|
    && |parts[0]| <= |s|
    && parts[0] == s[..|parts[0]|]
    && (forall j :: 0 <= j < |parts[0]| ==> BreakAt(s, j) == 0)
    && if |seps| == 0 then |parts[0]| == |s|
       else
         && |parts[0]| + |seps[0]| <= |s|
         && 0 < BreakAt(s, |parts[0]|) == |seps[0]|
         && seps[0] == s[|parts[0]|..|parts[0]| + |seps[0]|]
         && LeftmostSplit(parts[1..], seps[1..], s[|parts[0]| + |seps[0]|..])
  }

  /** The matches `split` removes, in order. */
  function BreakMatches(s: string): seq<string>
    decreases |s|
  {
    var q := NextBreak(s, 0);
    if q == |s| then [] else [s[q..q + BreakAt(s, q)]] + BreakMatches(s[q + BreakAt(s, q)..])
  }

  /** The paragraphs are a leftmost split of the text: every piece ends where the first match of
      the remaining text starts, and every cut removes that whole match. */
  lemma {:induction false} SplitParagraphsLeftmost(s: string)
    ensures LeftmostSplit(SplitParagraphs(s), BreakMatches(s), s)
    decreases |s|
  {
    var q := NextBreak(s, 0);
    if q == |s| {
      SplitParagraphsLast(s);
      assert LeftmostSplit([s], [], s);
    } else {
      var n := BreakAt(s, q);
      SplitParagraphsLeftmost(s[q + n..]);
      LeftmostCut(s, q, n);
    }
  }

  /** Cutting at the first match in front of the leftmost split of the rest gives the leftmost
      split of the text. */
  lemma {:induction false} LeftmostCut(s: string, q: nat, n: nat)
    requires q == NextBreak(s, 0) < |s| && n == BreakAt(s, q)
    requires LeftmostSplit(SplitParagraphs(s[q + n..]), BreakMatches(s[q + n..]), s[q + n..])
    ensures LeftmostSplit(SplitParagraphs(s), BreakMatches(s), s)
  {
    SplitParagraphsCut(s, q, n);
    BreakMatchesCut(s, q, n);
    LeftmostStep(s, q, n, SplitParagraphs(s[q + n..]), BreakMatches(s[q + n..]));
  }

  /** The first match removed is the one at the first match position. */
  lemma {:induction false} BreakMatchesCut(s: string, q: nat, n: nat)
    requires q == NextBreak(s, 0) < |s| && n == BreakAt(s, q)
    ensures BreakMatches(s) == [s[q..q + n]] + BreakMatches(s[q + n..])
  {
  }

  /** Text without a match is one paragraph. */
  lemma {:induction false} SplitParagraphsLast(s: string)
    requires NextBreak(s, 0) == |s|
    ensures SplitParagraphs(s) == [s]
  {
    assert s[..|s|] == s;
  }

  /** Text with a match is cut at the first one. */
  lemma {:induction false} SplitParagraphsCut(s: string, q: nat, n: nat)
    requires q == NextBreak(s, 0) < |s| && n == BreakAt(s, q)
    ensures SplitParagraphs(s) == [s[..q]] + SplitParagraphs(s[q + n..])
  {
  }

  /** One cut at the first match, followed by a leftmost split of the rest. */
  lemma {:induction false} LeftmostStep(s: string, q: nat, n: nat, rest: seq<string>, seps: seq<string>)
    requires q + n <= |s|
    requires forall j :: 0 <= j < q ==> BreakAt(s, j) == 0
    requires 0 < BreakAt(s, q) == n
    requires LeftmostSplit(rest, seps, s[q + n..])
    ensures LeftmostSplit([s[..q]] + rest, [s[q..q + n]] + seps, s)
  {
    var parts, all := [s[..q]] + rest, [s[q..q + n]] + seps;
    assert |parts[0]| == q && |all[0]| == n;
    assert parts[1..] == rest && all[1..] == seps;
  }

  /** The leftmost split is unique: pieces that cut the text at its leftmost matches are exactly
      the paragraphs. */
  lemma {:induction false} LeftmostSplitUnique(parts: seq<string>, seps: seq<string>, s: string)
    requires LeftmostSplit(parts, seps, s)
    ensures parts == SplitParagraphs(s)
    decreases |seps|
  {
    var q := |parts[0]|;
    if |seps| == 0 {
      LeftmostLast(parts, seps, s);
      FirstBreakIs(s, 0, |s|);
      SplitParagraphsLast(s);
    } else {
      var n := |seps[0]|;
      LeftmostHead(parts, seps, s, q, n);
      LeftmostSplitUnique(parts[1..], seps[1..], s[q + n..]);
      FirstCutIsSplit(s, q, n, parts);
    }
  }

  /** A leftmost split without separators is the whole text, which holds no match. */
  lemma {:induction false} LeftmostLast(parts: seq<string>, seps: seq<string>, s: string)
    requires LeftmostSplit(parts, seps, s) && |seps| == 0
    ensures parts == [s]
    ensures forall j :: 0 <= j < |s| ==> BreakAt(s, j) == 0
  {
    assert s[..|s|] == s;
  }

  /** The text up to its first match, followed by the paragraphs after that match, are the
      paragraphs. */
  lemma {:induction false} FirstCutIsSplit(s: string, q: nat, n: nat, parts: seq<string>)
    requires q + n <= |s|
    requires forall j :: 0 <= j < q ==> BreakAt(s, j) == 0
    requires 0 < BreakAt(s, q) == n
    requires |parts| >= 1 && parts[0] == s[..q] && parts[1..] == SplitParagraphs(s[q + n..])
    ensures parts == SplitParagraphs(s)
  {
    FirstBreakIs(s, 0, q);
    SplitParagraphsCut(s, q, n);
    assert parts == [parts[0]] + parts[1..];
  }

  /** The first cut of a leftmost split, and the split of the rest. */
  lemma {:induction false} LeftmostHead(parts: seq<string>, seps: seq<string>, s: string, q: nat, n: nat)
    requires LeftmostSplit(parts, seps, s) && |seps| > 0
    requires q == |parts[0]| && n == |seps[0]|
    ensures q + n <= |s| && parts[0] == s[..q]
    ensures forall j :: 0 <= j < q ==> BreakAt(s, j) == 0
    ensures 0 < BreakAt(s, q) == n
    ensures LeftmostSplit(parts[1..], seps[1..], s[q + n..])
  {
  }

  /** A position with no match before it, where a match starts or the text ends, is the next
      match. */
  lemma {:induction false} FirstBreakIs(s: string, from: nat, q: nat)
    requires from <= q <= |s|
    requires forall j :: from <= j < q ==> BreakAt(s, j) == 0
    requires q == |s| || BreakAt(s, q) > 0
    ensures NextBreak(s, from) == q
    decreases q - from
  {
    if from < q {
      FirstBreakIs(s, from + 1, q);
    }
  }

  /** Before the first match there is no blank line: "\n\n" would itself start a match. */
  lemma NoBlankLineBefore(s: string, q: nat)
    requires q <= |s|
    requires forall j :: 0 <= j < q ==> BreakAt(s, j) == 0
    ensures !Contains(s[..q], "\n\n")
  {
    forall j | 0 <= j && j + 1 < q ensures !(s[j] == '\n' && s[j + 1] == '\n') {
      var t := s[j + 1..];
      assert t != [] && t[0] == s[j + 1];
      assert BreakAt(s, j) == 0;
    }
    NoAdjacentNewlines(s[..q]);
  }

  lemma {:induction false} NoAdjacentNewlines(t: string)
    requires forall j :: 0 <= j && j + 1 < |t| ==> !(t[j] == '\n' && t[j + 1] == '\n')
    ensures !Contains(t, "\n\n")
    decreases |t|
  {
    if |t| > 0 {
      NoAdjacentNewlines(t[1..]);
      assert |t| >= 2 ==> !(t[0] == '\n' && t[1] == '\n');
    }
  }

  // ---------------------------------------------------------------------------------------------
  // bullet items
  // ---------------------------------------------------------------------------------------------

  /** `item.replace(/^- /, '')`. */
  function StripDash(item: string): (r: string)
    ensures StartsWith(item, "- ") ==> r == item[2..]
    ensures !StartsWith(item, "- ") ==> r == item
  {
    if StartsWith(item, "- ") then item[2..] else item
  }

  /** A bullet item as the cleaning leaves it: non-empty and trimmed. */
  predicate IsCleanItem(item: string)
  {
    item != [] && Trim(item) == item
  }

  /** `map(item => item.replace(/^- /, '').trim()).filter(item => item)` on given pieces: one piece
      gives its cleaned form unless that is empty, and with `CleanItemsAppend` this fixes the
      result as the non-empty cleaned pieces in order. */
  function CleanItems(pieces: seq<string>): (items: seq<string>)
    ensures |items| <= |pieces|
    ensures forall i :: 0 <= i < |items| ==> IsCleanItem(items[i])
    ensures |pieces| == 1 ==> items == if CleanItem(pieces[0]) == [] then [] else [CleanItem(pieces[0])]
  {
    if pieces == [] then []
    else
      var item := CleanItem(pieces[0]);
      var rest := CleanItems(pieces[1..]);
      if item == [] then rest
      else
        ConsCleanItems(item, rest);
        [item] + rest
  }

  /** Cleaning works piece by piece: the items of a concatenation are those of each part. */
  lemma {:induction false} CleanItemsAppend(a: seq<string>, b: seq<string>)
    ensures CleanItems(a + b) == CleanItems(a) + CleanItems(b)
    decreases |a|
  {
    if a == [] {
      assert a + b == b;
    } else {
      var item := CleanItem(a[0]);
      assert (a + b)[0] == a[0] && (a + b)[1..] == a[1..] + b;
      CleanItemsAppend(a[1..], b);
      if item != [] {
        ItemAssociates(item, CleanItems(a[1..]), CleanItems(b));
      }
    }
  }

  lemma ItemAssociates(x: string, p: seq<string>, q: seq<string>)
    ensures [x] + (p + q) == ([x] + p) + q
  {
  }

  /** A clean item in front of clean items gives clean items. */
  lemma ConsCleanItems(item: string, rest: seq<string>)
    requires IsCleanItem(item)
    requires forall i :: 0 <= i < |rest| ==> IsCleanItem(rest[i])
    ensures forall i :: 0 <= i < |[item] + rest| ==> IsCleanItem(([item] + rest)[i])
  {
    var items := [item] + rest;
    forall i | 0 <= i < |items| ensures IsCleanItem(items[i]) {
      if i > 0 {
        assert items[i] == rest[i - 1];
      }
    }
  }

  /** One piece with a leading "- " removed and then trimmed. */
  function CleanItem(piece: string): (item: string)
    ensures item != [] ==> IsCleanItem(item)
    ensures StartsWith(piece, "- ") ==> item == Trim(piece[2..])
    ensures !StartsWith(piece, "- ") ==> item == Trim(piece)
  {
    TrimIdempotent(StripDash(piece));
    Trim(StripDash(piece))
  }

  /** `paragraph.split(/\n- /)` cleaned into bullet items: non-empty and trimmed, and the cleaned
      pieces of the cut of the paragraph at every "\n- ". */
  function BulletItems(paragraph: string): (items: seq<string>)
    ensures forall i :: 0 <= i < |items| ==> IsCleanItem(items[i])
    ensures exists pieces :: && Join(pieces, "\n- ") == paragraph
                           && (forall k :: 0 <= k < |pieces| ==> !Contains(pieces[k], "\n- "))
                           && items == CleanItems(pieces)
  {
    BulletPieces(paragraph);
    CleanItems(Split(paragraph, "\n- "))
  }

  lemma BulletPieces(paragraph: string)
    ensures var pieces := Split(paragraph, "\n- ");
      && Join(pieces, "\n- ") == paragraph
      && (forall k :: 0 <= k < |pieces| ==> !Contains(pieces[k], "\n- "))
  {
    JoinSplit(paragraph, "\n- ");
  }
}

=== FILE: notion.dfy ===
/** lib/notion.js: the category taxonomy, the statistics tally, the page property maps, the
    attachment and business-plan blocks with their chunked appends, and the rate-limit retry. The
    SDK calls are recorded as `SdkCall` values; what each call settles to is a parameter. */
module Notion {
  import opened Wrappers
  import opened Text
  import opened Markdown

  // ---------------------------------------------------------------------------------------------
  // Blocks, properties and SDK calls
  // ---------------------------------------------------------------------------------------------

  /** The page-body blocks the client builds. */
  datatype Block =
    | Heading2(text: string)
    | Paragraph(text: string)
    | BulletedItem(text: string)
    | FileBlock(url: Option<string>, caption: string)
    | ImageBlock(url: Option<string>, caption: string)

  /** Values of page properties. */
  datatype PropValue =
    | TitleValue(content: string)
    | RichTextValue(content: string)
    | SelectValue(name: string)
    | NumberValue(number: real)
    | DateValue(start: string)

  type Properties = map<string, PropValue>

  /** A select option of the 'Category' property. Options read back carry an id; a new one does
      not. */
  datatype CategoryOption = CategoryOption(name: string, id: Option<string>, color: string)

  /** The 'Category' property of the database: a select with its options, or of another type. */
  datatype CategoryProperty = SelectProperty(options: seq<CategoryOption>) | OtherProperty

  /** The retrieved database, as far as the client reads it. */
  datatype Database = Database(category: Option<CategoryProperty>)

  /** A created page, as far as the callers read it. */
  datatype PageRef = PageRef(id: string)

  /** A queried page: the names of its 'Category' and 'Status' selects, when set. */
  datatype Page = Page(category: Option<string>, status: Option<string>)

  /** One call into the Notion SDK. */
  datatype SdkCall =
    | RetrieveDatabase
    | UpdateCategoryOptions(options: seq<CategoryOption>)
    | QueryDatabase
    | CreatePage(properties: Properties)
    | UpdatePage(pageId: string, properties: Properties)
    | AppendChildren(blockId: string, children: seq<Block>)

  // ---------------------------------------------------------------------------------------------
  // Categories
  // ---------------------------------------------------------------------------------------------

  /** `getCategories`: the select options of 'Category', or [] when the property is missing or is
      not a select; a failed retrieve is rethrown. */
  function GetCategories(retrieved: Outcome<Database>): (r: Outcome<seq<CategoryOption>>)
    ensures retrieved.Err? <==> r.Err?
    ensures r.Err? ==> r.error == retrieved.error
    ensures r.Ok? && r.value != [] ==> retrieved.value.category == Some(SelectProperty(r.value))
    ensures retrieved.Ok? && retrieved.value.category.Some? && retrieved.value.category.value.SelectProperty? ==>
              r == Ok(retrieved.value.category.value.options)
    ensures retrieved.Ok? && !(retrieved.value.category.Some? && retrieved.value.category.value.SelectProperty?) ==>
              r == Ok([])
  {
    if retrieved.Err? then Err(retrieved.error)
    else match retrieved.value.category
      case Some(SelectProperty(options)) => Ok(options)
      case _ => Ok([])
  }

  const Palette: seq<string> := ["default", "gray", "brown", "orange", "yellow", "green", "blue", "purple", "pink", "red"]

  /** `getRandomColor`: some colour of the palette. */
  method GetRandomColor() returns (color: string)
    ensures color in Palette
  {
    var i :| 0 <= i < |Palette|;
    color := Palette[i];
  }

  /** Some existing option has the name, compared case-insensitively. */
  predicate NameTaken(options: seq<CategoryOption>, name: string)
  {
    exists i :: 0 <= i < |options| && ToLower(options[i].name) == ToLower(name)
  }

  /** The option list `addCategory` writes: the existing options in order, then the new one. */
  function WithNewCategory(existing: seq<CategoryOption>, name: string, color: string): (r: seq<CategoryOption>)
    ensures |r| == |existing| + 1
    ensures r[..|existing|] == existing
    ensures r[|existing|] == CategoryOption(name, None, color)
  {
    existing + [CategoryOption(name, None, color)]
  }

  /** After a name is added, that name in any letter case is taken, so a repeated `addCategory`
      adds nothing; names taken before stay taken. */
  lemma AddCategoryIdempotent(existing: seq<CategoryOption>, name: string, color: string, again: string)
    ensures ToLower(again) == ToLower(name) ==> NameTaken(WithNewCategory(existing, name, color), again)
    ensures NameTaken(existing, again) ==> NameTaken(WithNewCategory(existing, name, color), again)
  {
    var r := WithNewCategory(existing, name, color);
    if ToLower(again) == ToLower(name) {
      assert ToLower(r[|existing|].name) == ToLower(again);
    }
    if NameTaken(existing, again) {
      var i :| 0 <= i < |existing| && ToLower(existing[i].name) == ToLower(again);
      assert r[i] == existing[i];
    }
  }

  /** The options `addCategory` reads: `categoryProperty.select.options`, which throws unless
      'Category' is a select. */
  function SelectOptions(db: Database): Option<seq<CategoryOption>>
  {
    match db.category
    case Some(SelectProperty(options)) => Some(options)
    case _ => None
  }

  datatype AddCategoryResult = AddCategoryResult(success: bool, message: string)

  const CategoryExists := "Category already exists"
  const CategoryAdded := "Category added successfully"

  /** `addCategory(name)`: `retrieved` and `updated` are what the two SDK calls settle to. */
  method AddCategory(name: string, retrieved: Outcome<Database>, updated: Outcome<()>)
    returns (calls: seq<SdkCall>, r: Outcome<AddCategoryResult>)
    ensures |calls| >= 1 && calls[0] == RetrieveDatabase
    ensures retrieved.Err? ==> calls == [RetrieveDatabase] && r == Err(retrieved.error)
    ensures retrieved.Ok? && SelectOptions(retrieved.value).None? ==> calls == [RetrieveDatabase] && r.Err?
    ensures retrieved.Ok? && SelectOptions(retrieved.value).Some? && NameTaken(SelectOptions(retrieved.value).value, name) ==>
              calls == [RetrieveDatabase] && r == Ok(AddCategoryResult(true, CategoryExists))
    ensures retrieved.Ok? && SelectOptions(retrieved.value).Some? && !NameTaken(SelectOptions(retrieved.value).value, name) ==>
              && |calls| == 2
              && calls[1].UpdateCategoryOptions?
              && (exists color :: color in Palette &&
                    calls[1].options == WithNewCategory(SelectOptions(retrieved.value).value, name, color))
              && r == (if updated.Ok? then Ok(AddCategoryResult(true, CategoryAdded)) else Err(updated.error))
  {
    calls := [RetrieveDatabase];
    if retrieved.Err? {
      return calls, Err(retrieved.error);
    }
    var existing := SelectOptions(retrieved.value);
    if existing.None? {
      return calls, Err(Fail("Cannot read properties of undefined (reading 'options')"));
    }
    var exists_ := NameTaken(existing.value, name);
    if exists_ {
      return calls, Ok(AddCategoryResult(true, CategoryExists));
    }
    var color := GetRandomColor();
    var newOptions := WithNewCategory(existing.value, name, color);
    calls := calls + [UpdateCategoryOptions(newOptions)];
    if updated.Err? {
      return calls, Err(updated.error);
    }
    r := Ok(AddCategoryResult(true, CategoryAdded));
  }

  // ---------------------------------------------------------------------------------------------
  // Statistics
  // ---------------------------------------------------------------------------------------------

  /** One key of a counting object and its count. */
  datatype Entry = Entry(key: string, count: nat)

  /** A counting object: its entries in insertion order. */
  type Tally = seq<Entry>

  /** `stats[key] || 0`. */
  function Lookup(t: Tally, key: string): nat
  {
    if t == [] then 0 else if t[0].key == key then t[0].count else Lookup(t[1..], key)
  }

  predicate HasKey(t: Tally, key: string)
  {
    exists i :: 0 <= i < |t| && t[i].key == key
  }

  predicate DistinctKeys(t: Tally)
  {
    forall i, j :: 0 <= i < j < |t| ==> t[i].key != t[j].key
  }

  /** Sum of the counts. */
  function Total(t: Tally): nat
  {
    if t == [] then 0 else t[0].count + Total(t[1..])
  }

  lemma {:induction false} LookupAbsent(t: Tally, key: string)
    requires !HasKey(t, key)
    ensures Lookup(t, key) == 0
  {
    if t != [] {
      assert !HasKey(t[1..], key) by {
        forall i | 0 <= i < |t[1..]| ensures t[1..][i].key != key {
          assert t[1..][i] == t[i + 1];
        }
      }
      LookupAbsent(t[1..], key);
    }
  }

  lemma {:induction false} TotalAppend(a: Tally, b: Tally)
    ensures Total(a + b) == Total(a) + Total(b)
  {
    if a != [] {
      assert (a + b)[1..] == a[1..] + b;
      TotalAppend(a[1..], b);
    } else {
      assert a + b == b;
    }
  }

  /** `stats[key] = (stats[key] || 0) + 1`: the entry is incremented in place, or appended with
      count 1 when the key is new. */
  function Bump(t: Tally, key: string): (r: Tally)
    ensures |r| == |t| || |r| == |t| + 1
    ensures |r| == |t| + 1 ==> r[|t|] == Entry(key, 1)
    ensures forall i :: 0 <= i < |t| ==> r[i].key == t[i].key
  {
    if t == [] then [Entry(key, 1)]
    else if t[0].key == key then [Entry(key, t[0].count + 1)] + t[1..]
    else [t[0]] + Bump(t[1..], key)
  }

  /** Bumping a key adds one to its count, changes no other count, keeps keys distinct and adds
      one to the total. */
  lemma {:induction false} BumpCounts(t: Tally, key: string)
    requires DistinctKeys(t)
    ensures DistinctKeys(Bump(t, key))
    ensures Lookup(Bump(t, key), key) == Lookup(t, key) + 1
    ensures forall k :: k != key ==> Lookup(Bump(t, key), k) == Lookup(t, k)
    ensures Total(Bump(t, key)) == Total(t) + 1
  {
    if t != [] && t[0].key != key {
      assert DistinctKeys(t[1..]) by {
        forall i, j | 0 <= i < j < |t[1..]| ensures t[1..][i].key != t[1..][j].key {
          assert t[1..][i] == t[i + 1] && t[1..][j] == t[j + 1];
        }
      }
      BumpCounts(t[1..], key);
      var r := Bump(t, key);
      assert r == [t[0]] + Bump(t[1..], key);
      assert r[1..] == Bump(t[1..], key);
      forall i | 0 < i < |r| ensures r[i].key != t[0].key {
        if i - 1 < |t[1..]| {
          assert r[i].key == t[1..][i - 1].key == t[i].key;
        } else {
          assert r[i].key == key;
        }
      }
    } else if t != [] {
      var r := Bump(t, key);
      assert r[1..] == t[1..];
      forall i | 0 < i < |r| ensures r[i].key != r[0].key {
        assert r[i] == t[i];
      }
    }
  }

  /** The counting object the `forEach` builds from a sequence of keys. */
  function TallyOf(keys: seq<string>): Tally
  {
    if keys == [] then [] else Bump(TallyOf(keys[..|keys| - 1]), keys[|keys| - 1])
  }

  /** A tally of keys counts every key as often as it occurs, has each key once, and its counts
      sum to the number of keys. */
  lemma {:induction false} TallyOfCounts(keys: seq<string>)
    ensures DistinctKeys(TallyOf(keys))
    ensures forall k :: Lookup(TallyOf(keys), k) == multiset(keys)[k]
    ensures Total(TallyOf(keys)) == |keys|
    decreases |keys|
  {
    if keys != [] {
      var init := keys[..|keys| - 1];
      var last := keys[|keys| - 1];
      TallyOfCounts(init);
      var t := TallyOf(init);
      BumpCounts(t, last);
      assert TallyOf(keys) == Bump(t, last);
      assert keys == init + [last];
      var m := multiset(keys);
      assert m == multiset(init) + multiset{last};
      forall k ensures Lookup(TallyOf(keys), k) == m[k] {
        if k == last {
          assert m[k] == multiset(init)[k] + 1;
        } else {
          assert m[k] == multiset(init)[k];
        }
      }
    }
  }

  function CategoryKey(p: Page): string
  {
    Or(p.category, "Uncategorized")
  }

  function StatusKey(p: Page): string
  {
    Or(p.status, "Unknown")
  }

  function CategoryKeys(pages: seq<Page>): (keys: seq<string>)
    ensures |keys| == |pages| && forall i :: 0 <= i < |pages| ==> keys[i] == CategoryKey(pages[i])
  {
    seq(|pages|, i requires 0 <= i < |pages| => CategoryKey(pages[i]))
  }

  function StatusKeys(pages: seq<Page>): (keys: seq<string>)
    ensures |keys| == |pages| && forall i :: 0 <= i < |pages| ==> keys[i] == StatusKey(pages[i])
  {
    seq(|pages|, i requires 0 <= i < |pages| => StatusKey(pages[i]))
  }

  datatype IdeaStats = IdeaStats(totalIdeas: nat, categoryStats: Tally, statusStats: Tally, lastUpdated: string)

  /** `getIdeaStats()`: `queried` is what the database query settles to. Counts by category
      ('Uncategorized' when unset) and by status ('Unknown' when unset). */
  method GetIdeaStats(queried: Outcome<seq<Page>>, now: string) returns (r: Outcome<IdeaStats>)
    ensures queried.Err? ==> r == Err(queried.error)
    ensures queried.Ok? ==> r.Ok? && r.value.totalIdeas == |queried.value| && r.value.lastUpdated == now
    ensures queried.Ok? ==> r.value.categoryStats == TallyOf(CategoryKeys(queried.value))
    ensures queried.Ok? ==> r.value.statusStats == TallyOf(StatusKeys(queried.value))
    ensures queried.Ok? ==> Total(r.value.categoryStats) == r.value.totalIdeas == Total(r.value.statusStats)
  {
    if queried.Err? {
      return Err(queried.error);
    }
    var pages := queried.value;
    var categoryStats: Tally := [];
    var statusStats: Tally := [];
    for i := 0 to |pages|
      invariant categoryStats == TallyOf(CategoryKeys(pages[..i]))
      invariant statusStats == TallyOf(StatusKeys(pages[..i]))
    {
      assert CategoryKeys(pages[..i + 1])[..i] == CategoryKeys(pages[..i]);
      assert StatusKeys(pages[..i + 1])[..i] == StatusKeys(pages[..i]);
      categoryStats := Bump(categoryStats, CategoryKey(pages[i]));
      statusStats := Bump(statusStats, StatusKey(pages[i]));
    }
    assert pages[..|pages|] == pages;
    TallyOfCounts(CategoryKeys(pages));
    TallyOfCounts(StatusKeys(pages));
    r := Ok(IdeaStats(|pages|, categoryStats, statusStats, now));
  }

  // ---------------------------------------------------------------------------------------------
  // Page properties
  // ---------------------------------------------------------------------------------------------

  /** The fields `updateIdeaEntry` reads. `confidence` is None when undefined. */
  datatype IdeaUpdates = IdeaUpdates(
    title: Option<string>,
    rawText: Option<string>,
    category: Option<string>,
    confidence: Option<real>,
    status: Option<string>,
    businessPlanContent: Option<string>)

  /** `props` is the property map `updateIdeaEntry` sends for `u`: title, raw text, category and
      status only when truthy, confidence whenever defined, and nothing else. */
  predicate UpdatePropertiesFor(u: IdeaUpdates, props: Properties)
  {
    && ("Idea title" in props <==> Truthy(u.title))
    && ("Raw text" in props <==> Truthy(u.rawText))
    && ("Category" in props <==> Truthy(u.category))
    && ("Confidence" in props <==> u.confidence.Some?)
    && ("Status" in props <==> Truthy(u.status))
    && ("Idea title" in props ==> props["Idea title"] == TitleValue(u.title.value))
    && ("Raw text" in props ==> props["Raw text"] == RichTextValue(u.rawText.value))
    && ("Category" in props ==> props["Category"] == SelectValue(u.category.value))
    && ("Confidence" in props ==> props["Confidence"] == NumberValue(u.confidence.value))
    && ("Status" in props ==> props["Status"] == SelectValue(u.status.value))
    && props.Keys <= {"Idea title", "Raw text", "Category", "Confidence", "Status"}
  }

  /** The description determines the map: there is exactly one property map for given updates. */
  lemma UpdatePropertiesUnique(u: IdeaUpdates, p: Properties, q: Properties)
    requires UpdatePropertiesFor(u, p) && UpdatePropertiesFor(u, q)
    ensures p == q
  {
    assert p.Keys == q.Keys;
  }

  /** `updateIdeaEntry`'s property map, filled key by key. */
  method UpdateProperties(u: IdeaUpdates) returns (props: Properties)
    ensures UpdatePropertiesFor(u, props)
  {
    props := map[];
    if Truthy(u.title) {
      props := props["Idea title" := TitleValue(u.title.value)];
    }
    if Truthy(u.rawText) {
      props := props["Raw text" := RichTextValue(u.rawText.value)];
    }
    if Truthy(u.category) {
      props := props["Category" := SelectValue(u.category.value)];
    }
    if u.confidence.Some? {
      props := props["Confidence" := NumberValue(u.confidence.value)];
    }
    if Truthy(u.status) {
      props := props["Status" := SelectValue(u.status.value)];
    }
  }

  /** `updateIdeaEntry(pageId, updates)`: `updated` is what `pages.update` settles to. The body
      content is appended only after a successful update and only when truthy; its failures never
      surface. */
  method UpdateIdeaEntry(pageId: string, u: IdeaUpdates, updated: Outcome<()>)
    returns (calls: seq<SdkCall>, r: Outcome<()>)
    ensures |calls| >= 1 && calls[0].UpdatePage? && calls[0].pageId == pageId
    ensures UpdatePropertiesFor(u, calls[0].properties)
    ensures updated.Err? ==> calls == calls[..1] && r == Err(updated.error)
    ensures updated.Ok? ==> r == Ok(())
    ensures updated.Ok? && Truthy(u.businessPlanContent) ==>
              calls[1..] == PlanAppendCalls(pageId, u.businessPlanContent.value)
    ensures !(updated.Ok? && Truthy(u.businessPlanContent)) ==> |calls| == 1
  {
    var properties := UpdateProperties(u);
    calls := [UpdatePage(pageId, properties)];
    if updated.Err? {
      return calls, Err(updated.error);
    }
    if Truthy(u.businessPlanContent) {
      var more := AddBusinessPlanContent(pageId, u.businessPlanContent.value);
      calls := calls + more;
    }
    r := Ok(());
  }

  /** What `createIdeaEntry` reads from its argument; `status` is None when undefined. */
  datatype NewIdea = NewIdea(title: Option<string>, rawText: Option<string>, attachments: seq<Attachment>, status: Option<string>)

  /** The properties of a new page: title ('New Idea' when falsy), raw text ('' when falsy),
      status ('Captured' when undefined) and the creation time. */
  function CreateProperties(data: NewIdea, now: string): (props: Properties)
    ensures props.Keys == {"Idea title", "Raw text", "Status", "Created"}
    ensures props["Idea title"] == TitleValue(Or(data.title, "New Idea"))
    ensures props["Raw text"] == RichTextValue(Or(data.rawText, ""))
    ensures props["Status"] == SelectValue(if data.status.Some? then data.status.value else "Captured")
  {
    map["Idea title" := TitleValue(Or(data.title, "New Idea")),
        "Raw text" := RichTextValue(Or(data.rawText, "")),
        "Status" := SelectValue(if data.status.Some? then data.status.value else "Captured"),
        "Created" := DateValue(now)]
  }

  /** `createIdeaEntry(data)`: `created` and `appended` are what `pages.create` and the attachment
      append settle to. A failed attachment append is rethrown although the page exists. */
  method CreateIdeaEntry(data: NewIdea, now: string, created: Outcome<PageRef>, appended: Outcome<()>)
    returns (calls: seq<SdkCall>, r: Outcome<PageRef>)
    ensures |calls| >= 1 && calls[0] == CreatePage(CreateProperties(data, now))
    ensures created.Err? ==> calls == calls[..1] && r == Err(created.error)
    ensures created.Ok? && (data.attachments == [] || AttachmentBlocks(data.attachments) == []) ==>
              calls == calls[..1] && r == created
    ensures created.Ok? && data.attachments != [] && AttachmentBlocks(data.attachments) != [] ==>
              && calls[1..] == [AppendChildren(created.value.id, AttachmentBlocks(data.attachments))]
              && r == (if appended.Ok? then created else Err(appended.error))
  {
    calls := [CreatePage(CreateProperties(data, now))];
    if created.Err? {
      return calls, Err(created.error);
    }
    if |data.attachments| > 0 {
      var more, attached := UpdateIdeaAttachments(created.value.id, data.attachments, appended);
      calls := calls + more;
      if attached.Err? {
        return calls, Err(attached.error);
      }
    }
    r := created;
  }

  // ---------------------------------------------------------------------------------------------
  // Attachments
  // ---------------------------------------------------------------------------------------------

  /** An attachment as the handlers build it: its type ('file', 'image', 'audio', 'document',
      'url', ...), URL, name and size in bytes. */
  datatype Attachment = Attachment(kind: string, url: Option<string>, name: Option<string>, size: Option<int>)

  predicate HasBlock(a: Attachment)
  {
    a.kind == "file" || a.kind == "image"
  }

  /** The block of an attachment of type 'file' or 'image'. */
  function BlockOf(a: Attachment): Block
    requires HasBlock(a)
  {
    if a.kind == "file" then FileBlock(a.url, Or(a.name, "Attachment"))
    else ImageBlock(a.url, Or(a.name, "Image"))
  }

  /** `attachments.map(...).filter(Boolean)`: one block per 'file' or 'image' attachment. */
  function AttachmentBlocks(attachments: seq<Attachment>): (blocks: seq<Block>)
    ensures |blocks| <= |attachments|
  {
    if attachments == [] then []
    else (if HasBlock(attachments[0]) then [BlockOf(attachments[0])] else []) + AttachmentBlocks(attachments[1..])
  }

  /** The blocks of consecutive attachment lists are consecutive: input order is kept. */
  lemma {:induction false} AttachmentBlocksAppend(a: seq<Attachment>, b: seq<Attachment>)
    ensures AttachmentBlocks(a + b) == AttachmentBlocks(a) + AttachmentBlocks(b)
  {
    if a != [] {
      assert (a + b)[1..] == a[1..] + b;
      AttachmentBlocksAppend(a[1..], b);
    } else {
      assert a + b == b;
    }
  }

  /** Attachments of other types give no block, and 'file'/'image' attachments one block each. */
  lemma {:induction false} AttachmentBlocksFilter(attachments: seq<Attachment>)
    ensures (forall i :: 0 <= i < |attachments| ==> !HasBlock(attachments[i])) ==> AttachmentBlocks(attachments) == []
    ensures (forall i :: 0 <= i < |attachments| ==> HasBlock(attachments[i])) ==>
              |AttachmentBlocks(attachments)| == |attachments| &&
              forall i :: 0 <= i < |attachments| ==> AttachmentBlocks(attachments)[i] == BlockOf(attachments[i])
  {
    if attachments != [] {
      AttachmentBlocksFilter(attachments[1..]);
    }
  }

  /** `updateIdeaAttachments(pageId, attachments)`: appends the blocks when there are any. */
  method UpdateIdeaAttachments(pageId: string, attachments: seq<Attachment>, appended: Outcome<()>)
    returns (calls: seq<SdkCall>, r: Outcome<()>)
    ensures AttachmentBlocks(attachments) == [] ==> calls == [] && r == Ok(())
    ensures AttachmentBlocks(attachments) != [] ==>
              calls == [AppendChildren(pageId, AttachmentBlocks(attachments))] && r == appended
  {
    var children := AttachmentBlocks(attachments);
    if |children| > 0 {
      return [AppendChildren(pageId, children)], appended;
    }
    return [], Ok(());
  }

  // ---------------------------------------------------------------------------------------------
  // Business plan content
  // ---------------------------------------------------------------------------------------------

  /** The blocks of one paragraph: bullet items when it contains "- ", otherwise the trimmed
      paragraph; nothing for a blank one. */
  function ParagraphBlocks(paragraph: string): seq<Block>
  {
    if Trim(paragraph) == "" then []
    else if Contains(paragraph, "- ") then Bullets(BulletItems(paragraph))
    else [Paragraph(Trim(paragraph))]
  }

  function Bullets(items: seq<string>): (blocks: seq<Block>)
    ensures |blocks| == |items| && forall i :: 0 <= i < |items| ==> blocks[i] == BulletedItem(items[i])
  {
    if items == [] then [] else [BulletedItem(items[0])] + Bullets(items[1..])
  }

  /** The blocks of paragraphs, in order. */
  function ParagraphsBlocks(paragraphs: seq<string>): seq<Block>
  {
    if paragraphs == [] then []
    else ParagraphsBlocks(paragraphs[..|paragraphs| - 1]) + ParagraphBlocks(paragraphs[|paragraphs| - 1])
  }

  /** The header text of a section's first line "## ...": what follows "## ", trimmed. */
  function HeaderText(headerLine: string): string
    requires StartsWith(headerLine, "## ")
  {
    Trim(headerLine[3..])
  }

  /** The lines after the first, re-joined and trimmed. */
  function SectionBody(lines: seq<string>): string
    requires |lines| >= 1
  {
    Trim(Join(lines[1..], "\n"))
  }

  /** The blocks of one section: nothing unless its trimmed text starts with "## "; otherwise a
      heading for a non-empty header text, then the blocks of the body's paragraphs. */
  function SectionBlocks(section: string): seq<Block>
  {
    if Trim(section) == "" then [] else HeadedBlocks(Split(Trim(section), "\n"))
  }

  /** The blocks of a non-blank section given its lines. */
  function HeadedBlocks(lines: seq<string>): seq<Block>
    requires |lines| >= 1
  {
    if !StartsWith(lines[0], "## ") then []
    else
      var header := HeaderText(lines[0]);
      var body := SectionBody(lines);
      (if header != "" then [Heading2(header)] else [])
        + (if body != "" then ParagraphsBlocks(SplitParagraphs(body)) else [])
  }

  /** The blocks of sections, in order. */
  function SectionsBlocks(sections: seq<string>): seq<Block>
  {
    if sections == [] then []
    else SectionsBlocks(sections[..|sections| - 1]) + SectionBlocks(sections[|sections| - 1])
  }

  /** Every block `addBusinessPlanContent` builds from the content. */
  function PlanBlocks(content: string): seq<Block>
  {
    SectionsBlocks(SplitSections(content))
  }

  /** A text without any "## " line start produces no block at all. */
  lemma {:induction false} PlanBlocksNeedHeaders(sections: seq<string>)
    requires forall i :: 0 <= i < |sections| ==>
               Trim(sections[i]) == "" || !StartsWith(Split(Trim(sections[i]), "\n")[0], "## ")
    ensures SectionsBlocks(sections) == []
    decreases |sections|
  {
    if sections != [] {
      PlanBlocksNeedHeaders(sections[..|sections| - 1]);
    }
  }

  /** The conversion in `addBusinessPlanContent`: the blocks of every section, in order. */
  method ConvertBusinessPlan(content: string) returns (blocks: seq<Block>)
    ensures blocks == PlanBlocks(content)
  {
    blocks := ConvertSections(SplitSections(content));
  }

  /** The section loop. */
  method ConvertSections(sections: seq<string>) returns (blocks: seq<Block>)
    ensures blocks == SectionsBlocks(sections)
  {
    blocks := [];
    for si := 0 to |sections|
      invariant blocks == SectionsBlocks(sections[..si])
    {
      var prefix := sections[..si + 1];
      assert prefix[..si] == sections[..si] && prefix[si] == sections[si];
      var more := ConvertSection(sections[si]);
      blocks := blocks + more;
    }
    assert sections[..|sections|] == sections;
  }

  /** The body of the section loop: skip a blank section or one without a "## " header line,
      push the heading, then the blocks of each paragraph of the body. */
  method ConvertSection(section: string) returns (blocks: seq<Block>)
    ensures blocks == SectionBlocks(section)
  {
    blocks := [];
    var trimmed := Trim(section);
    if trimmed == "" {
      return;
    }
    var lines := Split(trimmed, "\n");
    assert SectionBlocks(section) == HeadedBlocks(lines);
    var headerLine := lines[0];
    if !StartsWith(headerLine, "## ") {
      return;
    }
    var headerText := HeaderText(headerLine);
    if headerText != "" {
      blocks := [Heading2(headerText)];
    }
    var contentLines := SectionBody(lines);
    var more := [];
    if contentLines != "" {
      more := ConvertParagraphs(SplitParagraphs(contentLines));
    }
    blocks := blocks + more;
  }

  /** The paragraph loop of a section. */
  method ConvertParagraphs(paragraphs: seq<string>) returns (blocks: seq<Block>)
    ensures blocks == ParagraphsBlocks(paragraphs)
  {
    blocks := [];
    for pi := 0 to |paragraphs|
      invariant blocks == ParagraphsBlocks(paragraphs[..pi])
    {
      var prefix := paragraphs[..pi + 1];
      assert prefix[..pi] == paragraphs[..pi] && prefix[pi] == paragraphs[pi];
      var more := ConvertParagraph(paragraphs[pi]);
      blocks := blocks + more;
    }
    assert paragraphs[..|paragraphs|] == paragraphs;
  }

  /** The body of the paragraph loop: skip a blank paragraph, push one bullet per item when it
      contains "- ", otherwise the trimmed paragraph. */
  method ConvertParagraph(paragraph: string) returns (blocks: seq<Block>)
    ensures blocks == ParagraphBlocks(paragraph)
  {
    blocks := [];
    if Trim(paragraph) == "" {
      return;
    }
    if Contains(paragraph, "- ") {
      blocks := PushBullets(BulletItems(paragraph));
    } else {
      var cleanParagraph := Trim(paragraph);
      if cleanParagraph != "" {
        blocks := blocks + [Paragraph(cleanParagraph)];
      }
    }
  }

  /** The innermost loop: one bulleted item per cleaned item. */
  method PushBullets(items: seq<string>) returns (blocks: seq<Block>)
    ensures blocks == Bullets(items)
  {
    blocks := [];
    for k := 0 to |items|
      invariant blocks == Bullets(items[..k])
    {
      BulletsAppend(items[..k], items[k]);
      assert items[..k + 1] == items[..k] + [items[k]];
      blocks := blocks + [BulletedItem(items[k])];
    }
    assert items[..|items|] == items;
  }

  lemma {:induction false} BulletsAppend(items: seq<string>, item: string)
    ensures Bullets(items + [item]) == Bullets(items) + [BulletedItem(item)]
  {
    var r := Bullets(items + [item]);
    assert |r| == |items| + 1;
    assert forall i :: 0 <= i < |items| ==> (items + [item])[i] == items[i];
  }

  const ChunkSize := 50

  /** `blocks.slice(i, i + 50)` for i = 0, 50, 100, ...: the chunks of at most fifty blocks. */
  function Chunks(blocks: seq<Block>): seq<seq<Block>>
    decreases |blocks|
  {
    if blocks == [] then []
    else if |blocks| <= ChunkSize then [blocks]
    else [blocks[..ChunkSize]] + Chunks(blocks[ChunkSize..])
  }

  /** The chunks hold the blocks in order; each holds one to fifty blocks and all but the last
      exactly fifty. */
  lemma {:induction false} ChunksShape(blocks: seq<Block>)
    ensures Flatten(Chunks(blocks)) == blocks
    ensures forall i :: 0 <= i < |Chunks(blocks)| ==> 1 <= |Chunks(blocks)[i]| <= ChunkSize
    ensures forall i :: 0 <= i < |Chunks(blocks)| - 1 ==> |Chunks(blocks)[i]| == ChunkSize
    decreases |blocks|
  {
    if |blocks| > ChunkSize {
      var rest := blocks[ChunkSize..];
      ChunksShape(rest);
      var c := Chunks(blocks);
      assert c == [blocks[..ChunkSize]] + Chunks(rest);
      assert c[1..] == Chunks(rest);
      assert blocks == blocks[..ChunkSize] + rest;
      forall i | 1 <= i < |c| ensures c[i] == Chunks(rest)[i - 1] {
      }
    } else if blocks != [] {
      assert Flatten([blocks]) == blocks + Flatten([]);
    }
  }

  function Flatten(chunks: seq<seq<Block>>): seq<Block>
  {
    if chunks == [] then [] else chunks[0] + Flatten(chunks[1..])
  }

  function Min(a: int, b: int): int
  {
    if a < b then a else b
  }

  /** The first chunk of a non-empty list is its first (up to) fifty blocks. */
  lemma ChunksFirst(s: seq<Block>)
    requires s != []
    ensures Chunks(s) == [s[..Min(ChunkSize, |s|)]] + Chunks(s[Min(ChunkSize, |s|)..])
  {
    if |s| <= ChunkSize {
      assert s[..|s|] == s;
      assert s[|s|..] == [];
    }
  }

  /** The index loop of `addBusinessPlanContent` that slices the blocks into chunks. */
  method ChunkBlocks(blocks: seq<Block>) returns (chunks: seq<seq<Block>>)
    ensures chunks == Chunks(blocks)
  {
    chunks := [];
    var i := 0;
    while i < |blocks|
      invariant chunks + Chunks(blocks[Min(i, |blocks|)..]) == Chunks(blocks)
      decreases |blocks| - i
    {
      var end := Min(i + ChunkSize, |blocks|);
      var rest := blocks[i..];
      ChunksFirst(rest);
      assert rest[..Min(ChunkSize, |rest|)] == blocks[i..end];
      assert rest[Min(ChunkSize, |rest|)..] == blocks[end..];
      chunks := chunks + [blocks[i..end]];
      i := i + ChunkSize;
      assert Min(i, |blocks|) == end;
    }
    assert blocks[Min(i, |blocks|)..] == [];
  }

  /** One append call per chunk. */
  function AppendCalls(pageId: string, chunks: seq<seq<Block>>): (calls: seq<SdkCall>)
    ensures |calls| == |chunks| && forall i :: 0 <= i < |chunks| ==> calls[i] == AppendChildren(pageId, chunks[i])
  {
    if chunks == [] then [] else [AppendChildren(pageId, chunks[0])] + AppendCalls(pageId, chunks[1..])
  }

  /** The calls `addBusinessPlanContent(pageId, content)` makes. */
  function PlanAppendCalls(pageId: string, content: string): seq<SdkCall>
  {
    if Trim(content) == "" then [] else AppendCalls(pageId, Chunks(PlanBlocks(content)))
  }

  /** `addBusinessPlanContent(pageId, content)`: nothing for blank content; otherwise the blocks
      appended fifty at a time. Failed appends are logged and skipped, so nothing is returned. */
  method AddBusinessPlanContent(pageId: string, content: string) returns (calls: seq<SdkCall>)
    ensures calls == PlanAppendCalls(pageId, content)
    ensures Trim(content) == "" ==> calls == []
  {
    if Trim(content) == "" {
      return [];
    }
    var blocks := ConvertBusinessPlan(content);
    if |blocks| == 0 {
      return [];
    }
    var chunks := ChunkBlocks(blocks);
    calls := AppendChunks(pageId, chunks);
  }

  /** The append loop: one `blocks.children.append` per chunk, in order. */
  method AppendChunks(pageId: string, chunks: seq<seq<Block>>) returns (calls: seq<SdkCall>)
    ensures calls == AppendCalls(pageId, chunks)
  {
    calls := [];
    for i := 0 to |chunks|
      invariant calls == AppendCalls(pageId, chunks[..i])
    {
      AppendCallsAppend(pageId, chunks[..i], chunks[i]);
      assert chunks[..i + 1] == chunks[..i] + [chunks[i]];
      calls := calls + [AppendChildren(pageId, chunks[i])];
    }
    assert chunks[..|chunks|] == chunks;
  }

  lemma {:induction false} AppendCallsAppend(pageId: string, chunks: seq<seq<Block>>, chunk: seq<Block>)
    ensures AppendCalls(pageId, chunks + [chunk]) == AppendCalls(pageId, chunks) + [AppendChildren(pageId, chunk)]
  {
    var r := AppendCalls(pageId, chunks + [chunk]);
    assert forall i :: 0 <= i < |chunks| ==> (chunks + [chunk])[i] == chunks[i];
  }

  /** The calls for a content append exactly its blocks, in order, to the page, at most fifty
      per call and none empty. */
  lemma PlanAppendCallsShape(pageId: string, content: string)
    requires Trim(content) != ""
    ensures forall i :: 0 <= i < |PlanAppendCalls(pageId, content)| ==>
              && PlanAppendCalls(pageId, content)[i].AppendChildren?
              && PlanAppendCalls(pageId, content)[i].blockId == pageId
              && 1 <= |PlanAppendCalls(pageId, content)[i].children| <= ChunkSize
    ensures Flatten(Children(PlanAppendCalls(pageId, content))) == PlanBlocks(content)
  {
    var chunks := Chunks(PlanBlocks(content));
    ChunksShape(PlanBlocks(content));
    var calls := PlanAppendCalls(pageId, content);
    assert Children(calls) == chunks;
  }

  /** The blocks carried by append calls. */
  function Children(calls: seq<SdkCall>): (children: seq<seq<Block>>)
    ensures |children| == |calls|
    ensures forall i :: 0 <= i < |calls| && calls[i].AppendChildren? ==> children[i] == calls[i].children
  {
    if calls == [] then []
    else (if calls[0].AppendChildren? then [calls[0].children] else [[]]) + Children(calls[1..])
  }

  // ---------------------------------------------------------------------------------------------
  // retryWithBackoff
  // ---------------------------------------------------------------------------------------------

  /** `retryWithBackoff(operation, maxRetries)`: `op(i)` is what the i-th call settles to. Only
      'rate_limited' errors are retried, and only while attempts remain; any other error is
      rethrown at once. With `maxRetries <= 0` the loop never runs and the promise resolves to
      undefined (None). The delays are not modelled. */
  method RetryOnRateLimit<T>(op: nat -> Outcome<T>, maxRetries: int) returns (r: Option<Outcome<T>>, attempts: nat)
    ensures maxRetries <= 0 ==> r.None? && attempts == 0
    ensures maxRetries > 0 ==> 1 <= attempts <= maxRetries && r == Some(op(attempts - 1))
    ensures forall k :: 0 <= k < attempts - 1 ==> op(k).Err? && op(k).error.code == "rate_limited"
    ensures r.Some? && r.value.Err? && r.value.error.code == "rate_limited" ==> attempts == maxRetries
  {
    attempts := 0;
    var i := 0;
    while i < maxRetries
      invariant i == attempts
      invariant i == 0 || i < maxRetries
      invariant forall k :: 0 <= k < i ==> op(k).Err? && op(k).error.code == "rate_limited"
      decreases maxRetries - i
    {
      var outcome := op(i);
      attempts := i + 1;
      if outcome.Ok? {
        return Some(outcome), attempts;
      }
      if outcome.error.code == "rate_limited" && i < maxRetries - 1 {
        i := i + 1;
        continue;
      }
      return Some(outcome), attempts;
    }
    r := None;
  }
}

=== FILE: openai.dfy ===
/** lib/openai.js: the per-client cost ledger, the cost formulas, the three AI calls as far as
    they shape results and charge the ledger, and the sanitising of the enrichment JSON. */
module OpenAI {
  import opened Wrappers
  import opened Text
  import Notion

  // ---------------------------------------------------------------------------------------------
  // Cost formulas
  // ---------------------------------------------------------------------------------------------

  /** Bytes of audio counted as one minute by the estimate: 1024 * 1024 * 0.5. */
  const BytesPerMinute: real := 524288.0
  const WhisperPricePerMinute: real := 0.006
  const GptPricePerThousandTokens: real := 0.03

  /** `estimatedMinutes * 0.006` with `estimatedMinutes = bytes / (1024 * 1024 * 0.5)`. */
  function TranscriptionCost(bytes: nat): (cost: real)
    ensures cost >= 0.0
  {
    bytes as real / BytesPerMinute * WhisperPricePerMinute
  }

  /** `(tokens / 1000) * 0.03`. */
  function CompletionCost(tokens: nat): (cost: real)
    ensures cost >= 0.0
  {
    tokens as real / 1000.0 * GptPricePerThousandTokens
  }

  /** Both formulas are linear: the cost of two inputs is the sum of their costs, so it grows with
      the input; half a mebibyte of audio costs one minute's price and a thousand tokens cost
      0.03. */
  lemma CostsAreLinear(a: nat, b: nat)
    ensures TranscriptionCost(a + b) == TranscriptionCost(a) + TranscriptionCost(b)
    ensures CompletionCost(a + b) == CompletionCost(a) + CompletionCost(b)
    ensures a <= b ==> TranscriptionCost(a) <= TranscriptionCost(b) && CompletionCost(a) <= CompletionCost(b)
    ensures TranscriptionCost(524288) == WhisperPricePerMinute
    ensures CompletionCost(1000) == GptPricePerThousandTokens
  {
  }

  // ---------------------------------------------------------------------------------------------
  // Enrichment sanitising
  // ---------------------------------------------------------------------------------------------

  datatype Competitor = Competitor(name: Option<string>, oneLine: Option<string>)

  /** The category object of the parsed JSON. `confidence` is None when absent; a present 0 is
      kept as 0.0 and is falsy. */
  datatype RawCategory = RawCategory(name: Option<string>, confidence: Option<real>, reasoning: Option<string>)

  /** The parsed JSON object. An array-valued field is None when the value is not an array. */
  datatype RawAnalysis = RawAnalysis(
    summary: Option<string>,
    competitors: Option<seq<Competitor>>,
    marketSizeEstimate: Option<string>,
    cagrPctEstimate: Option<string>,
    likelyBizModels: Option<seq<string>>,
    nextStep: Option<string>,
    category: Option<RawCategory>)

  datatype CategoryVerdict = CategoryVerdict(name: string, confidence: real, reasoning: string)

  /** `enrichedIdea`. */
  datatype Enrichment = Enrichment(
    summary: string,
    competitors: seq<Competitor>,
    marketSizeEstimate: string,
    cagrPctEstimate: string,
    likelyBizModels: seq<string>,
    nextStep: string,
    category: CategoryVerdict,
    disclaimer: string,
    generatedAt: string)

  const MaxCompetitors := 5
  const Disclaimer := "Estimates - verify independently"
  const DefaultConfidence: real := 0.5

  /** `Math.min(Math.max(confidence || 0.5, 0), 1)`. */
  function ClampConfidence(confidence: Option<real>): (c: real)
    ensures 0.0 <= c <= 1.0
  {
    var v := if confidence.Some? && confidence.value != 0.0 then confidence.value else DefaultConfidence;
    if v < 0.0 then 0.0 else if v > 1.0 then 1.0 else v
  }

  /** Absent and zero confidences both become 0.5; others are clamped into [0, 1]. */
  lemma ClampConfidenceCases(confidence: Option<real>)
    ensures confidence.None? || confidence == Some(0.0) ==> ClampConfidence(confidence) == DefaultConfidence
    ensures confidence.Some? && 0.0 < confidence.value <= 1.0 ==> ClampConfidence(confidence) == confidence.value
    ensures confidence.Some? && confidence.value > 1.0 ==> ClampConfidence(confidence) == 1.0
    ensures confidence.Some? && confidence.value < 0.0 ==> ClampConfidence(confidence) == 0.0
  {
  }

  /** The sanitised enrichment (lib/openai.js:157-171): defaults for falsy strings, at most five
      competitors, [] for non-array lists, a clamped confidence and the fixed disclaimer. */
  function SanitizeEnrichment(a: RawAnalysis, now: string): (e: Enrichment)
    ensures e.summary == Or(a.summary, "AI analysis completed")
    ensures |e.competitors| <= MaxCompetitors
    ensures a.competitors.None? ==> e.competitors == []
    ensures a.competitors.Some? ==>
              e.competitors == a.competitors.value[..if |a.competitors.value| < MaxCompetitors then |a.competitors.value| else MaxCompetitors]
    ensures e.marketSizeEstimate == Or(a.marketSizeEstimate, "Market size analysis needed")
    ensures e.cagrPctEstimate == Or(a.cagrPctEstimate, "Growth rate analysis needed")
    ensures e.likelyBizModels == (if a.likelyBizModels.Some? then a.likelyBizModels.value else [])
    ensures e.nextStep == Or(a.nextStep, "Further research required")
    ensures e.category.name != ""
    ensures a.category.None? ==> e.category == CategoryVerdict("Business", DefaultConfidence, "Default categorization")
    ensures a.category.Some? ==> e.category.name == Or(a.category.value.name, "Business")
    ensures 0.0 <= e.category.confidence <= 1.0
    ensures a.category.Some? ==> && e.category.confidence == ClampConfidence(a.category.value.confidence)
                                 && e.category.reasoning == Or(a.category.value.reasoning, "Default categorization")
    ensures e.disclaimer == Disclaimer && e.generatedAt == now
  {
    var cat := a.category;
    Enrichment(
      Or(a.summary, "AI analysis completed"),
      if a.competitors.Some? then
        (if |a.competitors.value| <= MaxCompetitors then a.competitors.value else a.competitors.value[..MaxCompetitors])
      else [],
      Or(a.marketSizeEstimate, "Market size analysis needed"),
      Or(a.cagrPctEstimate, "Growth rate analysis needed"),
      if a.likelyBizModels.Some? then a.likelyBizModels.value else [],
      Or(a.nextStep, "Further research required"),
      CategoryVerdict(
        Or(if cat.Some? then cat.value.name else None, "Business"),
        ClampConfidence(if cat.Some? then cat.value.confidence else None),
        Or(if cat.Some? then cat.value.reasoning else None, "Default categorization")),
      Disclaimer,
      now)
  }

  /** Sanitising a sanitised enrichment again changes nothing, except that a confidence clamped
      to 0 is falsy the second time and becomes 0.5. */
  lemma SanitizeEnrichmentTwice(a: RawAnalysis, now: string)
    ensures var e := SanitizeEnrichment(a, now);
      e.category.confidence != 0.0 ==> SanitizeEnrichment(AsRaw(e), now) == e
    ensures var e := SanitizeEnrichment(a, now);
      e.category.confidence == 0.0 ==>
        SanitizeEnrichment(AsRaw(e), now) == e.(category := e.category.(confidence := DefaultConfidence))
  {
    var e := SanitizeEnrichment(a, now);
    ClampConfidenceCases(Some(e.category.confidence));
  }

  /** An enrichment read back as parsed JSON. */
  function AsRaw(e: Enrichment): RawAnalysis
  {
    RawAnalysis(Some(e.summary), Some(e.competitors), Some(e.marketSizeEstimate), Some(e.cagrPctEstimate),
                Some(e.likelyBizModels), Some(e.nextStep),
                Some(RawCategory(Some(e.category.name), Some(e.category.confidence), Some(e.category.reasoning))))
  }

  // ---------------------------------------------------------------------------------------------
  // The category list of the prompt
  // ---------------------------------------------------------------------------------------------

  const DefaultCategoryNames: seq<string> :=
    ["Business", "Research", "Personal", "Health", "Creative", "Technology", "Lifestyle", "Learning"]

  function Names(options: seq<Notion.CategoryOption>): (names: seq<string>)
    ensures |names| == |options|
    ensures forall i :: 0 <= i < |options| ==> names[i] == options[i].name
  {
    if options == [] then [] else [options[0].name] + Names(options[1..])
  }

  /** The prompt's category list: the existing names joined with ", ", or the eight defaults when
      there are none. */
  function CategoryList(existing: seq<Notion.CategoryOption>): (list: string)
    ensures existing == [] ==> list == Join(DefaultCategoryNames, ", ")
    ensures existing != [] ==> list == Join(Names(existing), ", ")
  {
    if |existing| > 0 then Join(Names(existing), ", ") else Join(DefaultCategoryNames, ", ")
  }

  // ---------------------------------------------------------------------------------------------
  // The client and its ledger
  // ---------------------------------------------------------------------------------------------

  /** What the chat-completions call returns, as far as the client reads it. */
  datatype Completion = Completion(content: string, totalTokens: nat)

  datatype Transcription = Transcription(text: string, cost: real)
  datatype Question = Question(question: string, cost: real, tokens: nat)
  datatype EnrichResult = EnrichResult(enrichedIdea: Enrichment, cost: real, tokens: nat)

  /** `getCostSummary()`: the ledger fields plus `last24h`. */
  datatype CostSummary = CostSummary(whisperCost: real, gptCost: real, totalCost: real, lastReset: string, last24h: real)

  /** `OpenAIClient` with its `costTracking` ledger. `now` parameters stand for the clock. */
  class OpenAIClient {
    var whisperCost: real
    var gptCost: real
    var totalCost: real
    var lastReset: string

    /** The ledger's invariant: the total is the sum of the two kinds of cost. */
    predicate Valid()
      reads this
    {
      totalCost == whisperCost + gptCost
    }

    constructor(now: string)
      ensures whisperCost == 0.0 && gptCost == 0.0 && totalCost == 0.0 && lastReset == now
      ensures Valid()
    {
      whisperCost := 0.0;
      gptCost := 0.0;
      totalCost := 0.0;
      lastReset := now;
    }

    /** `trackCost(type, cost)`: 'whisper' and 'gpt' charge their own field only, any other type
        charges nothing, and the total is recomputed in every case. */
    method TrackCost(kind: string, cost: real)
      modifies this
      ensures kind == "whisper" ==> whisperCost == old(whisperCost) + cost && gptCost == old(gptCost)
      ensures kind == "gpt" ==> gptCost == old(gptCost) + cost && whisperCost == old(whisperCost)
      ensures kind != "whisper" && kind != "gpt" ==> whisperCost == old(whisperCost) && gptCost == old(gptCost)
      ensures totalCost == whisperCost + gptCost
      ensures lastReset == old(lastReset)
    {
      if kind == "whisper" {
        whisperCost := whisperCost + cost;
      } else if kind == "gpt" {
        gptCost := gptCost + cost;
      }
      totalCost := whisperCost + gptCost;
    }

    /** `getCostSummary()`: a copy of the ledger whose `last24h` is the total. */
    function GetCostSummary(): (s: CostSummary)
      reads this
      ensures s.whisperCost == whisperCost && s.gptCost == gptCost && s.totalCost == totalCost
      ensures s.lastReset == lastReset
      ensures Valid() ==> s.last24h == s.whisperCost + s.gptCost
    {
      CostSummary(whisperCost, gptCost, totalCost, lastReset, totalCost)
    }

    /** `resetDailyCosts()`: the all-zero ledger with a fresh reset time. */
    method ResetDailyCosts(now: string)
      modifies this
      ensures whisperCost == 0.0 && gptCost == 0.0 && totalCost == 0.0 && lastReset == now
      ensures Valid()
    {
      whisperCost := 0.0;
      gptCost := 0.0;
      totalCost := 0.0;
      lastReset := now;
    }

    /** `transcribeAudio(audioBuffer)`: `transcribed` is what the Whisper call settles to. A
        success charges the whisper cost of the buffer's size; a failure charges nothing and is
        rethrown with the "Transcription failed: " prefix. */
    method TranscribeAudio(audioBytes: nat, transcribed: Outcome<string>) returns (r: Outcome<Transcription>)
      modifies this
      ensures transcribed.Ok? ==> r == Ok(Transcription(transcribed.value, TranscriptionCost(audioBytes)))
      ensures transcribed.Ok? ==> whisperCost == old(whisperCost) + TranscriptionCost(audioBytes)
      ensures transcribed.Err? ==> r == Err(Fail("Transcription failed: " + transcribed.error.message))
      ensures transcribed.Err? ==> whisperCost == old(whisperCost)
      ensures gptCost == old(gptCost) && lastReset == old(lastReset)
      ensures old(Valid()) ==> Valid()
    {
      if transcribed.Err? {
        return Err(Fail("Transcription failed: " + transcribed.error.message));
      }
      var cost := TranscriptionCost(audioBytes);
      TrackCost("whisper", cost);
      r := Ok(Transcription(transcribed.value, cost));
    }

    /** `generateClarifyingQuestion(ideaText)`: the trimmed reply, charged at the completion
        price of its tokens; a failure is rethrown with the "Question generation failed: "
        prefix. */
    method GenerateClarifyingQuestion(ideaText: string, completed: Outcome<Completion>) returns (r: Outcome<Question>)
      modifies this
      ensures completed.Ok? ==>
                r == Ok(Question(Trim(completed.value.content), CompletionCost(completed.value.totalTokens), completed.value.totalTokens))
      ensures completed.Ok? ==> gptCost == old(gptCost) + CompletionCost(completed.value.totalTokens)
      ensures completed.Err? ==> r == Err(Fail("Question generation failed: " + completed.error.message))
      ensures completed.Err? ==> gptCost == old(gptCost)
      ensures whisperCost == old(whisperCost) && lastReset == old(lastReset)
      ensures old(Valid()) ==> Valid()
    {
      if completed.Err? {
        return Err(Fail("Question generation failed: " + completed.error.message));
      }
      var question := Trim(completed.value.content);
      var tokens := completed.value.totalTokens;
      var cost := CompletionCost(tokens);
      TrackCost("gpt", cost);
      r := Ok(Question(question, cost, tokens));
    }

    /** `enrichIdea(ideaText, existingCategories)`: `parse` stands for `JSON.parse` of the trimmed
        reply (None when it throws). The cost is charged only after a successful parse; every
        failure is rethrown with the "Idea enrichment failed: " prefix. */
    method EnrichIdea(ideaText: string, existing: seq<Notion.CategoryOption>, completed: Outcome<Completion>,
                      parse: string -> Option<RawAnalysis>, now: string)
      returns (r: Outcome<EnrichResult>)
      modifies this
      ensures completed.Err? ==> r == Err(Fail("Idea enrichment failed: " + completed.error.message))
      ensures completed.Ok? && parse(Trim(completed.value.content)).None? ==>
                r == Err(Fail("Idea enrichment failed: Invalid JSON response from AI"))
      ensures completed.Ok? && parse(Trim(completed.value.content)).Some? ==>
                r == Ok(EnrichResult(SanitizeEnrichment(parse(Trim(completed.value.content)).value, now),
                                     CompletionCost(completed.value.totalTokens), completed.value.totalTokens))
      ensures r.Ok? ==> gptCost == old(gptCost) + CompletionCost(completed.value.totalTokens)
      ensures r.Err? ==> gptCost == old(gptCost)
      ensures whisperCost == old(whisperCost) && lastReset == old(lastReset)
      ensures old(Valid()) ==> Valid()
    {
      var categoryList := CategoryList(existing);
      if completed.Err? {
        return Err(Fail("Idea enrichment failed: " + completed.error.message));
      }
      var analysis := parse(Trim(completed.value.content));
      if analysis.None? {
        return Err(Fail("Idea enrichment failed: Invalid JSON response from AI"));
      }
      var enriched := SanitizeEnrichment(analysis.value, now);
      var tokens := completed.value.totalTokens;
      var cost := CompletionCost(tokens);
      TrackCost("gpt", cost);
      r := Ok(EnrichResult(enriched, cost, tokens));
    }
  }
}

=== FILE: stats.dfy ===
/** api/stats.js: the GET endpoint that reports idea counts by status and category, the enrichment
    rate, the five largest categories and the cost ledger. */
module Stats {
  import opened Wrappers
  import opened Text
  import opened Utils
  import Notion
  import OpenAI
  import opened Adapters

  // ---------------------------------------------------------------------------------------------
  // Derived metrics (before `toFixed` formatting)
  // ---------------------------------------------------------------------------------------------

  /** Percentage of enriched ideas, 0 when there are none. */
  function EnrichmentRate(enriched: nat, total: nat): (rate: real)
    ensures total == 0 ==> rate == 0.0
    ensures 0.0 <= rate
    ensures enriched <= total ==> rate <= 100.0
    ensures total > 0 ==> rate * total as real == enriched as real * 100.0
  {
    if total > 0 then
      var fraction := enriched as real / total as real;
      assert enriched <= total ==> fraction <= 1.0 by {
        if enriched <= total {
          assert fraction * total as real == enriched as real;
        }
      }
      fraction * 100.0
    else 0.0
  }

  /** Cost per idea, 0 when there are no ideas. */
  function CostPerIdea(totalCost: real, total: nat): (cost: real)
    ensures total == 0 ==> cost == 0.0
    ensures total > 0 ==> cost * total as real == totalCost
  {
    if total > 0 then totalCost / total as real else 0.0
  }

  /** Ideas per category, counting at least one category; 0 when there are no ideas. */
  function IdeasPerCategory(total: nat, categories: nat): (ratio: real)
    ensures total == 0 ==> ratio == 0.0
    ensures total > 0 && categories <= 1 ==> ratio == total as real
    ensures total > 0 && categories > 1 ==> ratio * categories as real == total as real
  {
    if total > 0 then total as real / (if categories > 1 then categories else 1) as real else 0.0
  }

  // ---------------------------------------------------------------------------------------------
  // Top categories: a stable sort by count, largest first, then the first five
  // ---------------------------------------------------------------------------------------------

  const TopCount := 5

  predicate NonIncreasing(t: Notion.Tally)
  {
    forall i, j :: 0 <= i < j < |t| ==> t[j].count <= t[i].count
  }

  /** Inserts `e` before the first entry whose count it reaches; an entry that came earlier
      stays ahead of later entries with the same count, as a stable sort keeps it. */
  function Insert(e: Notion.Entry, t: Notion.Tally): (r: Notion.Tally)
    requires NonIncreasing(t)
    ensures NonIncreasing(r)
    ensures multiset(r) == multiset(t) + multiset{e}
    ensures |r| == |t| + 1
    ensures r[0] == e || (t != [] && r[0] == t[0])
  {
    if t == [] || e.count >= t[0].count then
      ConsNonIncreasing(e, t);
      [e] + t
    else
      var rest := Insert(e, t[1..]);
      ConsNonIncreasing(t[0], rest);
      assert t == [t[0]] + t[1..];
      [t[0]] + rest
  }

  /** An entry counting at least the head of a sorted tally may go in front of it. */
  lemma ConsNonIncreasing(x: Notion.Entry, t: Notion.Tally)
    requires NonIncreasing(t)
    requires t != [] ==> t[0].count <= x.count
    ensures NonIncreasing([x] + t)
  {
    var r := [x] + t;
    forall i, j | 0 <= i < j < |r| ensures r[j].count <= r[i].count {
      if i == 0 {
        assert r[j] == t[j - 1];
        assert t[j - 1].count <= t[0].count;
      } else {
        assert r[i] == t[i - 1] && r[j] == t[j - 1];
      }
    }
  }

  /** The entries sorted by count, largest first, ties in their original order. */
  function SortByCountDesc(t: Notion.Tally): (r: Notion.Tally)
    ensures NonIncreasing(r)
    ensures multiset(r) == multiset(t)
    ensures |r| == |t|
  {
    if t == [] then []
    else
      assert t == [t[0]] + t[1..];
      Insert(t[0], SortByCountDesc(t[1..]))
  }

  /** The five largest categories: at most five entries of the tally, largest first, and no entry
      left out counts more than any entry kept. */
  function TopCategories(t: Notion.Tally): (top: Notion.Tally)
    ensures |top| == if |t| < TopCount then |t| else TopCount
    ensures NonIncreasing(top)
    ensures multiset(top) <= multiset(t)
    ensures forall e, i :: e in multiset(t) - multiset(top) && 0 <= i < |top| ==> e.count <= top[i].count
  {
    var sorted := SortByCountDesc(t);
    var k := if |sorted| < TopCount then |sorted| else TopCount;
    PrefixOfSorted(sorted, k);
    sorted[..k]
  }

  /** A prefix of a sorted tally is sorted, and whatever the prefix leaves out counts no more
      than anything in it. */
  lemma PrefixOfSorted(s: Notion.Tally, k: nat)
    requires NonIncreasing(s) && k <= |s|
    ensures NonIncreasing(s[..k])
    ensures multiset(s[..k]) <= multiset(s)
    ensures forall e, i :: e in multiset(s) - multiset(s[..k]) && 0 <= i < k ==> e.count <= s[..k][i].count
  {
    assert s == s[..k] + s[k..];
    assert multiset(s) == multiset(s[..k]) + multiset(s[k..]);
    forall e, i | e in multiset(s) - multiset(s[..k]) && 0 <= i < k ensures e.count <= s[..k][i].count {
      assert e in multiset(s[k..]);
      var j :| 0 <= j < |s[k..]| && s[k..][j] == e;
      assert s[k + j] == e;
    }
  }

  // ---------------------------------------------------------------------------------------------
  // Counting by status
  // ---------------------------------------------------------------------------------------------

  /** Two different keys together occur at most as often as there are keys. */
  lemma {:induction false} TwoKeysCount(keys: seq<string>, a: string, b: string)
    requires a != b
    ensures multiset(keys)[a] + multiset(keys)[b] <= |keys|
    decreases |keys|
  {
    if keys != [] {
      var init := keys[..|keys| - 1];
      TwoKeysCount(init, a, b);
      assert keys == init + [keys[|keys| - 1]];
    }
  }

  /** Stats counted from pages report no more enriched and captured ideas together than ideas,
      so the enrichment rate is a percentage. */
  lemma StatusCountsBounded(pages: seq<Notion.Page>, now: string)
    ensures var stats := Notion.IdeaStats(|pages|, Notion.TallyOf(Notion.CategoryKeys(pages)), Notion.TallyOf(Notion.StatusKeys(pages)), now);
            var enriched := Notion.Lookup(stats.statusStats, "Enriched");
            var captured := Notion.Lookup(stats.statusStats, "Captured");
            && enriched + captured <= stats.totalIdeas
            && 0.0 <= EnrichmentRate(enriched, stats.totalIdeas) <= 100.0
  {
    var keys := Notion.StatusKeys(pages);
    var tally := Notion.TallyOf(keys);
    Notion.TallyOfCounts(keys);
    TwoKeysCount(keys, "Enriched", "Captured");
    var enriched, captured := Notion.Lookup(tally, "Enriched"), Notion.Lookup(tally, "Captured");
    assert enriched == multiset(keys)["Enriched"] && captured == multiset(keys)["Captured"];
    assert enriched + captured <= |pages|;
    var rate := EnrichmentRate(enriched, |pages|);
    assert 0.0 <= rate <= 100.0;
  }

  // ---------------------------------------------------------------------------------------------
  // The handler
  // ---------------------------------------------------------------------------------------------

  /** The `data` of the report, without the process health fields and with unformatted numbers. */
  datatype StatsReport = StatsReport(
    totalIdeas: nat,
    enrichedIdeas: nat,
    capturedIdeas: nat,
    enrichmentRate: real,
    totalCategories: nat,
    statusBreakdown: Notion.Tally,
    allCategories: Notion.Tally,
    topCategories: Notion.Tally,
    costs: OpenAI.CostSummary,
    costPerIdea: real,
    ideasPerCategory: real,
    lastUpdated: string,
    reportGenerated: string)

  /** The stats handler. `stats` is what counting the ideas settles to and `now` the clock. The
      cost ledger is read from a client created for this request. */
  method HandleStats(verb: string, missingEnv: seq<string>, stats: Outcome<Notion.IdeaStats>, now: string)
    returns (calls: seq<Call>, resp: Response<StatsReport>)
    ensures verb == "OPTIONS" ==> calls == [] && resp == Response(200, NoContent)
    ensures verb != "OPTIONS" && verb != "GET" ==> calls == [] && resp == ErrorResponse("Method not allowed", 405)
    ensures verb == "GET" && missingEnv != [] ==> calls == [] && resp.status == 500
    ensures verb == "GET" && missingEnv == [] ==> calls == [GetIdeaStats]
    ensures verb == "GET" && missingEnv == [] && stats.Err? ==>
              resp == ErrorResponse("Failed to fetch statistics: " + stats.error.message, 500)
    ensures verb == "GET" && missingEnv == [] && stats.Ok? ==>
              var s := stats.value;
              && resp.status == 200 && resp.body.Success?
              && var r := resp.body.data;
              && r.totalIdeas == s.totalIdeas
              && r.enrichedIdeas == Notion.Lookup(s.statusStats, "Enriched")
              && r.capturedIdeas == Notion.Lookup(s.statusStats, "Captured")
              && r.enrichmentRate == EnrichmentRate(r.enrichedIdeas, s.totalIdeas)
              && r.totalCategories == |s.categoryStats|
              && r.statusBreakdown == s.statusStats && r.allCategories == s.categoryStats
              && r.topCategories == TopCategories(s.categoryStats)
              && r.costs == OpenAI.CostSummary(0.0, 0.0, 0.0, now, 0.0)
              && r.costPerIdea == 0.0
              && r.ideasPerCategory == IdeasPerCategory(s.totalIdeas, |s.categoryStats|)
              && r.lastUpdated == s.lastUpdated && r.reportGenerated == now
  {
    calls := [];
    if verb == "OPTIONS" {
      return calls, Response(200, NoContent);
    }
    if verb != "GET" {
      return calls, ErrorResponse("Method not allowed", 405);
    }
    if missingEnv != [] {
      return calls, ErrorResponse("Missing required environment variables: " + Join(missingEnv, ", "), 500);
    }
    var client := new OpenAI.OpenAIClient(now);
    calls := [GetIdeaStats];
    if stats.Err? {
      return calls, ErrorResponse("Failed to fetch statistics: " + stats.error.message, 500);
    }
    var s := stats.value;
    var costs := client.GetCostSummary();
    var enriched := Notion.Lookup(s.statusStats, "Enriched");
    var captured := Notion.Lookup(s.statusStats, "Captured");
    var report := StatsReport(
      s.totalIdeas, enriched, captured, EnrichmentRate(enriched, s.totalIdeas), |s.categoryStats|,
      s.statusStats, s.categoryStats, TopCategories(s.categoryStats),
      costs, CostPerIdea(costs.totalCost, s.totalIdeas), IdeasPerCategory(s.totalIdeas, |s.categoryStats|),
      s.lastUpdated, now);
    resp := Response(200, Success(report));
  }
}

=== FILE: telegram.dfy ===
/** lib/telegram.js: the Telegram client's lazily created bot, its send-retry loop, the inline
    keyboards and the pure formatters and mappers. */
module Telegram {
  import opened Wrappers
  import opened Text
  import opened Utils

  // ---------------------------------------------------------------------------------------------
  // Keyboards
  // ---------------------------------------------------------------------------------------------

  datatype Button = Button(text: string, callbackData: string)

  /** `reply_markup.inline_keyboard`: rows of buttons. */
  type Keyboard = seq<seq<Button>>

  const OkLabel := "\U{1F44D} OK - Save & Enrich"
  const CancelLabel := "\U{2716}\U{FE0F} Cancel"
  const RetryLabel := "\U{1F504} Retry"

  /** `createOkCancelKeyboard(ideaId)`: one row, OK then Cancel, whose data decode to the actions
      'ok' and 'cancel' with the original idea id. */
  function OkCancelKeyboard(ideaId: string): (k: Keyboard)
    ensures |k| == 1 && |k[0]| == 2
    ensures ParseCallbackData(k[0][0].callbackData) == CallbackData("ok", ideaId)
    ensures ParseCallbackData(k[0][1].callbackData) == CallbackData("cancel", ideaId)
  {
    ParseCreateCallbackData("ok", ideaId);
    ParseCreateCallbackData("cancel", ideaId);
    [[Button(OkLabel, CreateCallbackData("ok", ideaId)), Button(CancelLabel, CreateCallbackData("cancel", ideaId))]]
  }

  /** `createRetryKeyboard(action, ideaId)`: the Retry data `retry_${action}_${ideaId}` decodes to
      the action 'retry' whose id is `${action}_${ideaId}`; Cancel decodes to 'cancel'. */
  function RetryKeyboard(action: string, ideaId: string): (k: Keyboard)
    ensures |k| == 1 && |k[0]| == 2
    ensures ParseCallbackData(k[0][0].callbackData) == CallbackData("retry", action + "_" + ideaId)
    ensures ParseCallbackData(k[0][1].callbackData) == CallbackData("cancel", ideaId)
  {
    var retried := action + "_" + ideaId;
    ParseCreateCallbackData("retry", retried);
    ParseCreateCallbackData("cancel", ideaId);
    [[Button(RetryLabel, CreateCallbackData("retry", retried)), Button(CancelLabel, CreateCallbackData("cancel", ideaId))]]
  }

  // ---------------------------------------------------------------------------------------------
  // formatErrorMessage
  // ---------------------------------------------------------------------------------------------

  /** What `formatErrorMessage` returns: a plain string, or an object with text and keyboard. */
  datatype ErrorMessage = Plain(text: string) | WithKeyboard(text: string, keyboard: Keyboard)

  const ErrorHeader := "\U{26A0}\U{FE0F} <b>Something went wrong</b>\n\n"
  const RetryHint := "You can try again using the button below."

  /** `formatErrorMessage(error, retryAction, ideaId)`: an object exactly when both the retry
      action and the idea id are truthy, carrying the retry keyboard for them. */
  function FormatErrorMessage(errorMessage: Option<string>, retryAction: Option<string>, ideaId: Option<string>): (r: ErrorMessage)
    ensures r.WithKeyboard? <==> Truthy(retryAction) && Truthy(ideaId)
    ensures StartsWith(r.text, ErrorHeader + "Error: " + Render(errorMessage) + "\n\n")
    ensures r.Plain? ==> r.text == ErrorHeader + "Error: " + Render(errorMessage) + "\n\n"
    ensures r.WithKeyboard? ==> r.keyboard == RetryKeyboard(retryAction.value, ideaId.value)
  {
    var message := ErrorHeader + "Error: " + Render(errorMessage) + "\n\n";
    if Truthy(retryAction) && Truthy(ideaId) then
      WithKeyboard(message + RetryHint, RetryKeyboard(retryAction.value, ideaId.value))
    else
      Plain(message)
  }

  // ---------------------------------------------------------------------------------------------
  // sanitizeForHtml
  // ---------------------------------------------------------------------------------------------

  /** `replace(/c/g, rep)` for a one-character pattern. */
  function ReplaceChar(s: string, c: char, rep: string): (r: string)
    ensures c !in rep ==> c !in r
    ensures forall d :: d != c && d !in rep && d !in s ==> d !in r
  {
    if s == [] then [] else (if s[0] == c then rep else [s[0]]) + ReplaceChar(s[1..], c, rep)
  }

  lemma {:induction false} ReplaceCharAppend(a: string, b: string, c: char, rep: string)
    ensures ReplaceChar(a + b, c, rep) == ReplaceChar(a, c, rep) + ReplaceChar(b, c, rep)
  {
    if a != [] {
      assert (a + b)[1..] == a[1..] + b;
      ReplaceCharAppend(a[1..], b, c, rep);
    } else {
      assert a + b == b;
    }
  }

  /** `sanitizeForHtml`: '&' first, then '<', '>' and '"'. */
  function SanitizeForHtml(text: string): string
  {
    ReplaceChar(ReplaceChar(ReplaceChar(ReplaceChar(text, '&', "&amp;"), '<', "&lt;"), '>', "&gt;"), '"', "&quot;")
  }

  /** The HTML escape of one character. */
  function EscapeChar(c: char): string
  {
    if c == '&' then "&amp;"
    else if c == '<' then "&lt;"
    else if c == '>' then "&gt;"
    else if c == '"' then "&quot;"
    else [c]
  }

  /** Per-character HTML escaping: the reference meaning of `sanitizeForHtml`. */
  function EscapeHtml(s: string): (r: string)
    ensures '<' !in r && '>' !in r && '"' !in r
  {
    if s == [] then [] else EscapeChar(s[0]) + EscapeHtml(s[1..])
  }

  /** Replacing a character that does not occur changes nothing. */
  lemma {:induction false} ReplaceCharAbsent(s: string, c: char, rep: string)
    requires c !in s
    ensures ReplaceChar(s, c, rep) == s
  {
    if s != [] {
      assert s[0] in s;
      ReplaceCharAbsent(s[1..], c, rep);
      assert s == [s[0]] + s[1..];
    }
  }

  lemma ReplaceCharOne(c: char, rep: string)
    ensures ReplaceChar([c], c, rep) == rep
  {
    assert [c][1..] == [];
  }

  lemma EscapeOneChar(c: char)
    ensures SanitizeForHtml([c]) == EscapeChar(c)
  {
    if c == '&' {
      EscapeAmp(c);
    } else if c == '<' {
      EscapeLt(c);
    } else if c == '>' {
      EscapeGt(c);
    } else if c == '"' {
      EscapeQuot(c);
    } else {
      ReplaceCharAbsent([c], '&', "&amp;");
      ReplaceCharAbsent([c], '<', "&lt;");
      ReplaceCharAbsent([c], '>', "&gt;");
      ReplaceCharAbsent([c], '"', "&quot;");
    }
  }

  lemma EscapeAmp(c: char)
    requires c == '&'
    ensures SanitizeForHtml([c]) == "&amp;"
  {
    var amp := "&amp;";
    ReplaceCharOne(c, amp);
    assert '<' !in amp && '>' !in amp && '"' !in amp;
    ReplaceCharAbsent(amp, '<', "&lt;");
    ReplaceCharAbsent(amp, '>', "&gt;");
    ReplaceCharAbsent(amp, '"', "&quot;");
  }

  lemma EscapeLt(c: char)
    requires c == '<'
    ensures SanitizeForHtml([c]) == "&lt;"
  {
    var lt := "&lt;";
    ReplaceCharAbsent([c], '&', "&amp;");
    ReplaceCharOne(c, lt);
    assert '>' !in lt && '"' !in lt;
    ReplaceCharAbsent(lt, '>', "&gt;");
    ReplaceCharAbsent(lt, '"', "&quot;");
  }

  lemma EscapeGt(c: char)
    requires c == '>'
    ensures SanitizeForHtml([c]) == "&gt;"
  {
    var gt := "&gt;";
    ReplaceCharAbsent([c], '&', "&amp;");
    ReplaceCharAbsent([c], '<', "&lt;");
    ReplaceCharOne(c, gt);
    ReplaceCharAbsent(gt, '"', "&quot;");
  }

  lemma EscapeQuot(c: char)
    requires c == '"'
    ensures SanitizeForHtml([c]) == "&quot;"
  {
    ReplaceCharAbsent([c], '&', "&amp;");
    ReplaceCharAbsent([c], '<', "&lt;");
    ReplaceCharAbsent([c], '>', "&gt;");
    ReplaceCharOne(c, "&quot;");
  }

  lemma SanitizeForHtmlAppend(a: string, b: string)
    ensures SanitizeForHtml(a + b) == SanitizeForHtml(a) + SanitizeForHtml(b)
  {
    var a1, b1 := ReplaceChar(a, '&', "&amp;"), ReplaceChar(b, '&', "&amp;");
    ReplaceCharAppend(a, b, '&', "&amp;");
    var a2, b2 := ReplaceChar(a1, '<', "&lt;"), ReplaceChar(b1, '<', "&lt;");
    ReplaceCharAppend(a1, b1, '<', "&lt;");
    var a3, b3 := ReplaceChar(a2, '>', "&gt;"), ReplaceChar(b2, '>', "&gt;");
    ReplaceCharAppend(a2, b2, '>', "&gt;");
    ReplaceCharAppend(a3, b3, '"', "&quot;");
  }

  /** The chain of four global replacements is exactly per-character escaping, so '&' produced by
      a later replacement is never escaped again and no raw '<', '>' or '"' survives. */
  lemma {:induction false} SanitizeForHtmlIsEscape(text: string)
    ensures SanitizeForHtml(text) == EscapeHtml(text)
    ensures '<' !in SanitizeForHtml(text) && '>' !in SanitizeForHtml(text) && '"' !in SanitizeForHtml(text)
  {
    if text == [] {
      assert SanitizeForHtml(text) == [];
    } else {
      assert text == [text[0]] + text[1..];
      SanitizeForHtmlAppend([text[0]], text[1..]);
      EscapeOneChar(text[0]);
      SanitizeForHtmlIsEscape(text[1..]);
    }
  }

  // ---------------------------------------------------------------------------------------------
  // truncateText, validateAudioDuration, getFileTypeFromMime
  // ---------------------------------------------------------------------------------------------

  const DefaultTruncateLength := 500

  /** `truncateText(text, maxLength)`: text no longer than maxLength is kept; longer text keeps
      `substring(0, maxLength)` (a negative end counts as 0) and gains "...". */
  function TruncateText(text: string, maxLength: int): (r: string)
    ensures |text| <= maxLength ==> r == text
    ensures |text| > maxLength >= 0 ==>
              |r| == maxLength + 3 && r[..maxLength] == text[..maxLength] && r[maxLength..] == "..."
    ensures |text| > maxLength && maxLength < 0 ==> r == "..."
  {
    if |text| <= maxLength then text
    else text[..if maxLength < 0 then 0 else maxLength] + "..."
  }

  /** The two truncation rules differ on long text: `truncateText` keeps three more characters of
      the text than `truncateWithEllipsis` and so is three characters longer. */
  lemma TruncationRulesDiffer(text: string, maxLength: int)
    requires maxLength >= 3 && |text| > maxLength
    ensures |TruncateText(text, maxLength)| == |TruncateWithEllipsis(text, maxLength)| + 3
    ensures TruncateWithEllipsis(text, maxLength)[..maxLength - 3] == TruncateText(text, maxLength)[..maxLength - 3]
  {
  }

  const MaxVoiceSeconds := 30

  /** `validateAudioDuration`: at most 30 seconds. */
  function ValidateAudioDuration(duration: int): (ok: bool)
    ensures ok <==> duration <= MaxVoiceSeconds
  {
    duration <= MaxVoiceSeconds
  }

  const ImageMimes: set<string> := {"image/jpeg", "image/png", "image/gif", "image/bmp", "image/webp"}
  const DocumentMimes: set<string> :=
    {"application/pdf", "application/msword",
     "application/vnd.openxmlformats-officedocument.wordprocessingml.document", "text/plain"}
  const AudioMimes: set<string> := {"audio/ogg", "audio/mpeg", "audio/wav", "audio/mp4"}

  /** `mimeMap` of `getFileTypeFromMime`. */
  const MimeMap: map<string, string> :=
    map["image/jpeg" := "image", "image/png" := "image", "image/gif" := "image",
        "image/bmp" := "image", "image/webp" := "image",
        "application/pdf" := "document", "application/msword" := "document",
        "application/vnd.openxmlformats-officedocument.wordprocessingml.document" := "document",
        "text/plain" := "document",
        "audio/ogg" := "audio", "audio/mpeg" := "audio", "audio/wav" := "audio", "audio/mp4" := "audio"]

  /** `getFileTypeFromMime`: the mapped type, or 'unknown'. */
  function GetFileTypeFromMime(mimeType: string): (r: string)
    ensures r == "image" <==> mimeType in ImageMimes
    ensures r == "document" <==> mimeType in DocumentMimes
    ensures r == "audio" <==> mimeType in AudioMimes
    ensures r == "unknown" <==> mimeType !in ImageMimes + DocumentMimes + AudioMimes
  {
    if mimeType in MimeMap then MimeMap[mimeType] else "unknown"
  }

  // ---------------------------------------------------------------------------------------------
  // The client
  // ---------------------------------------------------------------------------------------------

  /** A sent Telegram message, as far as the handlers read it. */
  datatype SentMessage = SentMessage(messageId: int)

  const MaxSendAttempts := 3

  /** `TelegramClient`: configuration read at construction and the bot, created on first use by
      `_getBot`. `botCreated` is whether `this.bot` is no longer null. */
  class TelegramClient {
    const token: Option<string>
    const adminUserId: Option<string>
    var botCreated: bool

    constructor(token: Option<string>, adminUserId: Option<string>)
      ensures this.token == token && this.adminUserId == adminUserId
      ensures !botCreated
    {
      this.token := token;
      this.adminUserId := adminUserId;
      botCreated := false;
    }

    /** `_getBot`: creates the bot once. */
    method GetBot()
      modifies this
      ensures botCreated
    {
      if !botCreated {
        botCreated := true;
      }
    }

    /** `sendMessage`: goes through the bot, so the bot exists afterwards; `outcome` is what the
        Bot API call settles to. */
    method SendMessage(outcome: Outcome<SentMessage>) returns (r: Outcome<SentMessage>)
      modifies this
      ensures botCreated && r == outcome
    {
      GetBot();
      r := outcome;
    }

    /** `sendWithRetry`: `send(i)` is what the i-th attempt settles to. At most three attempts, the
        first success is returned and the third failure is rethrown. */
    method SendWithRetry(send: nat -> Outcome<SentMessage>) returns (r: Outcome<SentMessage>, attempts: nat)
      modifies this
      ensures botCreated
      ensures 1 <= attempts <= MaxSendAttempts
      ensures r == send(attempts - 1)
      ensures forall k :: 0 <= k < attempts - 1 ==> send(k).Err?
      ensures r.Err? ==> attempts == MaxSendAttempts
    {
      var i := 0;
      while true
        invariant 0 <= i < MaxSendAttempts
        invariant forall k :: 0 <= k < i ==> send(k).Err?
        invariant i > 0 ==> botCreated
        decreases MaxSendAttempts - i
      {
        r := SendMessage(send(i));
        attempts := i + 1;
        if r.Ok? {
          return;
        }
        if i == MaxSendAttempts - 1 {
          return;
        }
        i := i + 1;
      }
    }

    /** `isAdmin(userId)`: an admin id is configured and the decimal form of the user id equals
        it. */
    predicate IsAdmin(userId: int)
      reads this
    {
      Truthy(adminUserId) && IntToString(userId) == adminUserId.value
    }
  }

  /** Without a configured admin id nobody is an admin; with one, the users it admits are exactly
      those whose decimal form it is, so at most one user is an admin. */
  lemma IsAdminExactly(client: TelegramClient, userId: int, other: int)
    ensures !Truthy(client.adminUserId) ==> !client.IsAdmin(userId)
    ensures client.adminUserId == Some(IntToString(userId)) ==> (client.IsAdmin(other) <==> other == userId)
    ensures client.IsAdmin(userId) && client.IsAdmin(other) ==> userId == other
  {
    IntToStringInjective(userId, other);
  }
}

=== FILE: telegram_webhook.dfy ===
/** api/telegram/webhook.js: the second Telegram bot endpoint. Commands are answered as in
    api/webhook.js; any other message is turned into a request to /api/capture, after which the bot
    asks the clarifying question with two buttons or posts the idea to /api/enrich-lite. Button
    presses arrive as callback queries. Telegram sends are taken to succeed; what the two HTTP
    endpoints answer is a parameter. */
module TelegramWebhook {
  import opened Wrappers
  import opened Utils
  import Notion
  import Text
  import OpenAI
  import Telegram
  import opened Adapters
  import Capture
  import EnrichLite
  import Webhook

  /** What the adapters settle to: the Telegram file download, the ids Telegram gives the two
      progress notices, and the replies of /api/capture and /api/enrich-lite. A reply that is not
      a 2xx, or does not arrive, is an `Err` carrying the error's message. */
  datatype BotOutcomes = BotOutcomes(
    downloaded: Outcome<TelegramFile>,
    processingId: int,
    captured: Outcome<Capture.CaptureData>,
    enrichingId: int,
    enriched: Outcome<EnrichLite.EnrichData>)

  /** A call that puts a message in front of the user of `chatId`. */
  predicate Notifies(c: Call, chatId: int)
  {
    (c.Send? || c.SendWithKeyboard? || c.SendError? || c.SendQuestion? || c.SendEnrichmentSummary?) && c.chatId == chatId
  }

  /** A call that addresses a chat addresses `chatId`. */
  predicate Addresses(c: Call, chatId: int)
  {
    (c.Send? || c.SendWithKeyboard? || c.SendError? || c.SendQuestion? || c.SendEnrichmentSummary? || c.DeleteMessage?) ==> c.chatId == chatId
  }

  /** A post to /api/capture carries a type the endpoint accepts. */
  predicate AcceptedKind(c: Call)
  {
    c.PostCapture? ==> c.request.kind.Some? && Capture.IsValidType(c.request.kind.value)
  }

  /** What the bot does for one chat stays with it: every call that addresses a chat addresses
      `chatId`, nothing is written to Notion directly, and every capture post has an accepted
      type. */
  predicate Confined(calls: seq<Call>, chatId: int)
  {
    forall i :: 0 <= i < |calls| ==> Addresses(calls[i], chatId) && !IsNotionWrite(calls[i]) && AcceptedKind(calls[i])
  }

  /** Confined calls carry over to their join. */
  lemma JoinedCalls(a: seq<Call>, b: seq<Call>, chatId: int)
    requires Confined(a, chatId) && Confined(b, chatId)
    ensures Confined(a + b, chatId)
  {
    var ab := a + b;
    forall i | 0 <= i < |ab|
      ensures Addresses(ab[i], chatId) && !IsNotionWrite(ab[i]) && AcceptedKind(ab[i])
    {
      if i < |a| {
        assert ab[i] == a[i];
      } else {
        assert ab[i] == b[i - |a|];
      }
    }
  }

  /** Confined calls write nothing to Notion. */
  lemma ConfinedWritesNothing(calls: seq<Call>, chatId: int)
    requires Confined(calls, chatId)
    ensures NoNotionWrite(calls)
  {
    forall i | 0 <= i < |calls| ensures !IsNotionWrite(calls[i]) {
    }
  }

  // ---------------------------------------------------------------------------------------------
  // processEnrichment
  // ---------------------------------------------------------------------------------------------

  const ResearchingText := "\U{1F50E} Researching & categorizing your idea..."
  const MaxCompetitors := 3

  /** One competitor line of the summary: `• name: one_line`. */
  function CompetitorLine(c: OpenAI.Competitor): string
  {
    "\U{2022} " + Render(c.name) + ": " + Render(c.oneLine)
  }

  /** The competitor lines of the summary: the first `n` competitors, in order. */
  function CompetitorLines(competitors: seq<OpenAI.Competitor>, n: nat): (lines: seq<string>)
    ensures |lines| <= n && |lines| <= |competitors|
    ensures |competitors| >= n ==> |lines| == n
    ensures forall i :: 0 <= i < |lines| ==> lines[i] == CompetitorLine(competitors[i])
  {
    if n == 0 || competitors == [] then []
    else [CompetitorLine(competitors[0])] + CompetitorLines(competitors[1..], n - 1)
  }

  /** The fields of the success message, read from the enrich endpoint's data. */
  function SummaryOf(d: EnrichLite.EnrichData): EnrichmentSummary
  {
    EnrichmentSummary(d.enrichment.category.name, d.enrichment.category.confidence, d.enrichment.summary,
                      CompetitorLines(d.enrichment.competitors, MaxCompetitors), d.enrichment.marketSizeEstimate,
                      d.enrichment.nextStep, d.enrichment.disclaimer, d.notionUrl)
  }

  /** What a failed enrichment shows: `formatErrorMessage(error, 'enrich', ideaId)` carries a
      keyboard exactly when the idea id is truthy, and then its Retry button decodes to the action
      'retry' for `enrich_<ideaId>` and its Cancel button to 'cancel' for the idea. */
  lemma EnrichRetryKeyboard(message: string, ideaId: Option<string>)
    ensures Telegram.FormatErrorMessage(Some(message), Some("enrich"), ideaId).WithKeyboard? <==> Truthy(ideaId)
    ensures Truthy(ideaId) ==>
              var k := Telegram.FormatErrorMessage(Some(message), Some("enrich"), ideaId).keyboard;
              && |k| == 1 && |k[0]| == 2
              && ParseCallbackData(k[0][0].callbackData) == CallbackData("retry", "enrich" + "_" + ideaId.value)
              && ParseCallbackData(k[0][1].callbackData) == CallbackData("cancel", ideaId.value)
  {
  }

  /** `processEnrichment(ideaId, ideaText, chatId)`: announce, post the idea to /api/enrich-lite,
      remove the notice and send the summary, or send the failure notice. */
  method ProcessEnrichment(ideaId: Option<string>, ideaText: Option<string>, chatId: int, o: BotOutcomes)
    returns (calls: seq<Call>)
    ensures |calls| >= 3 && calls[0] == Send(chatId, ResearchingText) && calls[1] == PostEnrich(ideaId, ideaText)
    ensures Notifies(calls[|calls| - 1], chatId) && Confined(calls, chatId)
    ensures o.enriched.Ok? ==>
              |calls| == 4 && calls[2] == DeleteMessage(chatId, o.enrichingId) && calls[3] == SendEnrichmentSummary(chatId, SummaryOf(o.enriched.value))
    ensures o.enriched.Err? ==> |calls| == 3 && calls[2] == SendError(chatId, o.enriched.error.message, Some("enrich"), ideaId)
  {
    if o.enriched.Err? {
      calls := [Send(chatId, ResearchingText), PostEnrich(ideaId, ideaText), SendError(chatId, o.enriched.error.message, Some("enrich"), ideaId)];
    } else {
      calls := [Send(chatId, ResearchingText), PostEnrich(ideaId, ideaText),
                DeleteMessage(chatId, o.enrichingId), SendEnrichmentSummary(chatId, SummaryOf(o.enriched.value))];
    }
  }

  // ---------------------------------------------------------------------------------------------
  // handleIdeaCapture
  // ---------------------------------------------------------------------------------------------

  const ProcessingText := "\U{1F504} Processing your idea..."
  const UnsupportedText := "Sorry, I can only process text, voice messages, images, and documents right now."

  /** The capture request for a message, a notice that ends the capture before any request, or
      the message of the error that aborts it. */
  datatype Preparation =
    | Prepared(request: CaptureRequest)
    | Declined(notice: string)
    | PreparationFailed(message: string)

  /** The `ideaData` of a message, by `determineMessageType`: the text itself; a voice message up
      to 30 seconds as its download URL with duration and size; a photo's largest size or a
      document as an attachment under the type 'file'; any other message is declined. */
  method PrepareCapture(m: Message, downloaded: Outcome<TelegramFile>) returns (calls: seq<Call>, r: Preparation)
    ensures DetermineMessageType(m) == TextMessage ==>
              calls == [] && r == Prepared(CaptureRequest(Some("text"), m.text, [], NoMetadata))
    ensures DetermineMessageType(m) == VoiceMessage && m.voice.value.duration > 30 ==>
              calls == [] && r == Declined(Webhook.VoiceTooLongText)
    ensures DetermineMessageType(m) == VoiceMessage && m.voice.value.duration <= 30 ==>
              var v := m.voice.value;
              && |calls| == 1 && calls[0] == DownloadTelegramFile(v.fileId)
              && (downloaded.Err? ==> r == PreparationFailed(downloaded.error.message))
              && (downloaded.Ok? ==>
                    r == Prepared(CaptureRequest(Some("voice"), Some(downloaded.value.url), [], VoiceMetadata(v.duration, v.fileSize))))
    ensures DetermineMessageType(m) == PhotoMessage ==>
              var photos := m.photo.value;
              if photos == [] then
                calls == [] && r == PreparationFailed(Webhook.MissingFileId)
              else
                && |calls| == 1 && calls[0] == DownloadTelegramFile(photos[|photos| - 1].fileId)
                && (downloaded.Err? ==> r == PreparationFailed(downloaded.error.message))
                && (downloaded.Ok? ==> r == Prepared(CaptureRequest(Some("file"), Some(Or(m.caption, "Image attachment")),
                      [Notion.Attachment("image", Some(downloaded.value.url), Some("image.jpg"), photos[|photos| - 1].fileSize)],
                      NoMetadata)))
    ensures DetermineMessageType(m) == DocumentMessage ==>
              var d := m.document.value;
              && |calls| == 1 && calls[0] == DownloadTelegramFile(d.fileId)
              && (downloaded.Err? ==> r == PreparationFailed(downloaded.error.message))
              && (downloaded.Ok? ==> r == Prepared(CaptureRequest(Some("file"), Some(Or(m.caption, "Document: " + Render(d.fileName))),
                    [Notion.Attachment("document", Some(downloaded.value.url), d.fileName, d.fileSize)], NoMetadata)))
    ensures DetermineMessageType(m) == UnknownMessage ==> calls == [] && r == Declined(UnsupportedText)
    ensures |calls| <= 1 && Confined(calls, m.chatId)
    ensures r.Prepared? ==> AcceptedKind(PostCapture(r.request))
    ensures r.Prepared? && r.request.kind != Some("voice") ==> Truthy(r.request.content)
  {
    var kind := DetermineMessageType(m);
    calls := [];
    if kind == TextMessage {
      r := Prepared(CaptureRequest(Some("text"), m.text, [], NoMetadata));
    } else if kind == VoiceMessage {
      var v := m.voice.value;
      if v.duration > 30 {
        return [], Declined(Webhook.VoiceTooLongText);
      }
      calls := [DownloadTelegramFile(v.fileId)];
      if downloaded.Err? {
        return calls, PreparationFailed(downloaded.error.message);
      }
      r := Prepared(CaptureRequest(Some("voice"), Some(downloaded.value.url), [], VoiceMetadata(v.duration, v.fileSize)));
    } else if kind == PhotoMessage {
      var photos := m.photo.value;
      if photos == [] {
        // `photo[length - 1]` is undefined and reading its `file_id` throws.
        return [], PreparationFailed(Webhook.MissingFileId);
      }
      var largest := photos[|photos| - 1];
      calls := [DownloadTelegramFile(largest.fileId)];
      if downloaded.Err? {
        return calls, PreparationFailed(downloaded.error.message);
      }
      var attachment := Notion.Attachment("image", Some(downloaded.value.url), Some("image.jpg"), largest.fileSize);
      r := Prepared(CaptureRequest(Some("file"), Some(Or(m.caption, "Image attachment")), [attachment], NoMetadata));
    } else if kind == DocumentMessage {
      var d := m.document.value;
      calls := [DownloadTelegramFile(d.fileId)];
      if downloaded.Err? {
        return calls, PreparationFailed(downloaded.error.message);
      }
      var attachment := Notion.Attachment("document", Some(downloaded.value.url), d.fileName, d.fileSize);
      r := Prepared(CaptureRequest(Some("file"), Some(Or(m.caption, "Document: " + Render(d.fileName))), [attachment], NoMetadata));
    } else {
      r := Declined(UnsupportedText);
    }
  }

  /** The two fields the handler reads from the capture data: the idea's id and its processed
      content (undefined when absent). */
  datatype CaptureRefs = CaptureRefs(ideaId: Option<string>, processedContent: Option<string>)

  /** The fields as the handler reads them: `captureData.ideaId` and `captureData.processedContent`
      are not fields of what /api/capture returns, so both are undefined. */
  function RefsAsWritten(d: Capture.CaptureData): CaptureRefs
  {
    CaptureRefs(None, None)
  }

  /** The fields as intended: the page id the capture returns as `notionId`, and as the text its
      `title`, the processed content cut to 100 characters (the capture returns no other form of
      the processed content). The buttons then name the stored page, and /api/enrich-lite accepts
      the pair exactly when the capture returned a page id and a title. */
  function Refs(d: Capture.CaptureData): (refs: CaptureRefs)
    ensures Render(refs.ideaId) == d.notionId && Render(refs.processedContent) == d.title
    ensures Truthy(refs.ideaId) && Truthy(refs.processedContent) <==> d.notionId != "" && d.title != ""
  {
    CaptureRefs(Some(d.notionId), Some(d.title))
  }

  /** The fields as written, or as intended. */
  function ReadRefs(d: Capture.CaptureData, asWritten: bool): CaptureRefs
  {
    if asWritten then RefsAsWritten(d) else Refs(d)
  }

  const AddDetailsLabel := "\U{270D}\U{FE0F} Add Details"
  const SkipLabel := "\U{1F44D} Skip & Save"

  /** The keyboard under the clarifying question: Add Details and Skip & Save, whose data decode to
      the actions 'clarify' and 'skip' with the idea id. */
  function ClarifyKeyboard(ideaId: string): (k: Telegram.Keyboard)
    ensures |k| == 1 && |k[0]| == 2
    ensures ParseCallbackData(k[0][0].callbackData) == CallbackData("clarify", ideaId)
    ensures ParseCallbackData(k[0][1].callbackData) == CallbackData("skip", ideaId)
  {
    ClarifyDataRoundTrip(ideaId);
    [[Telegram.Button(AddDetailsLabel, CreateCallbackData("clarify", ideaId)),
      Telegram.Button(SkipLabel, CreateCallbackData("skip", ideaId))]]
  }

  lemma ClarifyDataRoundTrip(ideaId: string)
    ensures ParseCallbackData(CreateCallbackData("clarify", ideaId)) == CallbackData("clarify", ideaId)
    ensures ParseCallbackData(CreateCallbackData("skip", ideaId)) == CallbackData("skip", ideaId)
  {
    assert '_' !in "clarify" && '_' !in "skip";
    ParseCreateCallbackData("clarify", ideaId);
    ParseCreateCallbackData("skip", ideaId);
  }

  const QuestionHead := "\U{1F4A1} <b>Idea captured!</b>\n\n<b>Your idea:</b> "
  const QuestionMiddle := "\n\n<b>Quick question to improve it:</b>\n"

  /** The idea as the question message shows it: cut to 200 characters with an ellipsis; an
      undefined content stays undefined. */
  function ShownIdea(content: Option<string>): (shown: string)
    ensures content.Some? ==> |shown| <= 200 && (|content.value| <= 200 ==> shown == content.value)
    ensures content.None? ==> shown == "undefined"
  {
    if content.Some? then
      TruncateWithEllipsisBound(content.value, 200);
      TruncateWithEllipsis(content.value, 200)
    else "undefined"
  }

  /** The question message: the captured notice, the idea as shown, the heading of the question,
      and the question at the end. */
  function QuestionText(content: Option<string>, question: string): (text: string)
    ensures Text.StartsWith(text, QuestionHead + ShownIdea(content) + QuestionMiddle)
    ensures content.Some? && |content.value| <= 200 ==> Text.StartsWith(text, QuestionHead + content.value + QuestionMiddle)
    ensures content.None? ==> Text.StartsWith(text, QuestionHead + "undefined" + QuestionMiddle)
    ensures |question| <= |text| && text[|text| - |question|..] == question
  {
    var head := QuestionHead + ShownIdea(content) + QuestionMiddle;
    assert (head + question)[..|head|] == head;
    head + question
  }

  /** The rest of `handleIdeaCapture` once /api/capture has answered: remove the notice, then ask
      the clarifying question with its keyboard, or go straight to enrichment. */
  method AfterCapture(d: Capture.CaptureData, refs: CaptureRefs, chatId: int, o: BotOutcomes) returns (calls: seq<Call>)
    ensures |calls| >= 2 && calls[0] == DeleteMessage(chatId, o.processingId)
    ensures Notifies(calls[|calls| - 1], chatId) && Confined(calls, chatId)
    ensures Truthy(d.clarifyingQuestion) ==>
              |calls| == 2 && calls[1] == SendQuestion(chatId, refs.processedContent, d.clarifyingQuestion.value, refs.ideaId)
    ensures !Truthy(d.clarifyingQuestion) ==> |calls| >= 4 && calls[1] == Send(chatId, ResearchingText) && calls[2] == PostEnrich(refs.ideaId, refs.processedContent)
  {
    var removal := DeleteMessage(chatId, o.processingId);
    if Truthy(d.clarifyingQuestion) {
      calls := [removal, SendQuestion(chatId, refs.processedContent, d.clarifyingQuestion.value, refs.ideaId)];
    } else {
      var enriching := ProcessEnrichment(refs.ideaId, refs.processedContent, chatId, o);
      JoinedCalls([removal], enriching, chatId);
      calls := [removal] + enriching;
      assert calls[1] == enriching[0] && calls[2] == enriching[1];
    }
  }

  /** The part of `handleIdeaCapture` from the processing notice on: post the request to
      /api/capture and continue with the two fields read from its data (as written or as intended), or send
      `formatErrorMessage` of the failure, a plain string. */
  method SubmitCapture(request: CaptureRequest, chatId: int, o: BotOutcomes, asWritten: bool)
    returns (calls: seq<Call>)
    requires AcceptedKind(PostCapture(request))
    ensures |calls| >= 3 && calls[0] == Send(chatId, ProcessingText) && calls[1] == PostCapture(request)
    ensures Notifies(calls[|calls| - 1], chatId) && Confined(calls, chatId)
    ensures o.captured.Err? ==>
              |calls| == 3 && calls[2] == SendError(chatId, o.captured.error.message, None, None)
    ensures o.captured.Ok? && Truthy(o.captured.value.clarifyingQuestion) ==>
              var refs := ReadRefs(o.captured.value, asWritten);
              calls[|calls| - 1] == SendQuestion(chatId, refs.processedContent, o.captured.value.clarifyingQuestion.value, refs.ideaId)
    ensures o.captured.Ok? && !Truthy(o.captured.value.clarifyingQuestion) ==>
              |calls| >= 6 && calls[4] == PostEnrich(ReadRefs(o.captured.value, asWritten).ideaId, ReadRefs(o.captured.value, asWritten).processedContent)
  {
    var posting := [Send(chatId, ProcessingText), PostCapture(request)];
    if o.captured.Err? {
      calls := posting + [SendError(chatId, o.captured.error.message, None, None)];
    } else {
      var after := AfterCapture(o.captured.value, ReadRefs(o.captured.value, asWritten), chatId, o);
      JoinedCalls(posting, after, chatId);
      calls := posting + after;
      assert calls[|calls| - 1] == after[|after| - 1];
    }
  }

  /** `handleIdeaCapture`: build the capture request, announce processing and submit it; a
      declined message gets its notice and a failure `formatErrorMessage` of the error. The bot
      only writes to this chat and never to Notion itself. */
  method HandleIdeaCapture(m: Message, o: BotOutcomes, asWritten: bool) returns (calls: seq<Call>)
    ensures |calls| >= 1 && Notifies(calls[|calls| - 1], m.chatId) && Confined(calls, m.chatId)
    ensures DetermineMessageType(m) == UnknownMessage ==> |calls| == 1 && calls[0] == Send(m.chatId, UnsupportedText)
    ensures DetermineMessageType(m) == VoiceMessage && m.voice.value.duration > 30 ==>
              |calls| == 1 && calls[0] == Send(m.chatId, Webhook.VoiceTooLongText)
    ensures DetermineMessageType(m) == TextMessage ==>
              |calls| >= 3 && calls[0] == Send(m.chatId, ProcessingText) && calls[1] == PostCapture(CaptureRequest(Some("text"), m.text, [], NoMetadata))
    ensures DetermineMessageType(m) == TextMessage && o.captured.Err? ==>
              |calls| == 3 && calls[2] == SendError(m.chatId, o.captured.error.message, None, None)
    ensures o.captured.Ok? && Truthy(o.captured.value.clarifyingQuestion) && DetermineMessageType(m) == TextMessage ==>
              var refs := ReadRefs(o.captured.value, asWritten);
              calls[|calls| - 1] == SendQuestion(m.chatId, refs.processedContent, o.captured.value.clarifyingQuestion.value, refs.ideaId)
    ensures o.captured.Ok? && !Truthy(o.captured.value.clarifyingQuestion) && DetermineMessageType(m) == TextMessage ==>
              |calls| >= 6 && calls[4] == PostEnrich(ReadRefs(o.captured.value, asWritten).ideaId, ReadRefs(o.captured.value, asWritten).processedContent)
  {
    var preparing, preparation := PrepareCapture(m, o.downloaded);
    var rest: seq<Call>;
    if preparation.Declined? {
      rest := [Send(m.chatId, preparation.notice)];
    } else if preparation.PreparationFailed? {
      rest := [SendError(m.chatId, preparation.message, None, None)];
    } else {
      rest := SubmitCapture(preparation.request, m.chatId, o, asWritten);
    }
    JoinedCalls(preparing, rest, m.chatId);
    calls := preparing + rest;
    assert calls[|calls| - 1] == rest[|rest| - 1];
    if preparing == [] {
      assert calls == rest;
    }
  }

  // ---------------------------------------------------------------------------------------------
  // handleCallbackQuery
  // ---------------------------------------------------------------------------------------------

  const ClarifyPrompt := "\U{270D}\U{FE0F} Please send me additional details about your idea:"
  const CancelledText := "\U{274C} Idea capture cancelled. Send me a new idea anytime!"
  const RetryingText := "\U{1F504} Retrying... Please wait a moment."
  const CallbackFailedText := "\U{274C} An error occurred. Please try again."
  /** The text enrichment is given after a button press: the idea's text is not looked up. */
  const PlaceholderText := "Idea content"

  /** The `switch` on the pressed button's action: ask for details, enrich the idea (skip, ok),
      acknowledge a cancel or a retry; any other action does nothing. */
  method CallbackActions(cb: CallbackData, chatId: int, o: BotOutcomes) returns (calls: seq<Call>)
    ensures cb.action == "clarify" ==> |calls| == 1 && calls[0] == Send(chatId, ClarifyPrompt)
    ensures cb.action == "skip" || cb.action == "ok" ==>
              |calls| >= 3 && calls[0] == Send(chatId, ResearchingText) && calls[1] == PostEnrich(Some(cb.ideaId), Some(PlaceholderText))
    ensures cb.action == "cancel" ==> |calls| == 1 && calls[0] == Send(chatId, CancelledText)
    ensures cb.action == "retry" ==> |calls| == 1 && calls[0] == Send(chatId, RetryingText)
    ensures cb.action != "clarify" && cb.action != "skip" && cb.action != "ok" && cb.action != "cancel" && cb.action != "retry" ==> calls == []
    ensures Confined(calls, chatId)
  {
    if cb.action == "clarify" {
      calls := [Send(chatId, ClarifyPrompt)];
    } else if cb.action == "skip" || cb.action == "ok" {
      calls := ProcessEnrichment(Some(cb.ideaId), Some(PlaceholderText), chatId, o);
    } else if cb.action == "cancel" {
      calls := [Send(chatId, CancelledText)];
    } else if cb.action == "retry" {
      calls := [Send(chatId, RetryingText)];
    } else {
      calls := [];
    }
  }

  /** `handleCallbackQuery` as written: acknowledging the query goes through `telegramClient.bot`,
      which is still null unless a message was sent first, so the call throws and the catch sends
      the generic error instead of handling the press. `chatId` is the chat of the query's
      message. */
  method HandleCallbackQueryAsWritten(q: CallbackQuery, chatId: int, client: Telegram.TelegramClient, o: BotOutcomes)
    returns (calls: seq<Call>)
    modifies client
    ensures client.botCreated
    ensures !old(client.botCreated) ==> calls == [Send(chatId, CallbackFailedText)]
    ensures old(client.botCreated) ==> |calls| >= 1 && calls[0] == AnswerCallbackQuery(q.id)
  {
    if !client.botCreated {
      var _ := client.SendMessage(Ok(Telegram.SentMessage(0)));
      return [Send(chatId, CallbackFailedText)];
    }
    var handling := CallbackActions(ParseCallbackData(q.data), chatId, o);
    calls := [AnswerCallbackQuery(q.id)] + handling;
  }

  /** On the fresh client the endpoint creates for every update, a button press, whatever its
      data, is answered only with the generic error: the query is not acknowledged and no
      enrichment starts. */
  method CallbackOnFreshClient(q: CallbackQuery, chatId: int, o: BotOutcomes) returns (calls: seq<Call>)
    ensures calls == [Send(chatId, CallbackFailedText)]
    ensures forall i :: 0 <= i < |calls| ==> !calls[i].AnswerCallbackQuery? && !calls[i].PostEnrich?
  {
    var client := new Telegram.TelegramClient(None, None);
    calls := HandleCallbackQueryAsWritten(q, chatId, client, o);
  }

  /** `handleCallbackQuery` with the bot obtained through `_getBot` before the query is
      acknowledged: acknowledge, then act on the button. */
  method HandleCallbackQuery(q: CallbackQuery, chatId: int, client: Telegram.TelegramClient, o: BotOutcomes)
    returns (calls: seq<Call>)
    modifies client
    ensures client.botCreated
    ensures |calls| >= 1 && calls[0] == AnswerCallbackQuery(q.id)
    ensures Confined(calls, chatId)
    ensures ParseCallbackData(q.data).action == "clarify" ==> |calls| == 2 && calls[1] == Send(chatId, ClarifyPrompt)
    ensures ParseCallbackData(q.data).action == "skip" || ParseCallbackData(q.data).action == "ok" ==>
              |calls| >= 4 && calls[2] == PostEnrich(Some(ParseCallbackData(q.data).ideaId), Some(PlaceholderText))
  {
    client.GetBot();
    calls := AnswerAndAct(q.id, ParseCallbackData(q.data), chatId, o);
  }

  /** The acknowledgement of a press followed by what its button does. */
  method AnswerAndAct(queryId: string, cb: CallbackData, chatId: int, o: BotOutcomes) returns (calls: seq<Call>)
    ensures |calls| >= 1 && calls[0] == AnswerCallbackQuery(queryId)
    ensures Confined(calls, chatId)
    ensures cb.action == "clarify" ==> |calls| == 2 && calls[1] == Send(chatId, ClarifyPrompt)
    ensures cb.action == "skip" || cb.action == "ok" ==>
              |calls| >= 4 && calls[2] == PostEnrich(Some(cb.ideaId), Some(PlaceholderText))
  {
    var handling := CallbackActions(cb, chatId, o);
    JoinedCalls([AnswerCallbackQuery(queryId)], handling, chatId);
    calls := [AnswerCallbackQuery(queryId)] + handling;
  }

  /** Pressing the buttons under a clarifying question: Add Details asks for the details, and
      Skip & Save enriches the idea the keyboard was built for. */
  method PressClarifyButtons(ideaId: string, chatId: int, o: BotOutcomes) returns (clarifying: seq<Call>, skipping: seq<Call>)
    ensures clarifying == [Send(chatId, ClarifyPrompt)]
    ensures |skipping| >= 3 && skipping[1] == PostEnrich(Some(ideaId), Some(PlaceholderText))
  {
    var k: Telegram.Keyboard := ClarifyKeyboard(ideaId);
    clarifying := PressButton(k[0][0], chatId, o);
    skipping := PressButton(k[0][1], chatId, o);
  }

  /** A press of a button: the actions for its decoded data. */
  method PressButton(b: Telegram.Button, chatId: int, o: BotOutcomes) returns (calls: seq<Call>)
    ensures ParseCallbackData(b.callbackData).action == "clarify" ==> calls == [Send(chatId, ClarifyPrompt)]
    ensures ParseCallbackData(b.callbackData).action == "skip" ==>
              |calls| >= 3 && calls[1] == PostEnrich(Some(ParseCallbackData(b.callbackData).ideaId), Some(PlaceholderText))
  {
    calls := CallbackActions(ParseCallbackData(b.callbackData), chatId, o);
  }

  /** The capture data of a text message whose idea was stored under `notionId`. */
  function SampleCapture(notionId: string, question: Option<string>): Capture.CaptureData
  {
    Capture.CaptureData(notionId, "An idea", "text", "Captured", NotionUrl(notionId), question, 0)
  }

  /** With the fields read as written, the buttons under the clarifying question name the idea
      'undefined' and the message shows 'undefined' as the idea; with the intended fields they
      carry the page id and the message shows the title. */
  method QuestionRefsDiscrepancy() returns (asWrittenId: string, intendedId: string, asWrittenText: string, intendedText: string)
    ensures asWrittenId == "undefined" && intendedId == "page-1"
    ensures Text.StartsWith(asWrittenText, QuestionHead + "undefined" + QuestionMiddle)
    ensures Text.StartsWith(intendedText, QuestionHead + "An idea" + QuestionMiddle)
  {
    var m := Message(7, 8, Some("An idea"), None, None, None, None);
    var o := BotOutcomes(Err(Fail("unused")), 1, Ok(SampleCapture("page-1", Some("Who is it for?"))), 2, Err(Fail("unused")));
    assert DetermineMessageType(m) == TextMessage && Truthy(o.captured.value.clarifyingQuestion);
    var asWritten := HandleIdeaCapture(m, o, true);
    var intended := HandleIdeaCapture(m, o, false);
    // The keyboard is `ClarifyKeyboard` of the rendered id, whose buttons decode to that id.
    var asked, answered := asWritten[|asWritten| - 1], intended[|intended| - 1];
    asWrittenId := Render(asked.ideaId);
    intendedId := Render(answered.ideaId);
    asWrittenText := QuestionText(asked.shownIdea, asked.question);
    intendedText := QuestionText(answered.shownIdea, answered.question);
  }

  /** With the fields read as written and no clarifying question, enrichment is posted without an
      id or text, which /api/enrich-lite rejects with 400; with the intended fields the same post
      is accepted. */
  method EnrichRefsDiscrepancy() returns (asWrittenStatus: int, intendedStatus: int)
    ensures asWrittenStatus == 400 && intendedStatus == 200
  {
    var m := Message(7, 8, Some("An idea"), None, None, None, None);
    var o := BotOutcomes(Err(Fail("unused")), 1, Ok(SampleCapture("page-1", None)), 2, Err(Fail("unused")));
    var asWrittenPost := HandleIdeaCapture(m, o, true);
    var intendedPost := HandleIdeaCapture(m, o, false);
    var p1, p2 := asWrittenPost[4], intendedPost[4];
    var verdict := OpenAI.CategoryVerdict("Business", 0.5, "");
    var enrichment := OpenAI.Enrichment("", [], "", "", [], "", verdict, "", "");
    var _, r1 := EnrichLite.HandleEnrich("POST", [], EnrichLite.EnrichRequest(p1.ideaId, p1.ideaText, false),
                                         Ok([]), Ok(OpenAI.EnrichResult(enrichment, 0.0, 0)), Ok(()));
    var _, r2 := EnrichLite.HandleEnrich("POST", [], EnrichLite.EnrichRequest(p2.ideaId, p2.ideaText, false),
                                         Ok([]), Ok(OpenAI.EnrichResult(enrichment, 0.0, 0)), Ok(()));
    asWrittenStatus, intendedStatus := r1.status, r2.status;
  }

  // ---------------------------------------------------------------------------------------------
  // The endpoint
  // ---------------------------------------------------------------------------------------------

  /** The endpoint: validate, then route a callback query to the corrected callback handler and a
      message to the command handler or to capture. The catch block answers 500 without telling
      the user; it is reached by a missing environment variable and by a callback query without
      its message. `token` and `adminUserId` are the client's environment. */
  method HandleTelegramUpdate(verb: string, missingEnv: seq<string>, update: Option<Update>,
                              token: Option<string>, adminUserId: Option<string>,
                              stats: Outcome<Notion.IdeaStats>, o: BotOutcomes)
    returns (calls: seq<Call>, resp: Response<TelegramReply>)
    ensures verb == "OPTIONS" ==> calls == [] && resp == Response(200, NoContent)
    ensures verb != "OPTIONS" && verb != "POST" ==> calls == [] && resp == Response(405, Reply(ErrorReply("Method not allowed", None)))
    ensures verb == "POST" && missingEnv != [] ==> calls == [] && resp == Response(500, Reply(ErrorReply("Internal server error", None)))
    ensures verb == "POST" && missingEnv == [] && !IsValidTelegramUpdate(update) ==>
              calls == [] && resp == Response(400, Reply(ErrorReply("Invalid Telegram update", None)))
    ensures verb == "POST" && missingEnv == [] && IsValidTelegramUpdate(update) && update.value.callbackQuery.Some? ==>
              var q := update.value.callbackQuery.value;
              && (q.message.None? ==> calls == [] && resp == Response(500, Reply(ErrorReply("Internal server error", None))))
              && (q.message.Some? ==> resp == Response(200, Reply(OkReply)) && |calls| >= 1 && calls[0] == AnswerCallbackQuery(q.id)
                                      && Confined(calls, q.message.value.chatId))
    ensures verb == "POST" && missingEnv == [] && IsValidTelegramUpdate(update) && update.value.callbackQuery.None? ==>
              var m := update.value.message.value;
              && resp == Response(200, Reply(OkReply))
              && (!Webhook.IsCommand(m) ==> |calls| >= 1 && Notifies(calls[|calls| - 1], m.chatId) && Confined(calls, m.chatId))
    ensures NoNotionWrite(calls)
  {
    calls := [];
    if verb == "OPTIONS" {
      return calls, Response(200, NoContent);
    }
    if verb != "POST" {
      return calls, Response(405, Reply(ErrorReply("Method not allowed", None)));
    }
    if missingEnv != [] {
      return calls, Response(500, Reply(ErrorReply("Internal server error", None)));
    }
    if !IsValidTelegramUpdate(update) {
      return calls, Response(400, Reply(ErrorReply("Invalid Telegram update", None)));
    }
    var client := new Telegram.TelegramClient(token, adminUserId);
    if update.value.callbackQuery.Some? {
      var q := update.value.callbackQuery.value;
      if q.message.None? {
        // Reading `callbackQuery.message.chat.id` throws before the handler's own try.
        return calls, Response(500, Reply(ErrorReply("Internal server error", None)));
      }
      calls := HandleCallbackQuery(q, q.message.value.chatId, client, o);
      ConfinedWritesNothing(calls, q.message.value.chatId);
      return calls, Response(200, Reply(OkReply));
    }
    var m := update.value.message.value;
    if Webhook.IsCommand(m) {
      calls := Webhook.HandleCommand(m, client, stats);
    } else {
      calls := HandleIdeaCapture(m, o, false);
      ConfinedWritesNothing(calls, m.chatId);
    }
    resp := Response(200, Reply(OkReply));
  }
}

=== FILE: text.dfy ===
/** String helpers with JavaScript's meaning: the whitespace set of `\s` and `trim`, ASCII case
    folding for `toLowerCase`, prefixes, infixes, `split`/`join` on a literal separator and the
    decimal rendering of `Number.prototype.toString`. Strings are sequences of characters. */
module Text {

  /** JavaScript's WhiteSpace and LineTerminator code points: the set matched by `\s` and removed
      by `String.prototype.trim`. */
  predicate IsSpace(c: char)
  {
    || c == ' ' || c == '\t' || c == '\n' || c == '\U{B}' || c == '\U{C}' || c == '\r'
    || c == '\U{A0}' || c == '\U{1680}' || ('\U{2000}' <= c <= '\U{200A}')
    || c == '\U{2028}' || c == '\U{2029}' || c == '\U{202F}' || c == '\U{205F}'
    || c == '\U{3000}' || c == '\U{FEFF}'
  }

  /** The class `[\x00-\x1F\x7F]`. */
  predicate IsControl(c: char)
  {
    c <= '\U{1F}' || c == '\U{7F}'
  }

  /** `\w`: ASCII letters, digits and '_'. */
  predicate IsWordChar(c: char)
  {
    ('a' <= c <= 'z') || ('A' <= c <= 'Z') || ('0' <= c <= '9') || c == '_'
  }

  function LowerChar(c: char): char
  {
    if 'A' <= c <= 'Z' then (c as int + 32) as char else c
  }

  /** `toLowerCase`, folded on ASCII letters only. */
  function ToLower(s: string): (r: string)
    ensures |r| == |s|
    ensures forall i :: 0 <= i < |s| ==> r[i] == LowerChar(s[i])
  {
    seq(|s|, i requires 0 <= i < |s| => LowerChar(s[i]))
  }

  function TrimStart(s: string): (r: string)
    ensures |r| <= |s|
    ensures r != [] ==> !IsSpace(r[0])
    decreases |s|
  {
    if |s| > 0 && IsSpace(s[0]) then TrimStart(s[1..]) else s
  }

  /** `TrimStart` keeps a suffix and what it removes is whitespace. */
  lemma {:induction false} TrimStartSpaces(s: string)
    ensures TrimStart(s) == s[|s| - |TrimStart(s)|..]
    ensures forall i :: 0 <= i < |s| - |TrimStart(s)| ==> IsSpace(s[i])
    decreases |s|
  {
    if |s| > 0 && IsSpace(s[0]) {
      TrimStartSpaces(s[1..]);
      assert s[1..][|s| - 1 - |TrimStart(s)|..] == s[|s| - |TrimStart(s)|..];
    }
  }

  function TrimEnd(s: string): (r: string)
    ensures |r| <= |s|
    ensures r != [] ==> !IsSpace(r[|r| - 1])
    decreases |s|
  {
    if |s| > 0 && IsSpace(s[|s| - 1]) then TrimEnd(s[..|s| - 1]) else s
  }

  /** `TrimEnd` keeps a prefix and what it removes is whitespace. */
  lemma {:induction false} TrimEndSpaces(s: string)
    ensures TrimEnd(s) == s[..|TrimEnd(s)|]
    ensures forall i :: |TrimEnd(s)| <= i < |s| ==> IsSpace(s[i])
    decreases |s|
  {
    if |s| > 0 && IsSpace(s[|s| - 1]) {
      TrimEndSpaces(s[..|s| - 1]);
      assert s[..|s| - 1][..|TrimEnd(s)|] == s[..|TrimEnd(s)|];
    }
  }

  /** `s` is `r` with whitespace only around it: `r` starts at position `a` of `s`. */
  predicate TrimmedFrom(s: string, r: string, a: int)
  {
    && 0 <= a && a + |r| <= |s| && s[a..a + |r|] == r
    && (forall i :: 0 <= i < a ==> IsSpace(s[i]))
    && (forall i :: a + |r| <= i < |s| ==> IsSpace(s[i]))
  }

  /** `String.prototype.trim`: the middle of `s` between its leading and trailing whitespace. */
  function Trim(s: string): (r: string)
    ensures |r| <= |s|
    ensures r != [] ==> !IsSpace(r[0]) && !IsSpace(r[|r| - 1])
  {
    var t := TrimStart(s);
    TrimEndSpaces(t);
    TrimEnd(t)
  }

  /** `Trim(s)` is a slice of `s` with whitespace only around it. */
  lemma TrimKeepsMiddle(s: string)
    ensures exists a :: TrimmedFrom(s, Trim(s), a)
  {
    var t := TrimStart(s);
    TrimStartSpaces(s);
    TrimEndSpaces(t);
    TrimParts(s, t, TrimEnd(t));
    assert TrimmedFrom(s, Trim(s), |s| - |t|);
  }

  /** Whitespace removed from the front of `s` and then from the back of the rest leaves `r`
      with whitespace only around it. */
  lemma TrimParts(s: string, t: string, r: string)
    requires |t| <= |s| && t == s[|s| - |t|..]
    requires forall i :: 0 <= i < |s| - |t| ==> IsSpace(s[i])
    requires |r| <= |t| && r == t[..|r|]
    requires forall i :: |r| <= i < |t| ==> IsSpace(t[i])
    ensures TrimmedFrom(s, r, |s| - |t|)
  {
    var a := |s| - |t|;
    forall i | a + |r| <= i < |s| ensures IsSpace(s[i]) {
      assert s[i] == t[i - a];
    }
    assert s[a..a + |r|] == s[a..][..|r|];
  }

  /** Trimming removes whitespace only: text with a non-space character keeps one. */
  lemma TrimKeepsNonSpace(s: string, i: nat)
    requires i < |s| && !IsSpace(s[i])
    ensures Trim(s) != []
  {
    TrimKeepsMiddle(s);
    var a :| TrimmedFrom(s, Trim(s), a);
  }

  /** Text that neither starts nor ends with whitespace is its own trim. */
  lemma TrimNoSpace(s: string)
    requires s != [] ==> !IsSpace(s[0]) && !IsSpace(s[|s| - 1])
    ensures Trim(s) == s
  {
    if s != [] {
      assert TrimStart(s) == s;
    } else {
      assert |Trim(s)| <= 0;
    }
  }

  /** Trimming twice is trimming once. */
  lemma TrimIdempotent(s: string)
    ensures Trim(Trim(s)) == Trim(s)
  {
    TrimNoSpace(Trim(s));
  }

  /** Trimming only removes characters. */
  lemma TrimChars(s: string)
    ensures forall c :: c in Trim(s) ==> c in s
  {
    var t := TrimStart(s);
    TrimStartSpaces(s);
    TrimEndSpaces(t);
  }

  predicate StartsWith(s: string, prefix: string)
  {
    |prefix| <= |s| && s[..|prefix|] == prefix
  }

  /** `s.includes(p)`. */
  predicate Contains(s: string, p: string)
    decreases |s|
  {
    StartsWith(s, p) || (|s| > 0 && Contains(s[1..], p))
  }

  /** `p` occurs in `s` at position `j`. */
  predicate OccursAt(s: string, p: string, j: int)
  {
    0 <= j && j + |p| <= |s| && s[j..j + |p|] == p
  }

  /** `s.includes(p)` holds exactly when `p` occurs at some position of `s`. */
  lemma {:induction false} ContainsAt(s: string, p: string)
    ensures Contains(s, p) <==> exists j :: OccursAt(s, p, j)
    decreases |s|
  {
    if StartsWith(s, p) {
      assert OccursAt(s, p, 0);
    } else if |s| > 0 {
      ContainsAt(s[1..], p);
      forall j | OccursAt(s[1..], p, j) ensures OccursAt(s, p, j + 1) {
        assert s[j + 1..j + 1 + |p|] == s[1..][j..j + |p|];
      }
      forall j | OccursAt(s, p, j) ensures OccursAt(s[1..], p, j - 1) {
        assert s[1..][j - 1..j - 1 + |p|] == s[j..j + |p|];
      }
    }
  }

  /** A string occurs in any text that has it between two others. */
  lemma ContainsInfix(a: string, p: string, b: string)
    ensures Contains(a + p + b, p)
  {
    var s := a + p + b;
    assert s[|a|..|a| + |p|] == p;
    assert OccursAt(s, p, |a|);
    ContainsAt(s, p);
  }

  /** Position of the first occurrence of `sep` in `s`, or |s| when there is none. */
  function Find(s: string, sep: string): (i: nat)
    requires |sep| > 0
    ensures i <= |s|
    ensures i < |s| ==> i + |sep| <= |s| && StartsWith(s[i..], sep)
    ensures forall j :: 0 <= j < i ==> !StartsWith(s[j..], sep)
    decreases |s|
  {
    if |s| < |sep| then
      assert forall j :: 0 <= j < |s| ==> |s[j..]| < |sep|;
      |s|
    else if StartsWith(s, sep) then 0
    else
      var k := Find(s[1..], sep);
      assert forall j :: 1 <= j < k + 1 ==> s[j..] == s[1..][j - 1..];
      k + 1
  }

  /** `s.split(sep)` for a non-empty literal separator: no part contains the separator. */
  function Split(s: string, sep: string): (parts: seq<string>)
    requires |sep| > 0
    ensures |parts| >= 1
    ensures forall k :: 0 <= k < |parts| ==> !Contains(parts[k], sep)
    decreases |s|
  {
    var i := Find(s, sep);
    NotBeforeFind(s, sep, i);
    if i == |s| then
      assert s[..i] == s;
      [s]
    else
      var rest := Split(s[i + |sep|..], sep);
      ConsNoSeparator(s[..i], rest, sep);
      [s[..i]] + rest
  }

  /** The text before the first separator does not contain it. */
  lemma NotBeforeFind(s: string, sep: string, i: nat)
    requires |sep| > 0 && i <= |s|
    requires forall j :: 0 <= j < i ==> !StartsWith(s[j..], sep)
    ensures !Contains(s[..i], sep)
  {
    var t := s[..i];
    forall j | 0 <= j < i ensures !OccursAt(t, sep, j) {
      if j + |sep| <= i {
        assert !StartsWith(s[j..], sep);
        assert t[j..j + |sep|] == s[j..][..|sep|];
      }
    }
    ContainsAt(t, sep);
  }

  lemma ConsNoSeparator(head: string, rest: seq<string>, sep: string)
    requires !Contains(head, sep)
    requires forall k :: 0 <= k < |rest| ==> !Contains(rest[k], sep)
    ensures forall k :: 0 <= k < |[head] + rest| ==> !Contains(([head] + rest)[k], sep)
  {
    forall k | 0 < k < |[head] + rest| ensures !Contains(([head] + rest)[k], sep) {
      assert ([head] + rest)[k] == rest[k - 1];
    }
  }

  /** `parts.join(sep)`. */
  function Join(parts: seq<string>, sep: string): string
  {
    if |parts| == 0 then ""
    else if |parts| == 1 then parts[0]
    else parts[0] + sep + Join(parts[1..], sep)
  }

  /** Splitting and joining again on the same separator gives back the string. */
  lemma {:induction false} JoinSplit(s: string, sep: string)
    requires |sep| > 0
    ensures Join(Split(s, sep), sep) == s
    decreases |s|
  {
    var i := Find(s, sep);
    if i < |s| {
      var rest := s[i + |sep|..];
      var parts := Split(rest, sep);
      assert Split(s, sep) == [s[..i]] + parts;
      JoinSplit(rest, sep);
      assert Join(Split(s, sep), sep) == s[..i] + sep + Join(parts, sep);
      assert s[i..][..|sep|] == sep;
      assert s == s[..i] + s[i..][..|sep|] + rest;
    }
  }

  /** `split(sep).slice(1).join(sep)` is what follows the first separator, or "" without one. */
  lemma JoinSplitTail(s: string, sep: string)
    requires |sep| > 0
    ensures Find(s, sep) == |s| ==> Join(Split(s, sep)[1..], sep) == ""
    ensures Find(s, sep) < |s| ==> Join(Split(s, sep)[1..], sep) == s[Find(s, sep) + |sep|..]
  {
    var i := Find(s, sep);
    if i < |s| {
      var rest := s[i + |sep|..];
      assert Split(s, sep) == [s[..i]] + Split(rest, sep);
      JoinSplit(rest, sep);
    }
  }

  /** Concatenation of a sequence of strings. */
  function Concat(parts: seq<string>): string
  {
    if |parts| == 0 then "" else parts[0] + Concat(parts[1..])
  }

  function DigitChar(d: nat): char
    requires d < 10
  {
    ('0' as int + d) as char
  }

  /** Decimal digits of a natural number, most significant first. */
  function NatToString(n: nat): (r: string)
    ensures |r| >= 1
    ensures n < 10 <==> |r| == 1
    ensures forall k :: 0 <= k < |r| ==> '0' <= r[k] <= '9'
  {
    if n < 10 then [DigitChar(n)] else NatToString(n / 10) + [DigitChar(n % 10)]
  }

  /** `Number.prototype.toString` on an integer. */
  function IntToString(i: int): (r: string)
    ensures |r| >= 1
  {
    if i < 0 then "-" + NatToString(-i) else NatToString(i)
  }

  lemma {:induction false} NatToStringInjective(a: nat, b: nat)
    requires NatToString(a) == NatToString(b)
    ensures a == b
    decreases a
  {
    var sa, sb := NatToString(a), NatToString(b);
    if a >= 10 {
      assert b >= 10;
      assert sa[|sa| - 1] == DigitChar(a % 10) && sb[|sb| - 1] == DigitChar(b % 10);
      assert NatToString(a / 10) == sa[..|sa| - 1] == sb[..|sb| - 1] == NatToString(b / 10);
      NatToStringInjective(a / 10, b / 10);
    }
  }

  /** Two integers print alike exactly when they are equal. */
  lemma IntToStringInjective(a: int, b: int)
    ensures IntToString(a) == IntToString(b) <==> a == b
  {
    if IntToString(a) == IntToString(b) {
      var s := IntToString(a);
      if a < 0 && b < 0 {
        assert NatToString(-a) == s[1..] == NatToString(-b);
        NatToStringInjective(-a, -b);
      } else if a >= 0 && b >= 0 {
        NatToStringInjective(a, b);
      } else {
        IntToStringSign(a);
        IntToStringSign(b);
        assert false;
      }
    }
  }

  /** Only negative numbers print with a leading '-'. */
  lemma IntToStringSign(i: int)
    ensures IntToString(i)[0] == '-' <==> i < 0
  {
    if i >= 0 {
      var r := NatToString(i);
      assert '0' <= r[0] <= '9';
    }
  }
}

=== FILE: utils.dfy ===
/** lib/utils.js: input sanitising, truncation, callback data, message typing, URL extraction,
    slugs, redaction, the response envelopes and the generic retry loop. */
module Utils {
  import opened Wrappers
  import opened Text

  // ---------------------------------------------------------------------------------------------
  // Telegram update shapes read by the helpers and the handlers
  // ---------------------------------------------------------------------------------------------

  datatype Voice = Voice(fileId: string, duration: int, fileSize: Option<int>)
  datatype PhotoSize = PhotoSize(fileId: string, fileSize: Option<int>)
  datatype Document = Document(fileId: string, fileName: Option<string>, fileSize: Option<int>)

  /** A Telegram message: `photo` is an array (truthy even when empty), `text` and `caption`
      are strings (falsy when empty). */
  datatype Message = Message(
    chatId: int,
    fromId: int,
    text: Option<string>,
    caption: Option<string>,
    voice: Option<Voice>,
    document: Option<Document>,
    photo: Option<seq<PhotoSize>>)

  // ---------------------------------------------------------------------------------------------
  // HTTP response envelopes
  // ---------------------------------------------------------------------------------------------

  /** A JSON body: the `{success: true, data}` envelope, the `{success: false, error: {message,
      code}}` envelope, a bare JSON reply (the Telegram webhooks' `{ok: true}`), or no body. */
  datatype Body<D> = NoContent | Success(data: D) | Error(message: string, code: int) | Reply(reply: D)

  datatype Response<D> = Response(status: int, body: Body<D>)

  /** `createErrorResponse(error, code)`: the error's message, or 'Unknown error' when empty. */
  function CreateErrorResponse<D>(message: string, code: int): (r: Body<D>)
    ensures r.Error? && r.code == code
    ensures message != "" ==> r.message == message
    ensures message == "" ==> r.message == "Unknown error"
  {
    Error(if message == "" then "Unknown error" else message, code)
  }

  /** The error response most handlers send: status and envelope code agree. */
  function ErrorResponse<D>(message: string, code: int): Response<D>
  {
    Response(code, CreateErrorResponse(message, code))
  }

  // ---------------------------------------------------------------------------------------------
  // sanitizeInput
  // ---------------------------------------------------------------------------------------------

  const MaxInputLength := 10000

  /** `replace(/[\x00-\x1F\x7F]/g, '')`: text without control characters is kept, text of control
      characters only disappears, and with `RemoveControlsAppend` this fixes the result as the
      non-control characters of `s` in their order. */
  function RemoveControls(s: string): (r: string)
    ensures |r| <= |s|
    ensures forall i :: 0 <= i < |r| ==> !IsControl(r[i])
    ensures (forall i :: 0 <= i < |s| ==> !IsControl(s[i])) ==> r == s
    ensures (forall i :: 0 <= i < |s| ==> IsControl(s[i])) ==> r == []
  {
    if s == [] then []
    else if IsControl(s[0]) then RemoveControls(s[1..])
    else [s[0]] + RemoveControls(s[1..])
  }

  /** Control characters are deleted one by one: deleting them from a concatenation deletes them
      from each part. */
  lemma {:induction false} RemoveControlsAppend(a: string, b: string)
    ensures RemoveControls(a + b) == RemoveControls(a) + RemoveControls(b)
    decreases |a|
  {
    if a == [] {
      assert a + b == b;
    } else {
      assert (a + b)[1..] == a[1..] + b;
      RemoveControlsAppend(a[1..], b);
    }
  }

  /** `sanitizeInput` on a string: trim, delete control characters, keep at most 10000. */
  function SanitizeInput(input: string): (r: string)
    ensures |r| <= MaxInputLength
    ensures forall i :: 0 <= i < |r| ==> !IsControl(r[i])
    ensures StartsWith(RemoveControls(Trim(input)), r)
    ensures |r| == if |RemoveControls(Trim(input))| < MaxInputLength
                   then |RemoveControls(Trim(input))| else MaxInputLength
  {
    var cleaned := RemoveControls(Trim(input));
    if |cleaned| <= MaxInputLength then cleaned else cleaned[..MaxInputLength]
  }

  /** Text that is already trimmed, free of control characters and short enough is kept as is. */
  lemma SanitizeKeepsCleanInput(s: string)
    requires Trim(s) == s && |s| <= MaxInputLength
    requires forall i :: 0 <= i < |s| ==> !IsControl(s[i])
    ensures SanitizeInput(s) == s
  {
  }

  /** Control characters are deleted after trimming, so whitespace they hid survives at the
      edges: a control character in front of text that starts with whitespace (as in "\u0001 a")
      sanitises to that text, leading whitespace included. This is why api/categories.js trims
      the sanitised name once more. */
  lemma SanitizeCanLeaveLeadingSpace(c: char, rest: string)
    requires IsControl(c) && !IsSpace(c)
    requires rest != [] && IsSpace(rest[0]) && !IsSpace(rest[|rest| - 1]) && |rest| < MaxInputLength
    requires forall i :: 0 <= i < |rest| ==> !IsControl(rest[i])
    ensures SanitizeInput([c] + rest) == rest
    ensures IsSpace(SanitizeInput([c] + rest)[0])
  {
    var s := [c] + rest;
    assert Trim(s) == s by {
      TrimNoSpace(s);
    }
    assert RemoveControls(s) == rest by {
      assert s[1..] == rest;
    }
  }

  // ---------------------------------------------------------------------------------------------
  // truncateWithEllipsis
  // ---------------------------------------------------------------------------------------------

  /** `truncateWithEllipsis(text, maxLength)`: empty or short text is returned unchanged;
      longer text keeps `substring(0, maxLength - 3)` (a negative end counts as 0) plus "...". */
  function TruncateWithEllipsis(text: string, maxLength: int): (r: string)
    ensures text == "" || |text| <= maxLength ==> r == text
    ensures text != "" && |text| > maxLength && maxLength >= 3 ==>
              |r| == maxLength && r[..maxLength - 3] == text[..maxLength - 3] && r[maxLength - 3..] == "..."
    ensures text != "" && |text| > maxLength && maxLength < 3 ==> r == "..."
  {
    if text == "" || |text| <= maxLength then text
    else text[..if maxLength - 3 < 0 then 0 else maxLength - 3] + "..."
  }

  /** A truncated title never exceeds its bound (for bounds of at least 3). */
  lemma TruncateWithEllipsisBound(text: string, maxLength: int)
    requires maxLength >= 3
    ensures |TruncateWithEllipsis(text, maxLength)| <= maxLength
    ensures |TruncateWithEllipsis(text, maxLength)| < |text| <==> |text| > maxLength
  {
  }

  // ---------------------------------------------------------------------------------------------
  // parseCallbackData / createCallbackData
  // ---------------------------------------------------------------------------------------------

  datatype CallbackData = CallbackData(action: string, ideaId: string)

  /** `createCallbackData(action, ideaId)`: `${action}_${ideaId}`. */
  function CreateCallbackData(action: string, ideaId: string): string
  {
    action + "_" + ideaId
  }

  /** `parseCallbackData`: `parts[0]` of `split('_')` and the rest joined with '_', i.e. the text
      before the first '_' and the text after it. */
  function ParseCallbackData(data: string): (r: CallbackData)
    ensures '_' !in r.action
    ensures '_' in data ==> data == r.action + "_" + r.ideaId
    ensures '_' !in data ==> r == CallbackData(data, "")
  {
    var parts := Split(data, "_");
    SplitAtFirst(data, '_');
    CallbackData(parts[0], Join(parts[1..], "_"))
  }

  /** Splitting on a one-character separator: the first part is what precedes the first
      occurrence, and the rest re-joined is what follows it. */
  lemma SplitAtFirst(s: string, c: char)
    ensures c !in Split(s, [c])[0]
    ensures c in s ==> s == Split(s, [c])[0] + [c] + Join(Split(s, [c])[1..], [c])
    ensures c !in s ==> Split(s, [c]) == [s]
  {
    if Find(s, [c]) == |s| {
      SplitWithoutSeparator(s, c);
    } else {
      SplitAtSeparator(s, c);
    }
  }

  /** The character does not occur before the position `Find` reports, and occurs there when
      that position is inside the text. */
  lemma FirstOccurrence(s: string, c: char)
    ensures var i := Find(s, [c]); c !in s[..i] && (i < |s| ==> s[i] == c)
  {
    var i := Find(s, [c]);
    forall j | 0 <= j < i ensures s[..i][j] != c {
      assert !StartsWith(s[j..], [c]);
    }
    if i < |s| {
      assert StartsWith(s[i..], [c]);
    }
  }

  /** Without the separator, the text is its only part. */
  lemma SplitWithoutSeparator(s: string, c: char)
    requires Find(s, [c]) == |s|
    ensures c !in s && Split(s, [c]) == [s]
  {
    FirstOccurrence(s, c);
    assert s[..|s|] == s;
  }

  /** With the separator, the first part precedes its first occurrence and the others re-joined
      follow it. */
  lemma SplitAtSeparator(s: string, c: char)
    requires Find(s, [c]) < |s|
    ensures var i := Find(s, [c]);
            && c in s && Split(s, [c])[0] == s[..i] && c !in s[..i]
            && s == Split(s, [c])[0] + [c] + Join(Split(s, [c])[1..], [c])
  {
    var i := Find(s, [c]);
    FirstOccurrence(s, c);
    JoinSplitTail(s, [c]);
    AroundIndex(s, i);
  }

  /** A text is what precedes an index, the character there and what follows. */
  lemma AroundIndex(s: string, i: nat)
    requires i < |s|
    ensures s == s[..i] + [s[i]] + s[i + 1..]
  {
    assert s[..i] + [s[i]] == s[..i + 1];
  }

  /** The round trip: data built from an action without '_' parses back to that action and the
      full idea id, whatever the id contains. */
  lemma {:induction false} ParseCreateCallbackData(action: string, ideaId: string)
    requires '_' !in action
    ensures ParseCallbackData(CreateCallbackData(action, ideaId)) == CallbackData(action, ideaId)
  {
    var data := CreateCallbackData(action, ideaId);
    var i := Find(data, "_");
    assert StartsWith(data[|action|..], "_");
    forall j | 0 <= j < |action| ensures !StartsWith(data[j..], "_") {
      assert data[j] == action[j];
    }
    assert i == |action|;
    assert data[..i] == action && data[i + 1..] == ideaId;
    JoinSplitTail(data, "_");
  }

  // ---------------------------------------------------------------------------------------------
  // determineMessageType
  // ---------------------------------------------------------------------------------------------

  /** The kinds of message `determineMessageType` tells apart. */
  datatype MessageType = VoiceMessage | DocumentMessage | PhotoMessage | TextMessage | UnknownMessage
  {
    /** The string `determineMessageType` returns for the kind. */
    function Name(): (name: string)
      ensures name != ""
    {
      match this
      case VoiceMessage => "voice"
      case DocumentMessage => "document"
      case PhotoMessage => "photo"
      case TextMessage => "text"
      case UnknownMessage => "unknown"
    }
  }

  /** `determineMessageType`: voice, then document, then photo, then (non-empty) text. */
  function DetermineMessageType(msg: Message): (r: MessageType)
    ensures r.VoiceMessage? <==> msg.voice.Some?
    ensures r.DocumentMessage? <==> msg.voice.None? && msg.document.Some?
    ensures r.PhotoMessage? <==> msg.voice.None? && msg.document.None? && msg.photo.Some?
    ensures r.TextMessage? <==> msg.voice.None? && msg.document.None? && msg.photo.None? && Truthy(msg.text)
    ensures r.UnknownMessage? <==> msg.voice.None? && msg.document.None? && msg.photo.None? && !Truthy(msg.text)
  {
    if msg.voice.Some? then VoiceMessage
    else if msg.document.Some? then DocumentMessage
    else if msg.photo.Some? then PhotoMessage
    else if Truthy(msg.text) then TextMessage
    else UnknownMessage
  }

  // ---------------------------------------------------------------------------------------------
  // extractUrls
  // ---------------------------------------------------------------------------------------------

  /** Length of the longest prefix of `s` free of whitespace. */
  function NonSpaceRun(s: string): (n: nat)
    ensures n <= |s|
    ensures forall i :: 0 <= i < n ==> !IsSpace(s[i])
    ensures n < |s| ==> IsSpace(s[n])
  {
    if s == [] || IsSpace(s[0]) then 0 else 1 + NonSpaceRun(s[1..])
  }

  /** Length of the match of `/https?:\/\/[^\s]+/` at the start of `s`, or 0 when none. */
  function UrlMatchAt(s: string): (n: nat)
    ensures n <= |s|
    ensures n > 0 ==> (StartsWith(s, "http://") && n > 7) || (StartsWith(s, "https://") && n > 8)
  {
    var run := NonSpaceRun(s);
    if (StartsWith(s, "http://") && run > 7) || (StartsWith(s, "https://") && run > 8) then run else 0
  }

  /** `text.match(/(https?:\/\/[^\s]+)/g) || []`: matches left to right, each resuming where the
      previous one ended. */
  function ExtractUrls(text: string): (urls: seq<string>)
    decreases |text|
  {
    if text == [] then []
    else
      var n := UrlMatchAt(text);
      if n > 0 then [text[..n]] + ExtractUrls(text[n..]) else ExtractUrls(text[1..])
  }

  /** A string that looks like a URL in the sense of `extractUrls`. */
  predicate IsHttpUrl(u: string)
  {
    && ((StartsWith(u, "http://") && |u| > 7) || (StartsWith(u, "https://") && |u| > 8))
    && forall i :: 0 <= i < |u| ==> !IsSpace(u[i])
  }

  /** Every extracted URL starts with "http://" or "https://", has something after the scheme,
      contains no whitespace, and occurs in the text. */
  lemma {:induction false} ExtractUrlsShape(text: string)
    ensures forall k :: 0 <= k < |ExtractUrls(text)| ==>
              IsHttpUrl(ExtractUrls(text)[k]) && Contains(text, ExtractUrls(text)[k])
    decreases |text|
  {
    if text != [] {
      var n := UrlMatchAt(text);
      if n > 0 {
        ExtractUrlsShape(text[n..]);
        var rest := ExtractUrls(text[n..]);
        assert ExtractUrls(text) == [text[..n]] + rest;
        assert StartsWith(text, text[..n]);
        forall k | 0 <= k < |rest| ensures Contains(text, rest[k]) {
          ContainsSuffix(text, n, rest[k]);
        }
      } else {
        ExtractUrlsShape(text[1..]);
        var rest := ExtractUrls(text[1..]);
        forall k | 0 <= k < |rest| ensures Contains(text, rest[k]) {
          ContainsSuffix(text, 1, rest[k]);
        }
      }
    }
  }

  /** Each of `urls` is the whole match of `matchAt` at its position in `starts`, and they follow
      one another in the text without overlapping. */
  predicate MatchesAt(text: string, urls: seq<string>, starts: seq<nat>, matchAt: string -> nat)
  {
    && |starts| == |urls|
    && (forall k :: 0 <= k < |urls| ==>
          && starts[k] + |urls[k]| <= |text|
          && urls[k] == text[starts[k]..starts[k] + |urls[k]|]
          && |urls[k]| == matchAt(text[starts[k]..]) > 0)
    && (forall k :: 0 < k < |urls| ==> starts[k - 1] + |urls[k - 1]| <= starts[k])
  }

  /** Position `j` lies inside one of the matches. */
  predicate Covered(urls: seq<string>, starts: seq<nat>, j: int)
    requires |starts| == |urls|
  {
    exists k :: 0 <= k < |urls| && starts[k] <= j < starts[k] + |urls[k]|
  }

  /** No position where `matchAt` matches is left outside the matches. */
  predicate NoneSkipped(text: string, urls: seq<string>, starts: seq<nat>, matchAt: string -> nat)
    requires |starts| == |urls|
  {
    forall j :: 0 <= j < |text| && matchAt(text[j..]) > 0 ==> Covered(urls, starts, j)
  }

  function Shift(starts: seq<nat>, d: nat): (r: seq<nat>)
    ensures |r| == |starts| && forall k :: 0 <= k < |r| ==> r[k] == starts[k] + d
  {
    seq(|starts|, k requires 0 <= k < |starts| => starts[k] + d)
  }

  /** The URLs of a text are its matches in order of appearance, each the whole match of the
      pattern at its position, and no match that starts outside them is missed: the global
      `match` scans left to right and resumes after each match. */
  lemma {:induction false} ExtractUrlsInOrder(text: string)
    ensures exists starts :: MatchesAt(text, ExtractUrls(text), starts, UrlMatchAt)
                          && NoneSkipped(text, ExtractUrls(text), starts, UrlMatchAt)
    decreases |text|
  {
    if text == [] {
      assert ExtractUrls(text) == [];
      assert MatchesAt(text, [], [], UrlMatchAt) && NoneSkipped(text, [], [], UrlMatchAt);
    } else {
      var n := UrlMatchAt(text);
      var d := if n > 0 then n else 1;
      var tail := text[d..];
      ExtractUrlsInOrder(tail);
      var rest := ExtractUrls(tail);
      var st :| MatchesAt(tail, rest, st, UrlMatchAt) && NoneSkipped(tail, rest, st, UrlMatchAt);
      if n > 0 {
        assert ExtractUrls(text) == [text[..n]] + rest;
        MatchesAfterMatch(text, n, rest, st, UrlMatchAt);
      } else {
        assert ExtractUrls(text) == rest;
        MatchesAfterSkip(text, rest, st, UrlMatchAt);
      }
    }
  }

  /** Matches found in a suffix starting at `d` are matches of the whole text, `d` further on. */
  lemma ShiftedMatches(text: string, d: nat, urls: seq<string>, st: seq<nat>, matchAt: string -> nat)
    requires d <= |text| && MatchesAt(text[d..], urls, st, matchAt)
    ensures MatchesAt(text, urls, Shift(st, d), matchAt)
  {
    var starts := Shift(st, d);
    forall k | 0 <= k < |urls|
      ensures starts[k] + |urls[k]| <= |text| && urls[k] == text[starts[k]..starts[k] + |urls[k]|]
      ensures |urls[k]| == matchAt(text[starts[k]..]) > 0
    {
      assert text[d..][st[k]..] == text[starts[k]..];
      assert text[d..][st[k]..st[k] + |urls[k]|] == text[starts[k]..starts[k] + |urls[k]|];
    }
  }

  lemma ShiftedCovered(urls: seq<string>, st: seq<nat>, d: nat, j: int)
    requires |st| == |urls| && Covered(urls, st, j - d)
    ensures Covered(urls, Shift(st, d), j)
  {
    var k :| 0 <= k < |urls| && st[k] <= j - d < st[k] + |urls[k]|;
    assert Shift(st, d)[k] == st[k] + d;
  }

  /** A match at position 0 followed by matches that start after it. */
  lemma ConsMatch(text: string, n: nat, rest: seq<string>, starts: seq<nat>, matchAt: string -> nat)
    requires 0 < n == matchAt(text) && n <= |text|
    requires MatchesAt(text, rest, starts, matchAt)
    requires rest != [] ==> n <= starts[0]
    ensures MatchesAt(text, [text[..n]] + rest, [0] + starts, matchAt)
  {
    var urls, all := [text[..n]] + rest, [0] + starts;
    assert text[0..] == text;
    assert text[0..n] == text[..n];
    forall k | 0 < k < |urls| ensures urls[k] == rest[k - 1] && all[k] == starts[k - 1] {
    }
  }

  lemma MatchesAfterMatch(text: string, n: nat, rest: seq<string>, st: seq<nat>, matchAt: string -> nat)
    requires 0 < n == matchAt(text) && n <= |text|
    requires MatchesAt(text[n..], rest, st, matchAt) && NoneSkipped(text[n..], rest, st, matchAt)
    ensures MatchesAt(text, [text[..n]] + rest, [0] + Shift(st, n), matchAt)
    ensures NoneSkipped(text, [text[..n]] + rest, [0] + Shift(st, n), matchAt)
  {
    var urls, starts := [text[..n]] + rest, [0] + Shift(st, n);
    ShiftedMatches(text, n, rest, st, matchAt);
    ConsMatch(text, n, rest, Shift(st, n), matchAt);
    forall j | 0 <= j < |text| && matchAt(text[j..]) > 0 ensures Covered(urls, starts, j) {
      if j < n {
        assert starts[0] <= j < starts[0] + |urls[0]|;
      } else {
        assert text[n..][j - n..] == text[j..];
        ShiftedCovered(rest, st, n, j);
        ConsCovered(text[..n], rest, Shift(st, n), j);
      }
    }
  }

  lemma ConsCovered(u: string, rest: seq<string>, starts: seq<nat>, j: int)
    requires |starts| == |rest| && Covered(rest, starts, j)
    ensures Covered([u] + rest, [0] + starts, j)
  {
    var k :| 0 <= k < |rest| && starts[k] <= j < starts[k] + |rest[k]|;
    assert ([u] + rest)[k + 1] == rest[k] && ([0] + starts)[k + 1] == starts[k];
  }

  lemma MatchesAfterSkip(text: string, rest: seq<string>, st: seq<nat>, matchAt: string -> nat)
    requires text != [] && matchAt(text) == 0
    requires MatchesAt(text[1..], rest, st, matchAt) && NoneSkipped(text[1..], rest, st, matchAt)
    ensures MatchesAt(text, rest, Shift(st, 1), matchAt) && NoneSkipped(text, rest, Shift(st, 1), matchAt)
  {
    ShiftedMatches(text, 1, rest, st, matchAt);
    assert text[0..] == text;
    forall j | 0 <= j < |text| && matchAt(text[j..]) > 0 ensures Covered(rest, Shift(st, 1), j) {
      assert text[1..][j - 1..] == text[j..];
      ShiftedCovered(rest, st, 1, j);
    }
  }

  lemma {:induction false} ContainsSuffix(s: string, n: nat, p: string)
    requires n <= |s| && Contains(s[n..], p)
    ensures Contains(s, p)
    decreases n
  {
    if n > 0 {
      assert s[1..][n - 1..] == s[n..];
      ContainsSuffix(s[1..], n - 1, p);
    }
  }

  /** `extractUrls` finds nothing exactly when no position of the text starts a match. */
  lemma {:induction false} ExtractUrlsEmpty(text: string)
    ensures ExtractUrls(text) == [] <==> forall i :: 0 <= i < |text| ==> UrlMatchAt(text[i..]) == 0
    decreases |text|
  {
    if text != [] {
      if UrlMatchAt(text) == 0 {
        ExtractUrlsEmpty(text[1..]);
        assert forall i :: 1 <= i < |text| ==> text[i..] == text[1..][i - 1..];
        assert text[0..] == text;
      } else {
        assert text[0..] == text;
      }
    }
  }

  // ---------------------------------------------------------------------------------------------
  // generateSlug
  // ---------------------------------------------------------------------------------------------

  predicate IsSlugSource(c: char)
  {
    IsWordChar(c) || IsSpace(c) || c == '-'
  }

  predicate IsSlugChar(c: char)
  {
    ('a' <= c <= 'z') || ('0' <= c <= '9') || c == '_' || c == '-'
  }

  /** A slug: lower-case word characters and '-' only, never two '-' in a row. */
  predicate IsSlugShaped(r: string)
  {
    && (forall i :: 0 <= i < |r| ==> IsSlugChar(r[i]))
    && (forall i :: 0 <= i < |r| - 1 ==> !(r[i] == '-' && r[i + 1] == '-'))
  }

  /** `replace(/[^\w\s-]/g, '')`: only word characters, whitespace and '-' remain; text made of them
      is kept, text without any of them disappears, and with `KeepSlugCharsAppend` this fixes the
      result as the characters of `s` in that class, in their order. */
  function KeepSlugChars(s: string): (r: string)
    ensures forall i :: 0 <= i < |r| ==> IsSlugSource(r[i])
    ensures (forall i :: 0 <= i < |s| ==> IsSlugSource(s[i])) ==> r == s
    ensures (forall i :: 0 <= i < |s| ==> !IsSlugSource(s[i])) ==> r == []
  {
    if s == [] then []
    else if IsSlugSource(s[0]) then [s[0]] + KeepSlugChars(s[1..])
    else KeepSlugChars(s[1..])
  }

  /** Filtering a concatenation filters each part. */
  lemma {:induction false} KeepSlugCharsAppend(a: string, b: string)
    ensures KeepSlugChars(a + b) == KeepSlugChars(a) + KeepSlugChars(b)
    decreases |a|
  {
    if a == [] {
      assert a + b == b;
    } else {
      assert (a + b)[1..] == a[1..] + b;
      KeepSlugCharsAppend(a[1..], b);
    }
  }

  /** Filtering lower-cased text leaves slug characters and whitespace only. */
  lemma {:induction false} KeepSlugCharsOfLower(s: string)
    requires forall i :: 0 <= i < |s| ==> !('A' <= s[i] <= 'Z')
    ensures forall i :: 0 <= i < |KeepSlugChars(s)| ==> IsSlugChar(KeepSlugChars(s)[i]) || IsSpace(KeepSlugChars(s)[i])
  {
    if s != [] {
      KeepSlugCharsOfLower(s[1..]);
    }
  }

  /** Drops the leading run of characters satisfying `inRun`. */
  function DropRun(s: string, inRun: char -> bool): (r: string)
    ensures |r| <= |s|
    ensures s != [] && inRun(s[0]) ==> |r| < |s|
    ensures r != [] ==> !inRun(r[0])
  {
    if s != [] && inRun(s[0]) then DropRun(s[1..], inRun) else s
  }

  /** What `DropRun` keeps is a suffix. */
  lemma {:induction false} DropRunSuffix(s: string, inRun: char -> bool)
    ensures DropRun(s, inRun) == s[|s| - |DropRun(s, inRun)|..]
    decreases |s|
  {
    if s != [] && inRun(s[0]) {
      DropRunSuffix(s[1..], inRun);
      assert s[1..][|s| - 1 - |DropRun(s, inRun)|..] == s[|s| - |DropRun(s, inRun)|..];
    }
  }

  /** Text that is all run is dropped whole, so its last character is in the run. */
  lemma {:induction false} DropRunAll(s: string, inRun: char -> bool)
    ensures s != [] && DropRun(s, inRun) == [] ==> inRun(s[|s| - 1])
    decreases |s|
  {
    if s != [] && inRun(s[0]) && |s| > 1 {
      DropRunAll(s[1..], inRun);
    }
  }

  /** The leading run of a concatenation is that of the first part, continued into the second
      only when the first part is all run. */
  lemma {:induction false} DropRunAppend(a: string, b: string, inRun: char -> bool)
    ensures DropRun(a, inRun) != [] ==> DropRun(a + b, inRun) == DropRun(a, inRun) + b
    ensures DropRun(a, inRun) == [] ==> DropRun(a + b, inRun) == DropRun(b, inRun)
    decreases |a|
  {
    if a == [] {
      assert a + b == b;
    } else if inRun(a[0]) {
      assert (a + b)[1..] == a[1..] + b;
      DropRunAppend(a[1..], b, inRun);
    }
  }

  /** Replaces every maximal run of characters satisfying `inRun` by one `rep`: the effect of
      `replace(/X+/g, rep)`. `CollapseRunsCases` and `CollapseRunsAppend` fix the result run by
      run. */
  function CollapseRuns(s: string, inRun: char -> bool, rep: char): (r: string)
    ensures forall i :: 0 <= i < |r| ==> r[i] == rep || !inRun(r[i])
    ensures r != [] && s != [] ==> (r[0] == rep <==> inRun(s[0]) || s[0] == rep)
    ensures r == [] <==> s == []
    decreases |s|
  {
    if s == [] then []
    else if inRun(s[0]) then [rep] + CollapseRuns(DropRun(s, inRun), inRun, rep)
    else [s[0]] + CollapseRuns(s[1..], inRun, rep)
  }

  /** Text without run characters is kept, and a run on its own becomes one `rep`. */
  lemma {:induction false} CollapseRunsCases(s: string, inRun: char -> bool, rep: char)
    ensures (forall i :: 0 <= i < |s| ==> !inRun(s[i])) ==> CollapseRuns(s, inRun, rep) == s
    ensures s != [] && (forall i :: 0 <= i < |s| ==> inRun(s[i])) ==> CollapseRuns(s, inRun, rep) == [rep]
    decreases |s|
  {
    if s != [] && !inRun(s[0]) {
      CollapseRunsCases(s[1..], inRun, rep);
      assert s == [s[0]] + s[1..];
    } else if s != [] {
      DropRunSuffix(s, inRun);
    }
  }

  /** Collapsing distributes over a cut that does not fall inside a run: the runs of the parts
      are the runs of the whole. */
  lemma {:induction false} CollapseRunsAppend(a: string, b: string, inRun: char -> bool, rep: char)
    requires a == [] || b == [] || !inRun(a[|a| - 1]) || !inRun(b[0])
    ensures CollapseRuns(a + b, inRun, rep) == CollapseRuns(a, inRun, rep) + CollapseRuns(b, inRun, rep)
    decreases |a|, 2
  {
    if a == [] {
      assert a + b == b;
    } else if b == [] {
      assert a + b == a;
    } else if inRun(a[0]) {
      CollapseRunsAppendRun(a, b, inRun, rep);
    } else {
      assert (a + b)[1..] == a[1..] + b;
      assert a[1..] == [] || a[1..][|a[1..]| - 1] == a[|a| - 1];
      CollapseRunsAppend(a[1..], b, inRun, rep);
      CollapseLeadingKept(a + b, inRun, rep);
      CollapseLeadingKept(a, inRun, rep);
      ConsAssociates(a[0], CollapseRuns(a[1..], inRun, rep), CollapseRuns(b, inRun, rep));
    }
  }

  /** The case of `CollapseRunsAppend` where the first part starts with a run. */
  lemma {:induction false} CollapseRunsAppendRun(a: string, b: string, inRun: char -> bool, rep: char)
    requires a != [] && b != [] && inRun(a[0]) && (!inRun(a[|a| - 1]) || !inRun(b[0]))
    ensures CollapseRuns(a + b, inRun, rep) == CollapseRuns(a, inRun, rep) + CollapseRuns(b, inRun, rep)
    decreases |a|, 1
  {
    CollapseLeadingRun(a + b, inRun, rep);
    CollapseLeadingRun(a, inRun, rep);
    CollapseAfterRun(a, b, inRun, rep);
    ConsAssociates(rep, CollapseRuns(DropRun(a, inRun), inRun, rep), CollapseRuns(b, inRun, rep));
  }

  lemma ConsAssociates(x: char, p: string, q: string)
    ensures [x] + (p + q) == ([x] + p) + q
  {
  }

  lemma CollapseLeadingKept(s: string, inRun: char -> bool, rep: char)
    requires s != [] && !inRun(s[0])
    ensures CollapseRuns(s, inRun, rep) == [s[0]] + CollapseRuns(s[1..], inRun, rep)
  {
  }

  lemma CollapseLeadingRun(s: string, inRun: char -> bool, rep: char)
    requires s != [] && inRun(s[0])
    ensures CollapseRuns(s, inRun, rep) == [rep] + CollapseRuns(DropRun(s, inRun), inRun, rep)
  {
  }

  /** What follows the leading run of `a + b` collapses as the rest of `a` followed by `b`. */
  lemma {:induction false} CollapseAfterRun(a: string, b: string, inRun: char -> bool, rep: char)
    requires a != [] && b != [] && inRun(a[0]) && (!inRun(a[|a| - 1]) || !inRun(b[0]))
    ensures CollapseRuns(DropRun(a + b, inRun), inRun, rep)
         == CollapseRuns(DropRun(a, inRun), inRun, rep) + CollapseRuns(b, inRun, rep)
    decreases |a|, 0
  {
    var d := DropRun(a, inRun);
    DropRunAppend(a, b, inRun);
    if d == [] {
      DropRunAll(a, inRun);
      assert DropRun(b, inRun) == b;
    } else {
      DropRunSuffix(a, inRun);
      assert d[|d| - 1] == a[|a| - 1];
      CollapseRunsAppend(d, b, inRun, rep);
    }
  }

  /** Collapsing runs keeps any character property that the input and `rep` share. */
  lemma {:induction false} CollapseRunsKeeps(s: string, inRun: char -> bool, rep: char, p: char -> bool)
    requires p(rep) && forall i :: 0 <= i < |s| ==> p(s[i])
    ensures forall i :: 0 <= i < |CollapseRuns(s, inRun, rep)| ==> p(CollapseRuns(s, inRun, rep)[i])
    decreases |s|
  {
    if s != [] {
      if inRun(s[0]) {
        DropRunSuffix(s, inRun);
        CollapseRunsKeeps(DropRun(s, inRun), inRun, rep, p);
      } else {
        CollapseRunsKeeps(s[1..], inRun, rep, p);
      }
    }
  }

  predicate IsDash(c: char) { c == '-' }

  /** Collapsing runs of '-' leaves no two '-' in a row. */
  lemma {:induction false} CollapseDashesNoDouble(s: string)
    ensures forall i :: 0 <= i < |CollapseRuns(s, IsDash, '-')| - 1 ==>
              !(CollapseRuns(s, IsDash, '-')[i] == '-' && CollapseRuns(s, IsDash, '-')[i + 1] == '-')
    decreases |s|
  {
    if s != [] {
      var r := CollapseRuns(s, IsDash, '-');
      if IsDash(s[0]) {
        var t := DropRun(s, IsDash);
        CollapseDashesNoDouble(t);
        assert r == ['-'] + CollapseRuns(t, IsDash, '-');
      } else {
        CollapseDashesNoDouble(s[1..]);
        assert r == [s[0]] + CollapseRuns(s[1..], IsDash, '-');
      }
    }
  }

  /** `generateSlug` as written: lower-case, drop characters outside `[\w\s-]`, turn whitespace
      runs into '-', collapse '-' runs, then `trim('-')`, which ignores its argument and trims
      whitespace, of which none is left. */
  function GenerateSlug(text: string): string
  {
    var kept := KeepSlugChars(ToLower(text));
    var dashed := CollapseRuns(kept, IsSpace, '-');
    Trim(CollapseRuns(dashed, IsDash, '-'))
  }

  predicate IsSlugOrSpace(c: char) { IsSlugChar(c) || IsSpace(c) }

  /** A slug has no whitespace, no "--", and only lower-case word characters and '-'. */
  lemma GenerateSlugShape(text: string)
    ensures IsSlugShaped(GenerateSlug(text))
  {
    var lower := ToLower(text);
    assert forall i :: 0 <= i < |lower| ==> !('A' <= lower[i] <= 'Z');
    var kept := KeepSlugChars(lower);
    KeepSlugCharsOfLower(lower);
    var dashed := CollapseRuns(kept, IsSpace, '-');
    CollapseRunsKeeps(kept, IsSpace, '-', IsSlugOrSpace);
    assert forall i :: 0 <= i < |dashed| ==> IsSlugChar(dashed[i]);
    var collapsed := CollapseRuns(dashed, IsDash, '-');
    CollapseRunsKeeps(dashed, IsDash, '-', IsSlugChar);
    CollapseDashesNoDouble(dashed);
    NoSpaceTrim(collapsed);
    assert GenerateSlug(text) == collapsed;
  }

  lemma NoSpaceTrim(s: string)
    requires forall i :: 0 <= i < |s| ==> IsSlugChar(s[i])
    ensures Trim(s) == s
  {
    if s != [] {
      SlugCharNotSpace(s[0]);
      SlugCharNotSpace(s[|s| - 1]);
    }
    TrimNoSpace(s);
  }

  lemma SlugCharNotSpace(c: char)
    requires IsSlugChar(c)
    ensures !IsSpace(c)
  {
  }

  /** Drops the trailing run of '-'. */
  function DropTrailingDashes(s: string): (r: string)
    ensures |r| <= |s| && r == s[..|r|]
    ensures r != [] ==> r[|r| - 1] != '-'
  {
    if s != [] && s[|s| - 1] == '-' then DropTrailingDashes(s[..|s| - 1]) else s
  }

  /** `replace(/^-+|-+$/g, '')`: the dash trimming `generateSlug` evidently intends. */
  function TrimDashes(s: string): (r: string)
    ensures r != [] ==> r[0] != '-' && r[|r| - 1] != '-'
    ensures exists lo, hi :: 0 <= lo <= hi <= |s| && r == s[lo..hi]
    ensures IsSlugShaped(s) ==> IsSlugShaped(r)
  {
    var t := DropRun(s, IsDash);
    var r := DropTrailingDashes(t);
    DropRunSuffix(s, IsDash);
    assert r == s[|s| - |t|..|s| - |t| + |r|];
    r
  }

  /** `generateSlug` with the dash trimming it evidently intends. */
  function GenerateSlugTrimmed(text: string): (r: string)
    ensures IsSlugShaped(r)
    ensures r != [] ==> r[0] != '-' && r[|r| - 1] != '-'
  {
    GenerateSlugShape(text);
    TrimDashes(GenerateSlug(text))
  }

  /** `generateSlug(" a ")` keeps the dashes that came from the outer spaces. */
  lemma GenerateSlugKeepsOuterDashes(text: string)
    requires text == " a "
    ensures GenerateSlug(text) == "-a-"
  {
    var kept := KeepSlugChars(ToLower(text));
    assert kept == " a " by {
      LowerKeepExample(text);
    }
    var dashed := CollapseRuns(kept, IsSpace, '-');
    assert dashed == "-a-" by {
      SpacesToDashesExample(kept);
    }
    DashedSlugExample(dashed);
  }

  lemma DashedSlugExample(dashed: string)
    requires dashed == "-a-"
    ensures Trim(CollapseRuns(dashed, IsDash, '-')) == "-a-"
  {
    DashesCollapseExample(dashed);
    NoSpaceTrim(CollapseRuns(dashed, IsDash, '-'));
  }

  /** The intended trimming removes them. */
  lemma GenerateSlugTrimmedDropsOuterDashes(text: string)
    requires text == " a "
    ensures GenerateSlugTrimmed(text) == "a"
  {
    GenerateSlugKeepsOuterDashes(text);
    TrimDashesExample();
  }

  lemma LowerKeepExample(text: string)
    requires text == " a "
    ensures KeepSlugChars(ToLower(text)) == " a "
  {
    assert ToLower(" a ") == " a ";
    assert KeepSlugChars(" a ") == " a ";
  }

  lemma TrimDashesExample()
    ensures TrimDashes("-a-") == "a"
  {
    TrimOuterDashes("-a-");
  }

  /** Trimming a three-character string with a dash on each side of a non-dash. */
  lemma TrimOuterDashes(s: string)
    requires |s| == 3 && s[0] == '-' && s[1] != '-' && s[2] == '-'
    ensures TrimDashes(s) == [s[1]]
  {
    var tail := s[1..];
    assert DropRun(tail, IsDash) == tail;
    assert DropRun(s, IsDash) == tail;
    var kept := tail[..1];
    assert DropTrailingDashes(kept) == kept;
    assert tail[..|tail| - 1] == kept;
    assert DropTrailingDashes(tail) == kept;
  }

  /** Collapsing a three-character string whose middle character is outside the runs and whose
      outer characters are runs of their own. */
  lemma CollapseOuterRuns(s: string, inRun: char -> bool, rep: char)
    requires |s| == 3 && inRun(s[0]) && !inRun(s[1]) && inRun(s[2])
    ensures CollapseRuns(s, inRun, rep) == [rep, s[1], rep]
  {
    var tail := s[1..];
    var last := tail[1..];
    assert DropRun(last[1..], inRun) == [];
    assert DropRun(last, inRun) == [];
    assert CollapseRuns(last, inRun, rep) == [rep];
    assert CollapseRuns(tail, inRun, rep) == [s[1], rep];
    assert DropRun(tail, inRun) == tail;
    assert DropRun(s, inRun) == tail;
  }

  lemma SpacesToDashesExample(s: string)
    requires s == " a "
    ensures CollapseRuns(s, IsSpace, '-') == "-a-"
  {
    CollapseOuterRuns(s, IsSpace, '-');
  }

  lemma DashesCollapseExample(s: string)
    requires s == "-a-"
    ensures CollapseRuns(s, IsDash, '-') == "-a-"
  {
    CollapseOuterRuns(s, IsDash, '-');
  }

  // ---------------------------------------------------------------------------------------------
  // redactSensitiveData
  // ---------------------------------------------------------------------------------------------

  /** A JSON value held in the object being redacted. */
  datatype JsValue = JsString(s: string) | JsNumber(n: real) | JsBool(b: bool) | JsNull | JsObject(fields: map<string, JsValue>)

  const SensitiveKeys: seq<string> := ["api_key", "token", "password", "secret"]
  const RedactedValue := JsString("***REDACTED***")

  /** The lower-cased key contains one of the sensitive words. */
  predicate IsSensitiveKey(key: string)
  {
    exists i :: 0 <= i < |SensitiveKeys| && Contains(ToLower(key), SensitiveKeys[i])
  }

  /** `redactSensitiveData`: a copy of the object whose sensitive entries are overwritten, key by
      key. */
  method RedactSensitiveData(data: map<string, JsValue>) returns (redacted: map<string, JsValue>)
    ensures redacted.Keys == data.Keys
    ensures forall k :: k in data && IsSensitiveKey(k) ==> redacted[k] == RedactedValue
    ensures forall k :: k in data && !IsSensitiveKey(k) ==> redacted[k] == data[k]
  {
    redacted := data;
    var pending := data.Keys;
    while pending != {}
      invariant pending <= data.Keys
      invariant redacted.Keys == data.Keys
      invariant forall k :: k in data && k !in pending && IsSensitiveKey(k) ==> redacted[k] == RedactedValue
      invariant forall k :: k in data && (k in pending || !IsSensitiveKey(k)) ==> redacted[k] == data[k]
      decreases pending
    {
      var key :| key in pending;
      if IsSensitiveKey(key) {
        redacted := redacted[key := RedactedValue];
      }
      pending := pending - {key};
    }
  }

  // ---------------------------------------------------------------------------------------------
  // retryWithBackoff
  // ---------------------------------------------------------------------------------------------

  /** `retryWithBackoff(fn, maxRetries)`: `attempt(k)` is what the k-th call of `fn` settles to.
      Every error is retried; the promise rejects once the failure count reaches `maxRetries`.
      The delays are not modelled. */
  method RetryWithBackoff<T>(attempt: nat -> Outcome<T>, maxRetries: int) returns (r: Outcome<T>, attempts: nat)
    ensures 1 <= attempts <= if maxRetries < 1 then 1 else maxRetries
    ensures r == attempt(attempts - 1)
    ensures forall k :: 0 <= k < attempts - 1 ==> attempt(k).Err?
    ensures r.Err? ==> attempts == if maxRetries < 1 then 1 else maxRetries
  {
    var retries := 0;
    attempts := 0;
    while true
      invariant attempts == retries
      invariant retries == 0 || retries < maxRetries
      invariant forall k :: 0 <= k < attempts ==> attempt(k).Err?
      decreases maxRetries - retries
    {
      r := attempt(attempts);
      attempts := attempts + 1;
      if r.Ok? {
        return;
      }
      retries := retries + 1;
      if retries >= maxRetries {
        return;
      }
    }
  }
}

=== FILE: webhook.dfy ===
/** api/webhook.js: the Telegram bot endpoint. Commands answer at once; any other message is
    captured as an idea (text, voice up to 30 seconds, photo, document), stored in Notion and then
    enriched straight away, with the user told of each outcome. Telegram sends are taken to
    succeed. */
module Webhook {
  import opened Wrappers
  import opened Text
  import opened Utils
  import Notion
  import OpenAI
  import Telegram
  import opened Adapters
  import EnrichLite

  // ---------------------------------------------------------------------------------------------
  // Commands (handleCommand, also used by api/telegram/webhook.js)
  // ---------------------------------------------------------------------------------------------

  const AccessDenied := "\U{274C} Access denied. This command is for administrators only."
  const StatsFailed := "\U{274C} Failed to retrieve statistics. Please try again later."
  const UnknownCommand := "Unknown command. Send /help for available commands."

  /** The command word: the lower-cased text up to its first space. */
  function Command(text: string): string
  {
    Split(ToLower(text), " ")[0]
  }

  /** A message that starts with '/' is a command. */
  predicate IsCommand(m: Message)
  {
    Truthy(m.text) && StartsWith(m.text.value, "/")
  }

  /** `handleCommand`: /start and /help send their templates, /stats sends the idea statistics
      to the administrator only, and anything else gets the unknown-command notice. `stats` is
      what counting the ideas settles to. */
  method HandleCommand(m: Message, client: Telegram.TelegramClient, stats: Outcome<Notion.IdeaStats>)
    returns (calls: seq<Call>)
    requires Truthy(m.text)
    ensures Command(m.text.value) == "/start" ==> |calls| == 1 && calls[0] == SendWelcome(m.chatId)
    ensures Command(m.text.value) == "/help" ==> |calls| == 1 && calls[0] == SendHelp(m.chatId)
    ensures Command(m.text.value) == "/stats" && !client.IsAdmin(m.fromId) ==> |calls| == 1 && calls[0] == Send(m.chatId, AccessDenied)
    ensures Command(m.text.value) == "/stats" && client.IsAdmin(m.fromId) ==>
              && |calls| == 2 && calls[0] == GetIdeaStats
              && calls[1] == if stats.Ok? then SendStats(m.chatId, stats.value) else Send(m.chatId, StatsFailed)
    ensures Command(m.text.value) != "/start" && Command(m.text.value) != "/help" && Command(m.text.value) != "/stats" ==>
              |calls| == 1 && calls[0] == Send(m.chatId, UnknownCommand)
    ensures GetIdeaStats in calls <==> Command(m.text.value) == "/stats" && client.IsAdmin(m.fromId)
    ensures NoNotionWrite(calls)
  {
    var command := Command(m.text.value);
    if command == "/start" {
      calls := [SendWelcome(m.chatId)];
    } else if command == "/help" {
      calls := [SendHelp(m.chatId)];
    } else if command == "/stats" {
      if !client.IsAdmin(m.fromId) {
        return [Send(m.chatId, AccessDenied)];
      }
      if stats.Ok? {
        calls := [GetIdeaStats, SendStats(m.chatId, stats.value)];
      } else {
        calls := [GetIdeaStats, Send(m.chatId, StatsFailed)];
      }
    } else {
      calls := [Send(m.chatId, UnknownCommand)];
    }
  }

  /** Lower-casing twice is lower-casing once. */
  lemma ToLowerIdempotent(s: string)
    ensures ToLower(ToLower(s)) == ToLower(s)
  {
  }

  /** Commands are recognised in any ASCII letter case. */
  lemma CommandIgnoresCase(text: string)
    ensures Command(ToLower(text)) == Command(text)
  {
    ToLowerIdempotent(text);
  }

  // ---------------------------------------------------------------------------------------------
  // Idea capture (handleIdeaCapture)
  // ---------------------------------------------------------------------------------------------

  /** What the adapters settle to while a message is captured and enriched. */
  datatype Outcomes = Outcomes(
    downloaded: Outcome<TelegramFile>,
    audio: Outcome<AudioFile>,
    transcribed: Outcome<OpenAI.Transcription>,
    created: Outcome<Notion.PageRef>,
    categories: Outcome<seq<Notion.CategoryOption>>,
    enriched: Outcome<OpenAI.EnrichResult>,
    added: Outcome<Notion.AddCategoryResult>,
    updated: Outcome<()>)

  /** The content of a message: extracted with its attachments, a voice message over the limit,
      or the message of the failure that aborts the capture. */
  datatype Extraction =
    | Extracted(content: string, attachments: seq<Notion.Attachment>)
    | VoiceTooLong
    | ExtractionFailed(message: string)

  const ProcessingText := "\U{1F504} Processing your idea..."
  const VoiceTooLongText := "\U{26A0}\U{FE0F} Voice message too long. Please keep it under 30 seconds to manage costs."
  const NothingExtracted := "No content extracted from message"
  const PhotoFailed := "Photo processing failed: "
  /** The error of reading `file_id` of the undefined last element of an empty photo array. */
  const MissingFileId := "Cannot read properties of undefined (reading 'file_id')"

  /** The voice branch: download from Telegram, fetch, transcribe. */
  method ExtractVoice(v: Voice, o: Outcomes) returns (calls: seq<Call>, r: Extraction)
    ensures NoNotionWrite(calls) && |calls| >= 1 && calls[0] == DownloadTelegramFile(v.fileId)
    ensures r.Extracted? <==> o.downloaded.Ok? && o.audio.Ok? && o.transcribed.Ok?
    ensures r.Extracted? ==> r == Extracted(o.transcribed.value.text,
              [Notion.Attachment("audio", Some(o.downloaded.value.url), Some("voice_message.ogg"), v.fileSize)])
    ensures !r.Extracted? ==> r.ExtractionFailed? && StartsWith(r.message, "Voice processing failed: ")
  {
    calls := [DownloadTelegramFile(v.fileId)];
    var failure: Failure;
    if o.downloaded.Err? {
      failure := o.downloaded.error;
    } else {
      calls := calls + [DownloadAudio(o.downloaded.value.url)];
      if o.audio.Err? {
        failure := o.audio.error;
      } else {
        calls := calls + [Transcribe(o.audio.value.byteCount)];
        if o.transcribed.Err? {
          failure := o.transcribed.error;
        } else {
          var att := Notion.Attachment("audio", Some(o.downloaded.value.url), Some("voice_message.ogg"), v.fileSize);
          return calls, Extracted(o.transcribed.value.text, [att]);
        }
      }
    }
    r := ExtractionFailed("Voice processing failed: " + failure.message);
  }

  /** The content and attachments of a message, by `determineMessageType`. */
  method ExtractContent(m: Message, o: Outcomes) returns (calls: seq<Call>, r: Extraction)
    ensures NoNotionWrite(calls)
    ensures DetermineMessageType(m) == TextMessage ==> calls == [] && r == Extracted(SanitizeInput(m.text.value), [])
    ensures DetermineMessageType(m) == VoiceMessage && m.voice.value.duration > 30 ==> calls == [] && r == VoiceTooLong
    ensures DetermineMessageType(m) == VoiceMessage && m.voice.value.duration <= 30 ==>
              (r.Extracted? <==> o.downloaded.Ok? && o.audio.Ok? && o.transcribed.Ok?)
              && (r.Extracted? ==> r.content == o.transcribed.value.text)
    ensures DetermineMessageType(m) == PhotoMessage ==>
              var photos := m.photo.value;
              if photos == [] then
                calls == [] && r == ExtractionFailed(PhotoFailed + MissingFileId)
              else
                && |calls| == 1 && calls[0] == DownloadTelegramFile(photos[|photos| - 1].fileId)
                && (o.downloaded.Err? ==> r == ExtractionFailed(PhotoFailed + o.downloaded.error.message))
                && (o.downloaded.Ok? ==> r == Extracted(Or(m.caption, "[Image with no description]"),
                      [Notion.Attachment("image", Some(o.downloaded.value.url), Some("image.jpg"), photos[|photos| - 1].fileSize)]))
    ensures DetermineMessageType(m) == DocumentMessage ==>
              var d := m.document.value;
              && |calls| == 1 && calls[0] == DownloadTelegramFile(d.fileId)
              && (o.downloaded.Err? ==> r == ExtractionFailed("Document processing failed: " + o.downloaded.error.message))
              && (o.downloaded.Ok? ==> r == Extracted(Or(m.caption, "[Document: " + Render(d.fileName) + "]"),
                    [Notion.Attachment("document", Some(o.downloaded.value.url), d.fileName, d.fileSize)]))
    ensures DetermineMessageType(m) == UnknownMessage ==> calls == [] && r == Extracted("Unsupported message type", [])
  {
    var kind := DetermineMessageType(m);
    calls := [];
    if kind == TextMessage {
      r := Extracted(SanitizeInput(m.text.value), []);
    } else if kind == VoiceMessage {
      if m.voice.value.duration > 30 {
        return [], VoiceTooLong;
      }
      calls, r := ExtractVoice(m.voice.value, o);
    } else if kind == PhotoMessage {
      var photos := m.photo.value;
      if photos == [] {
        // `photo[length - 1]` is undefined and reading its `file_id` throws.
        return [], ExtractionFailed(PhotoFailed + MissingFileId);
      }
      var largest := photos[|photos| - 1];
      calls := [DownloadTelegramFile(largest.fileId)];
      if o.downloaded.Err? {
        return calls, ExtractionFailed(PhotoFailed + o.downloaded.error.message);
      }
      r := Extracted(Or(m.caption, "[Image with no description]"),
                     [Notion.Attachment("image", Some(o.downloaded.value.url), Some("image.jpg"), largest.fileSize)]);
    } else if kind == DocumentMessage {
      var d := m.document.value;
      calls := [DownloadTelegramFile(d.fileId)];
      if o.downloaded.Err? {
        return calls, ExtractionFailed("Document processing failed: " + o.downloaded.error.message);
      }
      r := Extracted(Or(m.caption, "[Document: " + Render(d.fileName) + "]"),
                     [Notion.Attachment("document", Some(o.downloaded.value.url), d.fileName, d.fileSize)]);
    } else {
      r := Extracted("Unsupported message type", []);
    }
  }

  /** The idea stored for extracted content. `generateIdeaTitle` is not a method of the OpenAI
      client, so calling it throws and the fallback title, the content cut to 50 characters, is
      always used. */
  function CapturedIdea(content: string, attachments: seq<Notion.Attachment>): (idea: Notion.NewIdea)
    ensures idea.title.Some? && |idea.title.value| <= 50
    ensures idea.rawText == Some(content) && idea.attachments == attachments && idea.status == Some("Captured")
  {
    TruncateWithEllipsisBound(content, 50);
    Notion.NewIdea(Some(TruncateWithEllipsis(content, 50)), Some(content), attachments, Some("Captured"))
  }

  /** The notice sent when the capture fails. */
  function CaptureFailedText(message: string): string
  {
    CaptureFailedHead + message + CaptureFailedTail
  }
  const CaptureFailedHead := "\U{26A0}\U{FE0F} Failed to process your idea: "
  const CaptureFailedTail := "\n\nPlease try again."

  /** The notice sent once the idea is stored: the title line, then the link to the page. */
  function CapturedText(title: string, pageId: string): (text: string)
    ensures StartsWith(text, CapturedHead + title + "\n")
    ensures Contains(text, NotionUrl(pageId))
  {
    var head := CapturedHead + title + "\n" + CapturedLink;
    ContainsInfix(head, NotionUrl(pageId), CapturedTail);
    assert (head + NotionUrl(pageId) + CapturedTail)[..|CapturedHead + title + "\n"|] == CapturedHead + title + "\n";
    head + NotionUrl(pageId) + CapturedTail
  }
  const CapturedHead := "\U{2705} <b>Idea captured!</b>\n<b>Title:</b> "
  const CapturedLink := "<b>Notion:</b> <a href=\""
  const CapturedTail := "\">View in Notion</a>\n\n\U{1F50E} Researching & categorizing your idea..."

  /** `handleIdeaCapture`: announce processing, extract the content, store the idea, confirm and
      enrich. Every path ends with a message to the chat; nothing is written to Notion unless
      non-empty content was extracted. */
  method HandleIdeaCapture(m: Message, o: Outcomes) returns (calls: seq<Call>)
    ensures |calls| >= 2 && calls[0] == Send(m.chatId, ProcessingText)
    ensures calls[|calls| - 1].Send? || calls[|calls| - 1].SendAnalysis?
    ensures calls[|calls| - 1].chatId == m.chatId
    ensures DetermineMessageType(m) == VoiceMessage && m.voice.value.duration > 30 ==>
              |calls| == 2 && calls[1] == Send(m.chatId, VoiceTooLongText)
    ensures DetermineMessageType(m) == TextMessage && SanitizeInput(m.text.value) == "" ==>
              |calls| == 2 && calls[1] == Send(m.chatId, CaptureFailedText(NothingExtracted))
    ensures DetermineMessageType(m) == TextMessage && SanitizeInput(m.text.value) != "" ==>
              calls[1] == CreateIdea(CapturedIdea(SanitizeInput(m.text.value), []))
    ensures !NoNotionWrite(calls) ==> StoresContent(calls)
    ensures o.created.Err? ==> NoEnrichmentWrite(calls)
  {
    var extracting, extraction := ExtractContent(m, o);
    var before := [Send(m.chatId, ProcessingText)] + extracting;
    WritesAppend([Send(m.chatId, ProcessingText)], extracting);
    var rest := ConcludeCapture(extraction, m.chatId, o);
    calls := before + rest;
    WritesAppend(before, rest);
    StoresContentAppend(before, rest);
    assert calls[0] == before[0] && calls[|before|] == rest[0] && calls[|calls| - 1] == rest[|rest| - 1];
  }

  /** What follows the extraction: the notice for a voice message over the limit, for a failed
      extraction or for empty content; otherwise the idea is stored. */
  method ConcludeCapture(extraction: Extraction, chatId: int, o: Outcomes) returns (calls: seq<Call>)
    ensures |calls| >= 1 && (calls[|calls| - 1].Send? || calls[|calls| - 1].SendAnalysis?) && calls[|calls| - 1].chatId == chatId
    ensures extraction.VoiceTooLong? ==> calls == [Send(chatId, VoiceTooLongText)]
    ensures extraction.ExtractionFailed? ==> calls == [Send(chatId, CaptureFailedText(extraction.message))]
    ensures extraction.Extracted? && extraction.content == "" ==> calls == [Send(chatId, CaptureFailedText(NothingExtracted))]
    ensures extraction.Extracted? && extraction.content != "" ==> calls[0] == CreateIdea(CapturedIdea(extraction.content, extraction.attachments))
    ensures !NoNotionWrite(calls) ==> StoresContent(calls)
    ensures o.created.Err? ==> NoEnrichmentWrite(calls)
  {
    if extraction.VoiceTooLong? {
      return [Send(chatId, VoiceTooLongText)];
    }
    if extraction.ExtractionFailed? {
      return [Send(chatId, CaptureFailedText(extraction.message))];
    }
    if extraction.content == "" {
      return [Send(chatId, CaptureFailedText(NothingExtracted))];
    }
    calls := StoreIdea(extraction.content, extraction.attachments, chatId, o);
    assert StoresContent(calls) by {
      assert calls[0].idea.rawText == Some(extraction.content);
    }
  }

  /** Some call creates an idea with non-empty raw text. */
  predicate StoresContent(calls: seq<Call>)
  {
    exists i :: 0 <= i < |calls| && calls[i].CreateIdea? && calls[i].idea.rawText.Some? && calls[i].idea.rawText.value != ""
  }

  /** Calls that store content still do with calls before them. */
  lemma StoresContentAppend(a: seq<Call>, b: seq<Call>)
    ensures StoresContent(b) ==> StoresContent(a + b)
  {
    if StoresContent(b) {
      var i :| 0 <= i < |b| && b[i].CreateIdea? && b[i].idea.rawText.Some? && b[i].idea.rawText.value != "";
      assert (a + b)[|a| + i] == b[i];
    }
  }

  /** Stores the idea for non-empty content, confirms it and enriches it. */
  method StoreIdea(content: string, attachments: seq<Notion.Attachment>, chatId: int, o: Outcomes) returns (calls: seq<Call>)
    requires content != ""
    ensures |calls| >= 2 && calls[0] == CreateIdea(CapturedIdea(content, attachments))
    ensures calls[|calls| - 1].Send? || calls[|calls| - 1].SendAnalysis?
    ensures calls[|calls| - 1].chatId == chatId
    ensures o.created.Err? ==> calls == [calls[0], Send(chatId, CaptureFailedText(o.created.error.message))]
    ensures o.created.Ok? ==>
              && |calls| >= 4
              && calls[1] == Send(chatId, CapturedText(CapturedIdea(content, attachments).title.value, o.created.value.id))
              && calls[2] == GetCategories
    ensures o.created.Ok? && o.categories.Err? ==>
              |calls| == 4 && calls[3] == Send(chatId, AnalysisFailedText(o.categories.error.message))
    ensures o.created.Ok? && o.categories.Ok? ==> calls[3] == Enrich(content, o.categories.value)
    ensures o.created.Ok? && o.categories.Ok? && o.enriched.Ok? ==>
              |calls| >= 6 && Reconciles(calls[4..], o.created.value.id, chatId,
                EnrichLite.ShouldAddCategory(false, o.enriched.value.enrichedIdea.category, o.categories.value),
                o.enriched.value.enrichedIdea.category, o)
  {
    var create := CreateIdea(CapturedIdea(content, attachments));
    if o.created.Err? {
      return [create, Send(chatId, CaptureFailedText(o.created.error.message))];
    }
    var confirming := ConfirmAndEnrich(o.created.value.id, CapturedIdea(content, attachments).title.value, content, chatId, o);
    calls := [create] + confirming;
    assert calls[|calls| - 1] == confirming[|confirming| - 1];
    assert calls[4..] == confirming[3..];
  }

  /** What follows the creation of page `pageId`: the notice with the title and the link, then
      the enrichment of `ideaText`. */
  method ConfirmAndEnrich(pageId: string, title: string, ideaText: string, chatId: int, o: Outcomes) returns (calls: seq<Call>)
    ensures |calls| >= 3 && calls[0] == Send(chatId, CapturedText(title, pageId)) && calls[1] == GetCategories
    ensures (calls[|calls| - 1].Send? || calls[|calls| - 1].SendAnalysis?) && calls[|calls| - 1].chatId == chatId
    ensures o.categories.Err? ==> |calls| == 3 && calls[2] == Send(chatId, AnalysisFailedText(o.categories.error.message))
    ensures o.categories.Ok? ==> calls[2] == Enrich(ideaText, o.categories.value)
    ensures o.categories.Ok? && o.enriched.Ok? ==>
              |calls| >= 5 && Reconciles(calls[3..], pageId, chatId,
                EnrichLite.ShouldAddCategory(false, o.enriched.value.enrichedIdea.category, o.categories.value),
                o.enriched.value.enrichedIdea.category, o)
  {
    var enriching := TriggerEnrichment(pageId, ideaText, chatId, o);
    calls := [Send(chatId, CapturedText(title, pageId))] + enriching;
    assert calls[|calls| - 1] == enriching[|enriching| - 1];
    assert calls[3..] == enriching[2..];
  }

  // ---------------------------------------------------------------------------------------------
  // Enrichment (triggerEnrichment)
  // ---------------------------------------------------------------------------------------------

  /** The notice sent when enrichment fails; the idea stays stored. */
  function AnalysisFailedText(message: string): string
  {
    AnalysisFailedHead + message + AnalysisFailedTail
  }
  const AnalysisFailedHead := "\U{26A0}\U{FE0F} AI analysis failed: "
  const AnalysisFailedTail := "\n\nYour idea is still saved in Notion."

  /** Every page update among the calls is `update`. */
  predicate UpdatesOnly(calls: seq<Call>, update: Call)
  {
    forall i :: 0 <= i < |calls| && calls[i].UpdateIdea? ==> calls[i] == update
  }

  /** Calls joined update only with `update` when both halves do. */
  lemma UpdatesOnlyAppend(a: seq<Call>, b: seq<Call>, update: Call)
    ensures UpdatesOnly(a, update) && UpdatesOnly(b, update) ==> UpdatesOnly(a + b, update)
  {
    if UpdatesOnly(a, update) && UpdatesOnly(b, update) {
      forall i | 0 <= i < |a + b| && (a + b)[i].UpdateIdea? ensures (a + b)[i] == update {
        if i >= |a| {
          assert (a + b)[i] == b[i - |a|];
        }
      }
    }
  }

  /** `triggerEnrichment`: read the categories, enrich, then save. A failure to read the
      categories or to enrich skips the rest and sends the failure notice. */
  method TriggerEnrichment(ideaId: string, ideaText: string, chatId: int, o: Outcomes) returns (calls: seq<Call>)
    ensures |calls| >= 2 && calls[0] == GetCategories
    ensures calls[|calls| - 1].Send? || calls[|calls| - 1].SendAnalysis?
    ensures calls[|calls| - 1].chatId == chatId
    ensures o.categories.Err? ==> |calls| == 2 && calls[1] == Send(chatId, AnalysisFailedText(o.categories.error.message))
    ensures o.categories.Ok? ==> calls[1] == Enrich(ideaText, o.categories.value)
    ensures o.categories.Ok? && o.enriched.Err? ==> |calls| == 3
    ensures o.categories.Ok? && o.enriched.Ok? ==>
              && |calls| >= 4
              && Reconciles(calls[2..], ideaId, chatId,
                   EnrichLite.ShouldAddCategory(false, o.enriched.value.enrichedIdea.category, o.categories.value), o.enriched.value.enrichedIdea.category, o)
              && UpdatesOnly(calls, UpdateIdea(ideaId, EnrichLite.EnrichmentUpdate(o.enriched.value.enrichedIdea.category)))
    ensures o.categories.Err? || o.enriched.Err? ==> NoEnrichmentWrite(calls)
  {
    if o.categories.Err? {
      return [GetCategories, Send(chatId, AnalysisFailedText(o.categories.error.message))];
    }
    var categories := o.categories.value;
    if o.enriched.Err? {
      return [GetCategories, Enrich(ideaText, categories), Send(chatId, AnalysisFailedText(o.enriched.error.message))];
    }
    calls := ReadThenSave(ideaId, ideaText, chatId, categories, o.enriched.value.enrichedIdea.category, o);
  }

  /** The calls of `triggerEnrichment` once the categories are read and the analysis is in: the
      reads, then the save of the verdict. */
  method ReadThenSave(ideaId: string, ideaText: string, chatId: int, categories: seq<Notion.CategoryOption>,
                      verdict: OpenAI.CategoryVerdict, o: Outcomes) returns (calls: seq<Call>)
    ensures |calls| >= 4 && calls[0] == GetCategories && calls[1] == Enrich(ideaText, categories)
    ensures (calls[|calls| - 1].Send? || calls[|calls| - 1].SendAnalysis?) && calls[|calls| - 1].chatId == chatId
    ensures Reconciles(calls[2..], ideaId, chatId, EnrichLite.ShouldAddCategory(false, verdict, categories), verdict, o)
    ensures UpdatesOnly(calls, UpdateIdea(ideaId, EnrichLite.EnrichmentUpdate(verdict)))
  {
    var saving := SaveEnrichment(ideaId, chatId, EnrichLite.ShouldAddCategory(false, verdict, categories), verdict, o);
    var reading := [GetCategories, Enrich(ideaText, categories)];
    calls := reading + saving;
    UpdatesOnlyAppend(reading, saving, UpdateIdea(ideaId, EnrichLite.EnrichmentUpdate(verdict)));
    assert calls[2..] == saving;
    assert calls[|calls| - 1] == saving[|saving| - 1];
  }

  /** What `triggerEnrichment` does once the categories are read and the analysis is in, where
      `adds` is `EnrichLite.ShouldAddCategory` of the analysis and the categories (the model is
      confident and no option has the name in any ASCII case): the suggested category is added
      first exactly when `adds` holds, and no other call adds one, since every case fixes the
      calls that follow; a failed addition ends with the failure notice; otherwise category,
      confidence and the 'Enriched' status are saved, and the analysis is sent exactly when the
      save succeeds. */
  predicate Reconciles(saving: seq<Call>, ideaId: string, chatId: int, adds: bool, verdict: OpenAI.CategoryVerdict, o: Outcomes)
  {
    var update := UpdateIdea(ideaId, EnrichLite.EnrichmentUpdate(verdict));
    && |saving| >= 2
    && (adds <==> saving[0] == AddCategory(verdict.name))
    && (adds && o.added.Err? ==> |saving| == 2 && saving[1] == Send(chatId, AnalysisFailedText(o.added.error.message)))
    && (!adds || o.added.Ok? ==>
          && |saving| == (if adds then 3 else 2)
          && saving[|saving| - 2] == update
          && (o.updated.Ok? ==> saving[|saving| - 1] == SendAnalysis(chatId, verdict.name, verdict.confidence, NotionUrl(ideaId)))
          && (o.updated.Err? ==> saving[|saving| - 1] == Send(chatId, AnalysisFailedText(o.updated.error.message))))
  }

  /** The rest of `triggerEnrichment` once the analysis is in: add the suggested category when
      `addCategory` says so (the model is confident and no option has the name), save category,
      confidence and status, and send the analysis. A failure to add the category skips the save.
      The update carries no business plan: the analysis has no `businessPlanContent`. */
  method SaveEnrichment(ideaId: string, chatId: int, addCategory: bool,
                        verdict: OpenAI.CategoryVerdict, o: Outcomes) returns (calls: seq<Call>)
    ensures Reconciles(calls, ideaId, chatId, addCategory, verdict, o)
    ensures (calls[|calls| - 1].Send? || calls[|calls| - 1].SendAnalysis?) && calls[|calls| - 1].chatId == chatId
    ensures UpdatesOnly(calls, UpdateIdea(ideaId, EnrichLite.EnrichmentUpdate(verdict)))
  {
    if addCategory && o.added.Err? {
      return [AddCategory(verdict.name), Send(chatId, AnalysisFailedText(o.added.error.message))];
    }
    var saving := SaveVerdict(ideaId, chatId, verdict, o.updated);
    if addCategory {
      calls := [AddCategory(verdict.name), saving[0], saving[1]];
    } else {
      calls := [saving[0], saving[1]];
    }
  }

  /** The save and its reply: the analysis once the update succeeds, the failure notice otherwise. */
  method SaveVerdict(ideaId: string, chatId: int, verdict: OpenAI.CategoryVerdict, updated: Outcome<()>)
    returns (calls: seq<Call>)
    ensures |calls| == 2 && calls[0] == UpdateIdea(ideaId, EnrichLite.EnrichmentUpdate(verdict))
    ensures (calls[1].Send? || calls[1].SendAnalysis?) && calls[1].chatId == chatId
    ensures updated.Ok? <==> calls[1] == SendAnalysis(chatId, verdict.name, verdict.confidence, NotionUrl(ideaId))
    ensures updated.Err? ==> calls[1] == Send(chatId, AnalysisFailedText(updated.error.message))
  {
    var update := UpdateIdea(ideaId, EnrichLite.EnrichmentUpdate(verdict));
    if updated.Err? {
      calls := [update, Send(chatId, AnalysisFailedText(updated.error.message))];
    } else {
      calls := [update, SendAnalysis(chatId, verdict.name, verdict.confidence, NotionUrl(ideaId))];
    }
  }


  // ---------------------------------------------------------------------------------------------
  // The endpoint
  // ---------------------------------------------------------------------------------------------

  /** The webhook: validate, then route a message to the command handler or to capture. Only a
      missing environment variable reaches the catch block, which tells a chat read from
      `message` and answers 500. */
  method HandleWebhook(verb: string, missingEnv: seq<string>, update: Option<Update>,
                       client: Telegram.TelegramClient, stats: Outcome<Notion.IdeaStats>, o: Outcomes)
    returns (calls: seq<Call>, resp: Response<TelegramReply>)
    ensures verb == "OPTIONS" ==> calls == [] && resp == Response(200, NoContent)
    ensures verb != "OPTIONS" && verb != "POST" ==> calls == [] && resp == Response(405, Reply(ErrorReply("Method not allowed", None)))
    ensures verb == "POST" && missingEnv != [] ==> resp.status == 500 && NoNotionWrite(calls)
    ensures verb == "POST" && missingEnv == [] && !IsValidTelegramUpdate(update) ==>
              calls == [] && resp == Response(400, Reply(ErrorReply("Invalid Telegram update", None)))
    ensures verb == "POST" && missingEnv == [] && IsValidTelegramUpdate(update) ==> resp == Response(200, Reply(OkReply))
    ensures verb == "POST" && missingEnv == [] && IsValidTelegramUpdate(update) && update.value.message.None? ==> calls == []
    ensures verb == "POST" && missingEnv == [] && IsValidTelegramUpdate(update) && update.value.message.Some? && IsCommand(update.value.message.value) ==>
              NoNotionWrite(calls)
    ensures verb == "POST" && missingEnv == [] && IsValidTelegramUpdate(update) && update.value.message.Some? && !IsCommand(update.value.message.value) ==>
              |calls| >= 2 && calls[0] == Send(update.value.message.value.chatId, ProcessingText)
  {
    calls := [];
    if verb == "OPTIONS" {
      return calls, Response(200, NoContent);
    }
    if verb != "POST" {
      return calls, Response(405, Reply(ErrorReply("Method not allowed", None)));
    }
    if missingEnv != [] {
      var message := "Missing required environment variables: " + Join(missingEnv, ", ");
      if update.Some? && update.value.message.Some? && update.value.message.value.chatId != 0 {
        calls := [Send(update.value.message.value.chatId, "\U{26A0}\U{FE0F} Something went wrong: " + message + "\n\nPlease try again.")];
      }
      return calls, Response(500, Reply(ErrorReply("Internal server error", Some(message))));
    }
    if !IsValidTelegramUpdate(update) {
      return calls, Response(400, Reply(ErrorReply("Invalid Telegram update", None)));
    }
    if update.value.message.Some? {
      var m := update.value.message.value;
      if IsCommand(m) {
        calls := HandleCommand(m, client, stats);
      } else {
        calls := HandleIdeaCapture(m, o);
      }
    }
    resp := Response(200, Reply(OkReply));
  }
}

=== FILE: wrappers.dfy ===
/** Failure-carrying values shared by every module of the model. */
module Wrappers {

  datatype Option<+T> = None | Some(value: T)

  datatype Result<+T, +E> = Ok(value: T) | Err(error: E)

  /** What a JavaScript `Error` thrown by an adapter or by the code itself carries here: its
      `message`, its `code` (the Notion SDK's `rate_limited`, or "" when absent) and its `status`
      (the HTTP status some SDK errors carry). */
  datatype Failure = Failure(message: string, code: string, status: Option<int>)

  /** The outcome of one awaited call: the value it resolves to, or the error it throws. */
  type Outcome<T> = Result<T, Failure>

  /** An error built by `new Error(message)`: no code, no status. */
  function Fail(message: string): Failure
  {
    Failure(message, "", None)
  }

  /** JavaScript truthiness of an optional string: absent and "" are both falsy. */
  predicate Truthy(s: Option<string>)
  {
    s.Some? && s.value != ""
  }

  /** `s || fallback` for an optional string. */
  function Or(s: Option<string>, fallback: string): (r: string)
    ensures Truthy(s) ==> r == s.value
    ensures !Truthy(s) ==> r == fallback
  {
    if Truthy(s) then s.value else fallback
  }

  /** How a template literal renders an optional string: `undefined` when absent. */
  function Render(s: Option<string>): string
  {
    if s.Some? then s.value else "undefined"
  }
}
